=== FILE: README.md ===
# Territorial rule engine in Dafny

Territorial is a Minecraft (Forge) mod. A server administrator writes rules that say where crops may grow and where animals may breed. This project models the part of the mod that evaluates those rules:

- **Rules.** A rule is a `PlantGrowthConfig` or an `AnimalBreedingConfig`. It carries the fields they share (enabled, allow, biomes, a temperature range, three coordinate ranges, a dimension whitelist and blacklist, and the deprecated single `dimension`) plus the rule's crop or animal type patterns. The model covers the constructor defaults, the null-tolerant list getters, the `setDimension`/`setDimensions`/`getDimension` compatibility layer, `validate()`, `getSpecificity()` and `equals()`.
- **Matchers** (`RuleMatcher`). They handle type patterns (`*`, `ns:*`, exact ids), biome patterns (the same, plus `#tag`), inclusive temperature and coordinate ranges, and the whitelist/blacklist dimension test with its deprecated single-id variant.
- **The decision** (`EventDecisionManager.canEventOccur`). It runs in this order:
  - consult the verdict cache;
  - check the category toggle;
  - an empty rule list allows;
  - among the enabled rules whose subject matches and whose every criterion matches, the most specific decides, with ties going to the rule listed first;
  - otherwise a whitelist/blacklist fallback decides.

  It also keeps the four performance counters.
- **The verdict cache** (`RuleCache`). It is a `LinkedHashMap` in access order whose eldest entry is dropped once the size exceeds the bound. It is modelled as an association list ordered from least to most recently accessed.
- **Loading** (`ConfigLoader`). A rules table is turned into a rule with defaults. A mistyped key rejects the rule silently. Rules that fail `validate()` are counted and dropped. Valid rules are kept in file order. A non-table array element aborts the parse but keeps what was accepted before it. `reloadConfiguration` empties both lists and clears the cache before loading.
- **The Farmer's Almanac text** (`AlmanacContentGenerator`). It covers:
  - `capitalize`, `formatCoordRange`, `formatResourceIds` and the biome-name fallback;
  - the condition bullets with their "Anywhere" line;
  - rule numbering over enabled rules;
  - the greedy page splitting;
  - the assembly of the page list with its "no rules" page.

Host services are parameters of datatypes, not code:

- **Biomes and levels.** `BiomeHolder` carries the optional registry id, the base temperature as a `real`, and a tag-membership predicate. `Level` carries its dimension id and a biome lookup by position.
- **Almanac host.** The almanac's `Host` carries the biome-registry test and Java's `Float.toString` text.
- **Clock.** The elapsed time that `canEventOccur` adds to its total is an argument.

| file | module | Java source |
|---|---|---|
| wrappers.dfy | `Wrappers` | `Option` for Java's `null` |
| numbers.dfy | `Numbers` | 32-bit `int` and `Number.intValue()` |
| text.dfy | `Text` | `String.split`, `replace`, ASCII case mapping, decimal printing |
| rules.dfy | `Rules` | `EventRuleConfig`, `PlantGrowthConfig`, `AnimalBreedingConfig` |
| events.dfy | `Events` | `EventType`, `EventContext` |
| matcher.dfy | `Matcher` | `RuleMatcher`, `ResourceLocation.tryParse` |
| settings.dfy | `Settings` | `Config` (toggles and rule lists) |
| cache.dfy | `Cache` | `RuleCache` |
| ranking.dfy | `Ranking` | the stable descending sort by specificity and its reference definition |
| decision.dfy | `Decision` | `EventDecisionManager` |
| loader.dfy | `Loader` | `ConfigLoader` |
| almanac.dfy | `Almanac` | `AlmanacContentGenerator` |

Where the code and its design description disagree, the model follows the code:

- **Cache before toggle.** `canEventOccur` consults the cache before the category toggle, so a verdict cached while a toggle was on is still returned after the toggle is switched off (`Decision.CacheHitIgnoresConfiguration`).
- **Whitelist fallback.** When no rule matches fully, any applicable rule with a non-empty whitelist denies the event, even if the current dimension is on that whitelist and some other criterion failed (`Decision.WhitelistFallbackDeniesListedDimension`).
- **Page length.** The page-length test compares the page plus the paragraph against 256 but then also appends a `"\n"`, so a page can hold 257 characters (`Almanac.PageLengthBound`).

## Model

| member | source | states |
|---|---|---|
| Numbers.WrapToInt32 | src/main/java/com/west3436/territorial/config/ConfigLoader.java:486-489 | `Long.intValue()` keeps the value modulo 2^32 and is the identity on values that fit in an `int` |
| Numbers.TruncToInt32 | src/main/java/com/west3436/territorial/config/ConfigLoader.java:486-489 | `Double.intValue()` rounds toward zero, stays within one of the input inside the `int` range, and saturates at both ends |
| Text.Capitalize | src/main/java/com/west3436/territorial/util/AlmanacContentGenerator.java:320-328 | same length; the first letter is not lower case; no later letter is upper case; every character agrees with the input up to case |
| Text.CapitalizeIdempotent | src/main/java/com/west3436/territorial/util/AlmanacContentGenerator.java:320-328 | capitalising twice gives the same text as capitalising once |
| Text.CapitalizeWord | src/main/java/com/west3436/territorial/util/AlmanacContentGenerator.java:320-328 | a word with no capitals after its first letter only has that letter raised |
| Text.ReplaceChar | src/main/java/com/west3436/territorial/util/AlmanacContentGenerator.java:266-268 | `replace("_", " ")` changes exactly the underscores and nothing else |
| Text.DropTrailingEmpty | src/main/java/com/west3436/territorial/util/AlmanacContentGenerator.java:258 | the result is the longest prefix that does not end in an empty piece; everything dropped is empty |
| Text.JoinSplitAll | src/main/java/com/west3436/territorial/util/AlmanacContentGenerator.java:258 | joining the pieces of a split with the separator gives back the original string |
| Text.JavaSplit | src/main/java/com/west3436/territorial/util/AlmanacContentGenerator.java:258 | with no separator the string is its own single piece; otherwise the pieces are the full split with exactly its trailing empty pieces removed: a prefix of it, ending in a non-empty piece, with every dropped piece empty |
| Text.SplitAllAtFirst | src/main/java/com/west3436/territorial/util/AlmanacContentGenerator.java:258 | for a text `a` without the separator, splitting `a`, the separator and `b` gives `a` followed by the pieces of `b` |
| Text.JavaSplitQualified | src/main/java/com/west3436/territorial/util/AlmanacContentGenerator.java:258-259 | `"ns:path".split(":")` has exactly the two parts `ns` and `path` |
| Text.NatToString | src/main/java/com/west3436/territorial/util/AlmanacContentGenerator.java:101 | a rule number prints as a non-empty string of digits with no leading zero |
| Text.ParseNatToString | src/main/java/com/west3436/territorial/util/AlmanacContentGenerator.java:101 | reading the printed digits back gives the number |
| Text.IntToStringRoundTrip | src/main/java/com/west3436/territorial/util/AlmanacContentGenerator.java:309-318 | a coordinate bound, printed in decimal with its sign, reads back as the same integer |
| Rules.ListOrEmpty | src/main/java/com/west3436/territorial/config/EventRuleConfig.java:115-117 | a null list reads as empty; otherwise the stored list is returned unchanged |
| Rules.NewBaseRule | src/main/java/com/west3436/territorial/config/EventRuleConfig.java:98-104 | a new rule is enabled and allowing, has empty biome, whitelist and blacklist lists, and no bounds |
| Rules.NewPlantGrowthRule | src/main/java/com/west3436/territorial/config/PlantGrowthConfig.java:21-24 | a new plant rule has the base defaults and an empty crop list |
| Rules.NewAnimalBreedingRule | src/main/java/com/west3436/territorial/config/AnimalBreedingConfig.java:21-24 | a new animal rule has the base defaults and an empty animal list |
| Rules.SetDimension | src/main/java/com/west3436/territorial/config/EventRuleConfig.java:220-229 | a non-empty id becomes a one-entry whitelist; a null or empty id empties the whitelist; the raw value is kept; no other field changes |
| Rules.SetDimensions | src/main/java/com/west3436/territorial/config/EventRuleConfig.java:236-241 | stores the whitelist, clears the deprecated field, and changes nothing else |
| Rules.GetDimension | src/main/java/com/west3436/territorial/config/EventRuleConfig.java:151-157 | the first whitelist entry if there is one, else the deprecated field |
| Rules.SetDimensionRoundTrip | src/main/java/com/west3436/territorial/config/EventRuleConfig.java:151-157 | `getDimension()` after `setDimension(d)` returns `d`, whether `d` is null, empty or an id |
| Rules.Validate | src/main/java/com/west3436/territorial/config/EventRuleConfig.java:251-278 | valid exactly when no range (temperature, x, y, z) has min above max and the whitelist and blacklist are not both non-empty |
| Rules.NewRulesAreValid | src/main/java/com/west3436/territorial/config/EventRuleConfig.java:98-104 | a freshly constructed rule of either kind validates |
| Rules.SingleValueRangesAreValid | src/main/java/com/west3436/territorial/config/EventRuleConfig.java:253-268 | ranges whose min equals their max are accepted |
| Rules.BaseSpecificity | src/main/java/com/west3436/territorial/config/EventRuleConfig.java:285-307 | the score lies in 0..40, and within ten of ten points per bounded axis |
| Rules.CriterionWeights | src/main/java/com/west3436/territorial/config/EventRuleConfig.java:285-307 | adding a bound on an axis adds 10, a temperature bound 5, biomes 3, a whitelist 2 and a blacklist 1; a blacklist adds nothing once a whitelist exists |
| Rules.MoreBoundedAxesNeverScoreLower | src/main/java/com/west3436/territorial/config/EventRuleConfig.java:288-291 | a rule bounding more axes never scores below one bounding fewer, whatever else either restricts |
| Rules.TypeBonus | src/main/java/com/west3436/territorial/config/PlantGrowthConfig.java:34-49 | the type bonus is 0 exactly for no patterns and 1 exactly when some pattern is `*` or ends in `:*`, else 2 |
| Rules.Specificity | src/main/java/com/west3436/territorial/config/AnimalBreedingConfig.java:34-49 | a rule's specificity is its base score plus the type bonus: 0 with no patterns, 1 when some pattern is `*` or ends in `:*`, else 2; so it lies between the base score and the base score plus 2, and is at most 42 |
| Rules.TypePatterns | src/main/java/com/west3436/territorial/config/PlantGrowthConfig.java:26-28 | a plant rule's patterns are its crop list and an animal rule's its animal list, with null read as empty |
| Rules.EqualsIgnoresDeprecatedDimension | src/main/java/com/west3436/territorial/config/EventRuleConfig.java:309-327 | `equals` ignores the deprecated single `dimension` but tells a null type list from an empty one |
| Rules.SameRuleSameBehaviour | src/main/java/com/west3436/territorial/config/EventRuleConfig.java:309-327 | rules that are `equals` have the same specificity, validity, patterns, allow and enabled |
| Rules.SameRuleIsEquivalence | src/main/java/com/west3436/territorial/config/PlantGrowthConfig.java:51-58 | `equals` is reflexive, symmetric and transitive |
| Events.ForPlantGrowth | src/main/java/com/west3436/territorial/event/EventContext.java:42-45 | a plant-growth context with the biome looked up at the given position; the getters return what was passed in |
| Events.ForAnimalBreeding | src/main/java/com/west3436/territorial/event/EventContext.java:50-53 | an animal-breeding context with the biome looked up at the given position |
| Events.FactoriesDifferOnlyInEventType | src/main/java/com/west3436/territorial/event/EventContext.java:42-53 | the two factories build the same context except for the event type, and never the same one |
| Matcher.IndexOfChar | src/main/java/com/west3436/territorial/util/RuleMatcher.java:80 | the first position of the character, or -1 exactly when it is absent |
| Matcher.ParseLocation | src/main/java/com/west3436/territorial/util/RuleMatcher.java:80 | a bare path gets the `minecraft` namespace, and so does a leading colon; an `ns:path` id parses, to itself, iff every namespace character is in the namespace alphabet and every path character in the path alphabet; any other character fails the parse |
| Matcher.GlobalWildcardAcceptsAll | src/main/java/com/west3436/territorial/util/RuleMatcher.java:257-259 | `*` accepts every id |
| Matcher.NamespaceWildcardAccepts | src/main/java/com/west3436/territorial/util/RuleMatcher.java:262-267 | `ns:*` accepts exactly the ids starting with `ns:` |
| Matcher.PlainPatternIsExact | src/main/java/com/west3436/territorial/util/RuleMatcher.java:269-271 | any other pattern accepts only the identical id |
| Matcher.MatchesEntityType | src/main/java/com/west3436/territorial/util/RuleMatcher.java:244-275 | an empty list matches everything; otherwise some non-empty pattern must accept the id |
| Matcher.OnlyEmptyPatternsMatchNothing | src/main/java/com/west3436/territorial/util/RuleMatcher.java:252-254 | a non-empty list made only of empty patterns matches no id |
| Matcher.MatchesBiome | src/main/java/com/west3436/territorial/util/RuleMatcher.java:45-116 | an empty list matches; an unavailable biome id fails a non-empty list; otherwise some non-empty pattern must accept the biome |
| Matcher.TagPatternOnlyThroughTag | src/main/java/com/west3436/territorial/util/RuleMatcher.java:78-95 | a `#` pattern succeeds exactly when its tag parses and the biome is in it, whatever the biome's id |
| Matcher.MatchesTemperature | src/main/java/com/west3436/territorial/util/RuleMatcher.java:126-142 | inclusive range check in which an absent bound imposes nothing |
| Matcher.MatchesCoordinates | src/main/java/com/west3436/territorial/util/RuleMatcher.java:156-181 | every present bound on every axis holds, inclusively |
| Matcher.ValidCoordinatesAreSatisfiable | src/main/java/com/west3436/territorial/util/RuleMatcher.java:156-181 | any rule that validates is met by some position |
| Matcher.MatchesDimension | src/main/java/com/west3436/territorial/util/RuleMatcher.java:195-213 | a non-empty whitelist decides by membership; otherwise a non-empty blacklist decides by non-membership; otherwise true |
| Matcher.ValidRuleDimensionCheck | src/main/java/com/west3436/territorial/util/RuleMatcher.java:195-213 | for a valid rule the dimension test is "whitelisted or no whitelist, and not blacklisted" |
| Matcher.MatchesDimensionId | src/main/java/com/west3436/territorial/util/RuleMatcher.java:224-231 | a null or empty id matches everything; otherwise the test is string equality |
| Matcher.DeprecatedDimensionAgrees | src/main/java/com/west3436/territorial/util/RuleMatcher.java:224-231 | the single-id check agrees with the list check applied after `setDimension` |
| Settings.DefaultToggles | src/main/java/com/west3436/territorial/Config.java:43-74 | the declared spec values: the biome, coordinate, plant, animal, Dynmap and Jade controls are on, debug logging and the first-join almanac off |
| Settings.InitialConfig | src/main/java/com/west3436/territorial/Config.java:79-91 | before `onLoad` runs, the eight static toggles hold Java's `false` and both rule lists are empty |
| Settings.UnloadedToggles | src/main/java/com/west3436/territorial/Config.java:79-86 | every static toggle field is `false` until loaded |
| Settings.OnLoad | src/main/java/com/west3436/territorial/Config.java:101-112 | `onLoad` installs exactly the loaded spec values as the toggles and leaves both rule lists alone |
| Settings.FirstLoadInstallsDefaults | src/main/java/com/west3436/territorial/Config.java:43-112 | the plant control is off before the first `onLoad`; a file keeping the declared defaults turns the four rule controls on and debug logging off, with the lists still empty |
| Settings.OnLoadOverwrites | src/main/java/com/west3436/territorial/Config.java:101-112 | a second `onLoad` overwrites the first entirely, and `onLoad` commutes with installing a fresh plant rule list |
| Settings.SetPlantGrowthRules | src/main/java/com/west3436/territorial/Config.java:134-139 | the plant list becomes the given rules in order, or empty for null; the animal list and the toggles are unchanged |
| Settings.SetAnimalBreedingRules | src/main/java/com/west3436/territorial/Config.java:145-150 | the animal list becomes the given rules in order, or empty for null; the plant list and the toggles are unchanged |
| Settings.RuleSettersCommute | src/main/java/com/west3436/territorial/Config.java:134-150 | setting one category never disturbs the other, so the two setters commute |
| Cache.NewRuleCache | src/main/java/com/west3436/territorial/util/RuleCache.java:108-112 | a new cache is empty, well formed, and has the requested bound |
| Cache.DefaultRuleCache | src/main/java/com/west3436/territorial/util/RuleCache.java:99-101 | the default bound is 1000 |
| Cache.LruGet | src/main/java/com/west3436/territorial/util/RuleCache.java:80-91 | a get returns the stored verdict, keeps the same map, makes a hit the most recent entry, and leaves the order of the other entries alone |
| Cache.LruPut | src/main/java/com/west3436/territorial/util/RuleCache.java:80-91 | a put on a present key updates it and makes it most recent; a new key is appended; a new key on a full cache also drops the eldest entry; the result is well formed |
| Cache.Clear | src/main/java/com/west3436/territorial/util/RuleCache.java:204-208 | after `clear()` the size is 0 and no key is present |
| Cache.Size | src/main/java/com/west3436/territorial/util/RuleCache.java:215-219 | the size is the number of distinct keys and never exceeds the bound |
| Cache.MaxSizeIsFixed | src/main/java/com/west3436/territorial/util/RuleCache.java:226-228 | the reported bound never changes under get, put or clear, and the size never exceeds it |
| Cache.PutRespectsBound | src/main/java/com/west3436/territorial/util/RuleCache.java:88-91 | after any put the size is at most the bound |
| Cache.PutThenGet | src/main/java/com/west3436/territorial/util/RuleCache.java:143-198 | with room for one entry, a get right after a put returns the value put |
| Cache.EvictsLeastRecentlyAccessed | src/main/java/com/west3436/territorial/util/RuleCache.java:80-91 | a new key on a full cache evicts exactly the least recently accessed entry and keeps every other entry's value |
| Cache.GetProtectsFromEviction | src/main/java/com/west3436/territorial/util/RuleCache.java:80-91 | an entry just read survives the next eviction |
| Cache.KeyOf | src/main/java/com/west3436/territorial/util/RuleCache.java:119-131 | a context has a key exactly when its biome id is available, and the key holds the context's five components |
| Cache.SameKeyIffSameComponents | src/main/java/com/west3436/territorial/util/RuleCache.java:59-69 | two keys are equal iff event type, dimension, position, biome id and subject are all equal |
| Cache.Get | src/main/java/com/west3436/territorial/util/RuleCache.java:143-165 | a null context or an unavailable biome id gives no verdict and leaves the cache alone; otherwise it is the LRU get |
| Cache.Put | src/main/java/com/west3436/territorial/util/RuleCache.java:176-198 | a null context or an unavailable biome id leaves the cache unchanged; otherwise it is the LRU put |
| Ranking.SortDescending | src/main/java/com/west3436/territorial/event/EventDecisionManager.java:185-186 | the sort is a permutation of its input and is non-increasing in the key |
| Ranking.SortHeadIsFirstMaximum | src/main/java/com/west3436/territorial/event/EventDecisionManager.java:185-189 | the head of the stable descending sort is the first element of maximal key |
| Ranking.EarlierWinsTie | src/main/java/com/west3436/territorial/event/EventDecisionManager.java:185-189 | of two equally specific rules, the one listed first comes first |
| Ranking.FilterFirstMaximum | src/main/java/com/west3436/territorial/event/EventDecisionManager.java:107-131 | the first maximum of the collected matches is the rule that the position-based reference definition picks |
| Decision.NewManager | src/main/java/com/west3436/territorial/event/EventDecisionManager.java:28-34 | a fresh manager has an empty 1000-entry cache and zero counters |
| Decision.RulesForEventType | src/main/java/com/west3436/territorial/event/EventDecisionManager.java:213-222 | plant events read the plant list and animal events read the animal list |
| Decision.ApplicableRules | src/main/java/com/west3436/territorial/event/EventDecisionManager.java:107-118 | a rule is collected as applicable iff it is in the list, enabled, and its kind and type patterns accept the subject |
| Decision.MatchingRules | src/main/java/com/west3436/territorial/event/EventDecisionManager.java:107-130 | a rule is collected as matching iff it is in the list, enabled, and meets every criterion; every matching rule is also applicable |
| Decision.EntityTypeMatches | src/main/java/com/west3436/territorial/event/EventDecisionManager.java:290-302 | a rule applies to a subject only when its kind matches the event's category and its type patterns accept the subject |
| Decision.RuleMatches | src/main/java/com/west3436/territorial/event/EventDecisionManager.java:240-279 | full match means: the dimension test; biome and temperature only when biome control is on; coordinates only when coordinate control is on; and the subject test |
| Decision.OtherCategoryNeverApplies | src/main/java/com/west3436/territorial/event/EventDecisionManager.java:290-302 | a rule of the other category neither applies nor matches |
| Decision.FallbackVerdict | src/main/java/com/west3436/territorial/event/EventDecisionManager.java:133-181 | with no full match, deny iff some applicable rule has any whitelist or blacklists the current dimension |
| Decision.Decide | src/main/java/com/west3436/territorial/event/EventDecisionManager.java:80-204 | the outcome is: toggle off; empty rule list; a winner iff some rule matches fully, that winner being the first most specific full match; otherwise the fallback over the applicable rules |
| Decision.WinnerOfMatches | src/main/java/com/west3436/territorial/event/EventDecisionManager.java:185-189 | the head of the sorted matches is a rule that matches fully, is maximal, and is preceded only by strictly less specific matches |
| Decision.OnlyDisabledRulesAllow | src/main/java/com/west3436/territorial/event/EventDecisionManager.java:107-112 | a category whose rules are all disabled allows every event through the fallback |
| Decision.WhitelistFallbackDeniesListedDimension | src/main/java/com/west3436/territorial/event/EventDecisionManager.java:138-147 | a rule whitelisting the current dimension, but failing on biome, still makes the event denied |
| Decision.CanEventOccur | src/main/java/com/west3436/territorial/event/EventDecisionManager.java:58-205 | counts every call; a null context allows; a cached verdict is returned as a hit and refreshes that entry's recency as the cache's get does; a miss is counted and decided; a fallback or rule verdict is put into the cache as read, with every other entry handled by the LRU put; only a rule verdict adds the elapsed time |
| Decision.CanPlantGrow | src/main/java/com/west3436/territorial/event/EventDecisionManager.java:314-320 | with nothing cached, the verdict is the decision for the plant context at the position |
| Decision.CanAnimalBreed | src/main/java/com/west3436/territorial/event/EventDecisionManager.java:331-337 | with nothing cached, the verdict is the decision for the animal context at the position |
| Decision.CanEventOccurFor | src/main/java/com/west3436/territorial/event/EventDecisionManager.java:343-356 | dispatches on the event type to the plant or animal entry point |
| Decision.ClearCache | src/main/java/com/west3436/territorial/event/EventDecisionManager.java:362-368 | empties the cache, keeps its bound, and leaves the counters alone |
| Decision.GetCacheSize | src/main/java/com/west3436/territorial/event/EventDecisionManager.java:374-376 | the reported size is the number of distinct contexts in the cache, as `cache.size()` counts them, and never exceeds the bound |
| Decision.ResetPerformanceStats | src/main/java/com/west3436/territorial/event/EventDecisionManager.java:413-417 | all four counters become zero and the cache is untouched |
| Decision.CacheHitIgnoresConfiguration | src/main/java/com/west3436/territorial/event/EventDecisionManager.java:69-77 | a cached verdict is returned under any configuration, toggles included |
| Decision.RepeatedQueryIsStable | src/main/java/com/west3436/territorial/event/EventDecisionManager.java:69-198 | asking twice gives the same verdict, and the second query of a stored verdict is a cache hit |
| Decision.ClearCacheForcesFreshDecision | src/main/java/com/west3436/territorial/event/EventDecisionManager.java:362-364 | after clearing, the verdict is decided afresh from the configuration |
| Decision.CanEventOccurKeepsStatsConsistent | src/main/java/com/west3436/territorial/event/EventDecisionManager.java:58-79 | hits plus misses never exceed evaluations, across every call and after a reset |
| Loader.BoolAt | src/main/java/com/west3436/territorial/config/ConfigLoader.java:461-466 | a typed read is missing exactly when the key is absent, and mistyped exactly when the value has another type |
| Loader.ReadBase | src/main/java/com/west3436/territorial/config/ConfigLoader.java:459-530 | some base read fails its cast exactly when some base key has the wrong type |
| Loader.ParseBase | src/main/java/com/west3436/territorial/config/ConfigLoader.java:459-530 | parsing fails exactly when a base key has the wrong type; otherwise `enabled` and `allow` are the stored flag or true when absent, each list key is the stored list or empty when absent, each bound is the stored number (coordinates cut to 32 bits) or none when absent, a `dimensions` list wins over `dimension`, and a lone `dimension` becomes a one-entry whitelist, or none if it is empty |
| Loader.AsCoordinate | src/main/java/com/west3436/territorial/config/ConfigLoader.java:486-514 | an integer coordinate that fits in 32 bits is stored unchanged |
| Loader.ParseRule | src/main/java/com/west3436/territorial/config/ConfigLoader.java:417-457 | a rule parses iff its base keys and its type-pattern key are well typed; it has the section's kind and the parsed base; a present `crop_types`/`animal_types` list becomes the rule's patterns, an absent one leaves the constructor's empty list |
| Loader.EmptyTableGivesDefaults | src/main/java/com/west3436/territorial/config/ConfigLoader.java:459-466 | a table with no keys yields exactly the constructor's defaults, enabled and allow included |
| Loader.ParseEncodeRoundTrip | src/main/java/com/west3436/territorial/config/ConfigLoader.java:459-530 | writing a rule's fields as a table and parsing it gives back the rule: every present key sets exactly its field |
| Loader.EncodeLookups | src/main/java/com/west3436/territorial/config/ConfigLoader.java:459-530 | each base key of an encoded rule reads back as that field's value |
| Loader.MistypedRuleIsSkippedSilently | src/main/java/com/west3436/territorial/config/ConfigLoader.java:384-388 | a rule with a mistyped key is dropped without counting as invalid |
| Loader.LoadEntries | src/main/java/com/west3436/territorial/config/ConfigLoader.java:383-401 | every accepted rule has the section's kind and validates; the section aborts iff it holds a non-table element; at most one outcome per element |
| Loader.LoadSection | src/main/java/com/west3436/territorial/config/ConfigLoader.java:381-401 | an absent section loads nothing; a section that is not an array throws; an array keeps exactly the rules of `Loader.Kept`, throws iff it holds a non-table element, and counts an invalid rule iff a reached rule failed `validate()` |
| Loader.ValidEntriesLoadInOrder | src/main/java/com/west3436/territorial/config/ConfigLoader.java:384-401 | a section of parsable valid rules is loaded whole, in file order, with no invalid count |
| Loader.Reached | src/main/java/com/west3436/territorial/config/ConfigLoader.java:384-388 | the loop reaches every element before the first non-table element, and stops there |
| Loader.LoadEntriesKeepsCleanRules | src/main/java/com/west3436/territorial/config/ConfigLoader.java:384-411 | for any mixture of valid, invalid, mistyped and non-table elements, the accepted list is exactly the rules of the reached tables that parse and validate, in file order |
| Loader.AbortKeepsEarlierRules | src/main/java/com/west3436/territorial/config/ConfigLoader.java:384-411 | a non-table element keeps the rules accepted before it and reads nothing after it |
| Loader.InvalidCountMeansRejection | src/main/java/com/west3436/territorial/config/ConfigLoader.java:536-541 | the section's invalid count is positive iff some reached rule parsed and then failed `validate()` |
| Loader.ParseConfiguration | src/main/java/com/west3436/territorial/config/ConfigLoader.java:367-411 | both lists are replaced by admissible rules; an unreadable file empties them; otherwise the plant list is exactly the rules the plant section kept, the animal list is the rules the animal section kept or empty if the plant section threw, and the invalid count is positive iff a reached rule was rejected in a section that was read; the toggles are untouched |
| Loader.LoadConfiguration | src/main/java/com/west3436/territorial/config/ConfigLoader.java:70-100 | resets the invalid count; a failed default-file write keeps the old lists; a successful read installs exactly what parsing the file yields, lists and count; the manager is untouched |
| Loader.LoadInstallsKeptRules | src/main/java/com/west3436/territorial/config/ConfigLoader.java:384-411 | after loading a file the plant list is exactly the plant rules kept, in file order; the animal list is the animal rules kept when the plant section holds only tables, and empty when it does not |
| Loader.HasInvalidRules | src/main/java/com/west3436/territorial/config/ConfigLoader.java:553-563 | true iff the count that `getInvalidRuleCount` (`Loader.GetInvalidRuleCount`) reports is not zero |
| Loader.InvalidRuleCountAfterLoad | src/main/java/com/west3436/territorial/config/ConfigLoader.java:536-555 | after a load the reported invalid count is positive iff a reached plant rule failed `validate()`, or the plant section was read through and a reached animal rule failed it |
| Loader.ReloadConfiguration | src/main/java/com/west3436/territorial/config/ConfigLoader.java:106-123 | empties the cache and keeps the counters; installs only admissible rules; a failed default-file write leaves both lists empty; a successful read installs exactly what parsing the file yields, whatever the lists held before |
| Loader.ReloadDecidesAfresh | src/main/java/com/west3436/territorial/config/ConfigLoader.java:106-123 | after a reload every verdict is decided from the new configuration, none from the old cache |
| Loader.ReloadAfterFailedWriteAllowsAll | src/main/java/com/west3436/territorial/config/ConfigLoader.java:106-123 | if the reload cannot write the default file, every event is allowed |
| Almanac.SectionHeader | src/main/java/com/west3436/territorial/util/AlmanacContentGenerator.java:74 | a section header is bold and ends with a reset and a blank line |
| Almanac.CoordRangeRoundTrip | src/main/java/com/west3436/territorial/util/AlmanacContentGenerator.java:309-318 | the four forms `min to max`, `at least min`, `at most max` and `any` read back as the bounds that produced them |
| Almanac.ShortNameOfQualified | src/main/java/com/west3436/territorial/util/AlmanacContentGenerator.java:256-263 | a qualified id `ns:path` is shown by its path |
| Almanac.TrailingColonIsDropped | src/main/java/com/west3436/territorial/util/AlmanacContentGenerator.java:256-263 | `ns:path:` also splits into two parts, since Java drops trailing empty strings, so it too shows its path |
| Almanac.ShortName | src/main/java/com/west3436/territorial/util/AlmanacContentGenerator.java:256-263 | an id with no colon is kept whole |
| Almanac.DisplayNameOfQualified | src/main/java/com/west3436/territorial/util/AlmanacContentGenerator.java:252-271 | an id `ns:path` is shown as its capitalised path, with underscores as spaces when asked |
| Almanac.DisplayName | src/main/java/com/west3436/territorial/util/AlmanacContentGenerator.java:252-271 | the name shown is the short name, with underscores replaced by spaces when asked, capitalised; it has the short name's length |
| Almanac.DisplayNames | src/main/java/com/west3436/territorial/util/AlmanacContentGenerator.java:252-273 | one display name per id, in order |
| Almanac.FormatOneId | src/main/java/com/west3436/territorial/util/AlmanacContentGenerator.java:252-273 | a single id is formatted without any separator |
| Almanac.FormatResourceIds | src/main/java/com/west3436/territorial/util/AlmanacContentGenerator.java:252-273 | no ids give the empty text; otherwise the first display name, then `, ` and the rest, in order |
| Almanac.FormatCoordRange | src/main/java/com/west3436/territorial/util/AlmanacContentGenerator.java:309-318 | `any` exactly when neither bound is set; `at least` with only a minimum and `at most` with only a maximum |
| Almanac.PlainBiomeNameIgnoresRegistry | src/main/java/com/west3436/territorial/util/AlmanacContentGenerator.java:275-303 | a bare biome path is shown capitalised with spaces for underscores, whether or not the registry knows it |
| Almanac.ConditionLines | src/main/java/com/west3436/territorial/util/AlmanacContentGenerator.java:174-230 | no condition lines exactly when the rule has no biome, temperature, coordinate, whitelist or blacklist condition |
| Almanac.FormatConditions | src/main/java/com/west3436/territorial/util/AlmanacContentGenerator.java:174-236 | the text is the lone "Anywhere" bullet iff the rule has no condition |
| Almanac.FormatRule | src/main/java/com/west3436/territorial/util/AlmanacContentGenerator.java:98-120 | a rule's paragraph starts with a formatting code |
| Almanac.ParagraphLayout | src/main/java/com/west3436/territorial/util/AlmanacContentGenerator.java:98-120 | a paragraph is the "Rule n" heading, a newline, the subject line, and at the end the rule's conditions |
| Almanac.SubjectLine | src/main/java/com/west3436/territorial/util/AlmanacContentGenerator.java:104-110 | the subject line is the "All crops"/"All animals" line exactly when the rule has no patterns or one is `*`; otherwise it ends with the listed display names |
| Almanac.VerdictRoundTrip | src/main/java/com/west3436/territorial/util/AlmanacContentGenerator.java:113-114 | the verdict after the subject line reads back as the rule's `allow`, so flipping `allow` changes the paragraph |
| Almanac.RuleNumberRoundTrip | src/main/java/com/west3436/territorial/util/AlmanacContentGenerator.java:101 | the number in a paragraph's heading reads back as the rule's number |
| Almanac.EnabledRules | src/main/java/com/west3436/territorial/util/AlmanacContentGenerator.java:76-78 | a rule is kept iff it is in the list and enabled, and a single rule is kept iff it is enabled |
| Almanac.EnabledRulesCounts | src/main/java/com/west3436/territorial/util/AlmanacContentGenerator.java:76-78 | each enabled rule is kept exactly as often as it occurs in the list, and no disabled rule is kept |
| Almanac.EnabledRulesAppend | src/main/java/com/west3436/territorial/util/AlmanacContentGenerator.java:76-78 | the enabled rules of two lists in sequence are those of the first followed by those of the second, so the loop keeps list order |
| Almanac.RuleTexts | src/main/java/com/west3436/territorial/util/AlmanacContentGenerator.java:76-80 | one paragraph per enabled rule, numbered consecutively from 1 in list order |
| Almanac.DisabledRuleIsInvisible | src/main/java/com/west3436/territorial/util/AlmanacContentGenerator.java:76-80 | inserting a disabled rule changes no paragraph and no number |
| Almanac.Paginate | src/main/java/com/west3436/territorial/util/AlmanacContentGenerator.java:70-96 | the pages concatenate to the header followed by each paragraph and a newline; the layout is the greedy one; at least one page |
| Almanac.FitStep | src/main/java/com/west3436/territorial/util/AlmanacContentGenerator.java:83-88 | appending a paragraph that fits keeps the greedy layout |
| Almanac.FlushStep | src/main/java/com/west3436/territorial/util/AlmanacContentGenerator.java:83-88 | closing a page that would overflow and opening a new one keeps the greedy layout |
| Almanac.LayoutContent | src/main/java/com/west3436/territorial/util/AlmanacContentGenerator.java:70-96 | any such layout concatenates to the header and the paragraphs placed so far |
| Almanac.PageLengthBound | src/main/java/com/west3436/territorial/util/AlmanacContentGenerator.java:83-88 | every page is at most 257 characters, unless it is the bare header or a single oversized paragraph |
| Almanac.PagesStartWith | src/main/java/com/west3436/territorial/util/AlmanacContentGenerator.java:70-96 | if the header and every paragraph start with the same character, so does every page |
| Almanac.SectionPages | src/main/java/com/west3436/territorial/util/AlmanacContentGenerator.java:70-96 | a category's pages start with its header, are the greedy packing of its numbered paragraphs for some page breaks, concatenate to the header and those paragraphs, and each page starts with a formatting code |
| Almanac.CategoryPages | src/main/java/com/west3436/territorial/util/AlmanacContentGenerator.java:44-54 | a category contributes no pages iff it has no rules; otherwise its section's greedy pages, starting with its header and holding all its paragraphs |
| Almanac.TitleIsStyledNoRulesIsNot | src/main/java/com/west3436/territorial/util/AlmanacContentGenerator.java:57-68 | the title page starts with a formatting code and the no-rules page does not |
| Almanac.WithTitle | src/main/java/com/west3436/territorial/util/AlmanacContentGenerator.java:57-59 | the no-rules page is added iff there are no rule pages, and then it is the only page after the title |
| Almanac.AlmanacPages | src/main/java/com/west3436/territorial/util/AlmanacContentGenerator.java:38-62 | the title comes first; the no-rules page appears iff both lists are empty; otherwise the plant section comes first, or the animal section when there are no plant rules, and the pages after the title split into the plant category's greedy pages followed by the animal category's |

## Left out

- File and TOML I/O. Creating the default configuration file, its text, and `Files`/`FileConfig` are not modelled. The parsed file is the input: a `RulesFile` of `Entry` tables, or an unreadable file. A failed default-file write is the `WriteFailed` input.
- Logging, `debugLogging` output, and the `getPerformanceStats` text. Its averages and percentages are floating-point formatting.
- Concurrency. `synchronized`, the atomic counters and the synchronized lists are modelled as sequential state. Counter overflow is not modelled, since the counters are unbounded naturals.
- `System.nanoTime`. The elapsed time of a rule-decided evaluation is a parameter.
- Minecraft registry internals. The biome registry, tags and temperatures are fields of `BiomeHolder` and `Level`, and the almanac's registry test is a field of `Host`. Temperatures are `real`: NaN, single-precision rounding of `floatValue()` and signed zero are not modelled. `Float.toString` is `Host.floatText`, not defined here.
- Event handlers, commands, the Jade plugin, Dynmap refresh, networking, items, the mod bootstrap, and `createBookStack`'s book/JSON construction. They are glue around the decision call or the page list.
- The reflection in `reloadConfiguration`. The cache is cleared by a direct call, and the case where the manager class cannot be found is not modelled.
- Unicode and locale case mapping in `capitalize`. Only ASCII letters change case.
- Page length. It is measured in Dafny characters, not in Java's UTF-16 code units, which differ for characters outside the Basic Multilingual Plane.
- Non-string list items. An element of a TOML list that is not a string would only fail later, outside the parser; lists here are lists of strings.
- `ruleNumber` overflow in the almanac loop, which would need more than 2^31 rules.
- Hash codes and `toString`. The model uses structural equality.
- A null argument to `canPlantGrow` or `canAnimalBreed`. Both test the level, the position and the crop or animal type explicitly and throw Java's null-reference exception when any is null (EventDecisionManager.java:315-317, 332-334). Here `Level`, `BlockPos` and the subject id (a `string`) are values that are always present, so that error path is absent. The generic `canEventOccur(EventType, …)` makes no such test.
- Aliasing of the rule lists. `getPlantGrowthRules()` returns a live unmodifiable view, and `setPlantGrowthRules` clears the list before copying (Config.java:118-120, 134-139), so passing that view back in empties the list. `SetPlantGrowthRules` and `SetAnimalBreedingRules` copy a value instead; every call in the source passes a freshly built list (ConfigLoader.java:110-111, 410-411).
- A negative cache size. `new RuleCache(n)` with `n < 0` throws `IllegalArgumentException` from `LinkedHashMap` (RuleCache.java:108-110). `Cache.NewRuleCache` takes a natural number.

=== FILE: almanac.dfy ===
/**
 * `AlmanacContentGenerator`: the text of the Farmer's Almanac book. Each
 * rule becomes a short paragraph, the paragraphs of one category are packed
 * greedily into pages, and the book is the title page followed by the pages
 * of both categories (or a "no rules" page when both lists are empty).
 *
 * Host services stay parameters: whether an identifier names a registered
 * biome, and how a Java `Float` prints.
 */
module Almanac {
  import opened Wrappers
  import opened Numbers
  import opened Text
  import opened Rules
  import opened Settings
  import opened Events
  import Matcher

  // ---------------------------------------------------------------------------
  // Constants

  /** `ChatFormatting` codes print as the section sign followed by one character. */
  const BOLD: string := "\U{A7}l"
  const UNDERLINE: string := "\U{A7}n"
  const RESET: string := "\U{A7}r"
  const GREEN: string := "\U{A7}a"
  const GOLD: string := "\U{A7}6"
  const RED: string := "\U{A7}c"

  /** The page length the packing loop compares against. */
  const MAX_PAGE_LENGTH: nat := 256

  const TITLE: string := "Farmer's Almanac"

  function TitlePage(): string {
    BOLD + (TITLE + RESET + "\n\n"
    + "A comprehensive guide to the territorial rules governing this world.\n\n"
    + "This book updates automatically with the current rules.")
  }

  /**
   * The page shown when no category has rules. The text is written in
   * phrases: the verifier reads the characters of short literals only.
   */
  function NoRulesPage(): string {
    "No territorial rules" + " are currently configured.\n\n"
    + "All crops can grow" + " and animals can breed anywhere."
  }

  const ANYWHERE_LINE: string := "\U{2022} Anywhere\n"

  /** The heading that opens the first page of a category. */
  function SectionHeader(kind: EventType): (h: string)
    ensures StartsWith(h, BOLD) && EndsWith(h, RESET + "\n\n")
  {
    match kind
    case PlantGrowth => BOLD + "Plant Growth Rules" + RESET + "\n\n"
    case AnimalBreeding => BOLD + "Animal Breeding Rules" + RESET + "\n\n"
  }

  /** What the almanac needs from the running game. */
  datatype Host = Host(
    biomeRegistered: string -> bool,   // a canonical `namespace:path` is in the biome registry
    floatText: real -> string          // `Float.toString`
  )

  // ---------------------------------------------------------------------------
  // Numbers and coordinate ranges

  /** The shape of a printed integer: non-empty, only digits and '-'. */
  predicate Numeral(s: string) {
    |s| >= 1 && forall k :: 0 <= k < |s| ==> s[k] == '-' || '0' <= s[k] <= '9'
  }

  lemma IntToStringIsNumeral(i: int)
    ensures Numeral(IntToString(i))
  {
    if i < 0 {
      var d := NatToString(-i);
      assert forall k :: 1 <= k < |"-" + d| ==> ("-" + d)[k] == d[k - 1];
    }
  }

  /** `formatCoordRange`: both bounds, one bound, or "any". */
  function FormatCoordRange(min: Option<int32>, max: Option<int32>): (text: string)
    ensures text == "any" <==> min.None? && max.None?
    ensures min.Some? && max.None? ==> StartsWith(text, "at least ")
    ensures min.None? && max.Some? ==> StartsWith(text, "at most ")
  {
    if min.Some? && max.Some? then IntToString(min.value) + " to " + IntToString(max.value)
    else if min.Some? then "at least " + IntToString(min.value)
    else if max.Some? then "at most " + IntToString(max.value)
    else "any"
  }

  /** Reads a coordinate range back from its almanac text. */
  function ReadCoordRange(s: string): (Option<int>, Option<int>) {
    if s == "any" then (None, None)
    else if StartsWith(s, "at least ") then (Some(ParseInt(s[9..])), None)
    else if StartsWith(s, "at most ") then (None, Some(ParseInt(s[8..])))
    else
      var i := Matcher.IndexOfChar(s, ' ');
      if i < 0 || |s| < i + 4 then (None, None)
      else (Some(ParseInt(s[..i])), Some(ParseInt(s[i + 4..])))
  }

  lemma ReadBothBounds(a: string, b: string)
    requires Numeral(a) && Numeral(b)
    ensures ReadCoordRange(a + " to " + b) == (Some(ParseInt(a)), Some(ParseInt(b)))
  {
    var s := a + " to " + b;
    assert s[0] == a[0];
    assert s != "any" && !StartsWith(s, "at least ") && !StartsWith(s, "at most ");
    assert s[..|a|] == a;
    assert s[|a|] == ' ';
    var i := Matcher.IndexOfChar(s, ' ');
    assert ' ' !in a;
    assert i == |a|;
    assert s[|a| + 4..] == b;
  }

  lemma ReadLowerBound(a: string)
    ensures ReadCoordRange("at least " + a) == (Some(ParseInt(a)), None)
  {
    var s := "at least " + a;
    assert s[..9] == "at least ";
    assert s[9..] == a;
  }

  lemma ReadUpperBound(a: string)
    requires Numeral(a)
    ensures ReadCoordRange("at most " + a) == (None, Some(ParseInt(a)))
  {
    var s := "at most " + a;
    assert s[..8] == "at most ";
    assert s[3] == 'm';
    assert s[8..] == a;
  }

  /** The printed range loses nothing: both bounds, and which are absent, can be read back. */
  lemma CoordRangeRoundTrip(min: Option<int32>, max: Option<int32>)
    ensures ReadCoordRange(FormatCoordRange(min, max)) == (min, max)
  {
    if min.Some? {
      IntToStringIsNumeral(min.value);
      IntToStringRoundTrip(min.value);
    }
    if max.Some? {
      IntToStringIsNumeral(max.value);
      IntToStringRoundTrip(max.value);
    }
    if min.Some? && max.Some? {
      ReadBothBounds(IntToString(min.value), IntToString(max.value));
    } else if min.Some? {
      ReadLowerBound(IntToString(min.value));
    } else if max.Some? {
      ReadUpperBound(IntToString(max.value));
    }
  }

  // ---------------------------------------------------------------------------
  // Resource identifiers

  /**
   * The display part of an identifier: when it holds a ':' and Java's
   * `split(":")` yields exactly two pieces, the second piece; otherwise the
   * identifier itself.
   */
  function ShortName(id: string): (r: string)
    ensures ':' !in id ==> r == id
  {
    if ':' in id then
      var parts := JavaSplit(id, ':');
      if |parts| == 2 then parts[1] else id
    else id
  }

  /** A `namespace:path` identifier displays as its path. */
  lemma ShortNameOfQualified(ns: string, path: string)
    requires ':' !in ns && ':' !in path && path != ""
    ensures ShortName(ns + ":" + path) == path
  {
    JavaSplitQualified(ns, path, ':');
    assert (ns + ":" + path)[|ns|] == ':';
  }

  /** One identifier as the almanac prints it. */
  function DisplayName(id: string, replaceUnderscores: bool): (r: string)
    ensures r == Capitalize(if replaceUnderscores then ReplaceChar(ShortName(id), '_', ' ') else ShortName(id))
    ensures |r| == |ShortName(id)|
    ensures replaceUnderscores ==> '_' !in r
  {
    var short := ShortName(id);
    Capitalize(if replaceUnderscores then ReplaceChar(short, '_', ' ') else short)
  }

  function DisplayNames(ids: seq<string>, replaceUnderscores: bool): (r: seq<string>)
    ensures |r| == |ids|
    ensures forall i :: 0 <= i < |ids| ==> r[i] == DisplayName(ids[i], replaceUnderscores)
  {
    if |ids| == 0 then [] else [DisplayName(ids[0], replaceUnderscores)] + DisplayNames(ids[1..], replaceUnderscores)
  }

  /** `formatResourceIds`: the display names joined with ", ". */
  function FormatResourceIds(ids: seq<string>, replaceUnderscores: bool): (text: string)
    ensures ids == [] ==> text == ""
    ensures |ids| == 1 ==> text == DisplayName(ids[0], replaceUnderscores)
    ensures |ids| > 1 ==>
      text == DisplayName(ids[0], replaceUnderscores) + ", " + FormatResourceIds(ids[1..], replaceUnderscores)
  {
    Join(DisplayNames(ids, replaceUnderscores), ", ")
  }

  /** A `namespace:path` identifier displays as its path, capitalised. */
  lemma DisplayNameOfQualified(ns: string, path: string, replaceUnderscores: bool)
    requires ':' !in ns && ':' !in path && path != ""
    ensures DisplayName(ns + ":" + path, replaceUnderscores)
         == Capitalize(if replaceUnderscores then ReplaceChar(path, '_', ' ') else path)
  {
    ShortNameOfQualified(ns, path);
  }

  /**
   * An identifier with a trailing ':' splits into two pieces too, because
   * `split` drops the empty last piece: "ns:path:" also displays as its path.
   */
  lemma TrailingColonIsDropped(ns: string, path: string)
    requires ':' !in ns && ':' !in path && path != ""
    ensures ShortName(ns + ":" + path + ":") == path
  {
    var s := ns + ":" + path + ":";
    assert s == ns + [':'] + (path + [':'] + "");
    SplitAllAtFirst(ns, path + [':'] + "", ':');
    SplitAllAtFirst(path, "", ':');
    assert SplitAll(s, ':') == [ns, path, ""];
    assert DropTrailingEmpty([ns, path, ""]) == [ns, path];
  }

  // ---------------------------------------------------------------------------
  // Biome names

  /** The path of a canonical `namespace:path` location. */
  function PathOf(location: string): string {
    var i := Matcher.IndexOfChar(location, ':');
    location[i + 1..]
  }

  /**
   * `formatBiomeNames` for one identifier: an identifier the game cannot
   * parse is shown raw; a registered biome shows its registry path; any other
   * identifier is formatted like a dimension.
   */
  function BiomeName(host: Host, id: string): (r: string)
    ensures (exists i :: 0 <= i < |id| && !Matcher.PathChar(id[i]) && id[i] != ':') ==> r == id
  {
    match Matcher.ParseLocation(id)
    case None => id
    case Some(location) =>
      if host.biomeRegistered(location) then Capitalize(ReplaceChar(PathOf(location), '_', ' '))
      else FormatResourceIds([id], true)
  }

  function FormatBiomeNames(host: Host, ids: seq<string>): (r: string)
    decreases |ids|
  {
    if |ids| == 0 then ""
    else if |ids| == 1 then BiomeName(host, ids[0])
    else BiomeName(host, ids[0]) + ", " + FormatBiomeNames(host, ids[1..])
  }

  /** The first ':' of `ns:rest` is the one after the namespace. */
  lemma {:induction false} FirstColonAfterNamespace(ns: string, rest: string)
    requires ':' !in ns
    ensures Matcher.IndexOfChar(ns + ":" + rest, ':') == |ns|
  {
    var s := ns + ":" + rest;
    var i := Matcher.IndexOfChar(s, ':');
    assert s[|ns|] == ':';
    assert s[..|ns|] == ns;
  }

  lemma PathOfQualified(ns: string, path: string)
    requires ':' !in ns
    ensures PathOf(ns + ":" + path) == path
  {
    FirstColonAfterNamespace(ns, path);
    assert (ns + ":" + path)[|ns| + 1..] == path;
  }

  /** A single identifier is formatted without any separator. */
  lemma FormatOneId(id: string, replaceUnderscores: bool)
    ensures FormatResourceIds([id], replaceUnderscores) == DisplayName(id, replaceUnderscores)
  {
    assert DisplayNames([id], replaceUnderscores) == [DisplayName(id, replaceUnderscores)];
  }

  /**
   * For an identifier without a namespace the registry makes no difference:
   * registered or not, "dark_forest" is shown as "Dark forest".
   */
  lemma PlainBiomeNameIgnoresRegistry(host: Host, id: string)
    requires ':' !in id && forall i :: 0 <= i < |id| ==> Matcher.PathChar(id[i])
    ensures BiomeName(host, id) == Capitalize(ReplaceChar(id, '_', ' '))
  {
    var location := "minecraft" + ":" + id;
    assert Matcher.ParseLocation(id) == Some(location);
    if host.biomeRegistered(location) {
      PathOfQualified("minecraft", id);
    } else {
      FormatOneId(id, true);
    }
  }

  // ---------------------------------------------------------------------------
  // Conditions

  /** Whether a rule restricts anything the almanac lists. */
  predicate HasCondition(b: BaseRule) {
    Biomes(b) != [] || b.temperature.IsBounded() || b.x.IsBounded() || b.y.IsBounded() || b.z.IsBounded()
    || Dimensions(b) != [] || DimensionsBlacklist(b) != []
  }

  function TemperatureText(host: Host, t: RealRange): string
    requires t.IsBounded()
  {
    if t.min.Some? && t.max.Some? then host.floatText(t.min.value) + " to " + host.floatText(t.max.value)
    else if t.min.Some? then "at least " + host.floatText(t.min.value)
    else "at most " + host.floatText(t.max.value)
  }

  /**
   * A line that cannot be taken for the "• Anywhere" line: the text after
   * its "• " does not start with 'A'. Every condition bullet has this form.
   */
  predicate UnlikeAnywhereLine(line: string) {
    |line| >= 3 && line[2] != 'A'
  }

  /** A bullet line: "• " + title + text + "\n". */
  function Bullet(title: string, text: string): (line: string)
    requires title != "" && title[0] != 'A'
    ensures UnlikeAnywhereLine(line)
  {
    var line := "\U{2022} " + title + text + "\n";
    assert line[2] == title[0];
    line
  }

  /** The bullets whose condition is present, in order. */
  function Present(parts: seq<(bool, string)>): (lines: seq<string>)
    requires forall i :: 0 <= i < |parts| ==> UnlikeAnywhereLine(parts[i].1)
    ensures lines == [] <==> forall i :: 0 <= i < |parts| ==> !parts[i].0
    ensures forall i :: 0 <= i < |lines| ==> UnlikeAnywhereLine(lines[i])
  {
    if |parts| == 0 then []
    else
      var rest := Present(parts[1..]);
      assert forall i :: 1 <= i < |parts| ==> parts[i] == parts[1..][i - 1];
      if parts[0].0 then [parts[0].1] + rest else rest
  }

  /** Each condition the almanac can print, with whether the rule has it. */
  function ConditionParts(host: Host, b: BaseRule): (parts: seq<(bool, string)>)
    ensures |parts| == 7
    ensures forall i :: 0 <= i < |parts| ==> UnlikeAnywhereLine(parts[i].1)
    ensures parts[0].0 == (Biomes(b) != []) && parts[1].0 == b.temperature.IsBounded()
    ensures parts[2].0 == b.x.IsBounded() && parts[3].0 == b.y.IsBounded() && parts[4].0 == b.z.IsBounded()
    ensures parts[5].0 == (Dimensions(b) != []) && parts[6].0 == (DimensionsBlacklist(b) != [])
  {
    var temperature :=
      if b.temperature.IsBounded() then TemperatureText(host, b.temperature) else "";
    [
      (Biomes(b) != [], Bullet("In biomes: ", FormatBiomeNames(host, Biomes(b)))),
      (b.temperature.IsBounded(), Bullet("Temperature: ", temperature)),
      (b.x.IsBounded(), Bullet("X: ", FormatCoordRange(b.x.min, b.x.max))),
      (b.y.IsBounded(), Bullet("Y: ", FormatCoordRange(b.y.min, b.y.max))),
      (b.z.IsBounded(), Bullet("Z: ", FormatCoordRange(b.z.min, b.z.max))),
      (Dimensions(b) != [], Bullet("In dimensions: ", FormatResourceIds(Dimensions(b), true))),
      (DimensionsBlacklist(b) != [], Bullet("Not in dimensions: ", FormatResourceIds(DimensionsBlacklist(b), true)))
    ]
  }

  /** The condition bullets in the order the almanac prints them. */
  function ConditionLines(host: Host, b: BaseRule): (lines: seq<string>)
    ensures lines == [] <==> !HasCondition(b)
    ensures forall i :: 0 <= i < |lines| ==> UnlikeAnywhereLine(lines[i])
  {
    var parts := ConditionParts(host, b);
    assert HasCondition(b) ==> exists i :: 0 <= i < |parts| && parts[i].0 by {
      if HasCondition(b) {
        if parts[0].0 { assert 0 < |parts|; }
        else if parts[1].0 { assert 1 < |parts|; }
        else if parts[2].0 { assert 2 < |parts|; }
        else if parts[3].0 { assert 3 < |parts|; }
        else if parts[4].0 { assert 4 < |parts|; }
        else if parts[5].0 { assert 5 < |parts|; }
        else { assert parts[6].0; }
      }
    }
    Present(parts)
  }

  function ConcatAll(parts: seq<string>): (r: string)
    ensures |parts| > 0 && |parts[0]| >= 3 ==> |r| >= 3 && r[2] == parts[0][2]
  {
    if |parts| == 0 then "" else parts[0] + ConcatAll(parts[1..])
  }

  /** The bullets one after another, or the single "• Anywhere" bullet when there are none. */
  function JoinBullets(lines: seq<string>): (r: string)
    requires forall i :: 0 <= i < |lines| ==> UnlikeAnywhereLine(lines[i])
    ensures r == ANYWHERE_LINE <==> lines == []
  {
    if lines == [] then ANYWHERE_LINE
    else
      var r := ConcatAll(lines);
      assert UnlikeAnywhereLine(lines[0]);
      assert r[2] != ANYWHERE_LINE[2];
      r
  }

  /** `formatConditions`: the bullets, or "• Anywhere" exactly when the rule has no condition. */
  function FormatConditions(host: Host, b: BaseRule): (r: string)
    ensures r == ANYWHERE_LINE <==> !HasCondition(b)
  {
    JoinBullets(ConditionLines(host, b))
  }

  // ---------------------------------------------------------------------------
  // One rule

  /** The colour of a rule's subject line. */
  function SubjectColour(rule: Rule): string {
    if rule.PlantGrowthRule? then GREEN else GOLD
  }

  /** The caption before a rule's listed crops or animals. */
  function SubjectCaption(rule: Rule): string {
    if rule.PlantGrowthRule? then "Crops: " else "Animals: "
  }

  /** The subject line of a rule that applies to every crop or every animal. */
  function AllSubjectsLine(rule: Rule): string {
    SubjectColour(rule) + (if rule.PlantGrowthRule? then "All crops\n" else "All animals\n") + RESET
  }

  /**
   * The line naming the crops or animals a rule is about: "All …" exactly
   * when the list is empty or holds "*" (a namespace wildcard is listed by
   * name), otherwise the display names of the patterns.
   */
  function SubjectLine(rule: Rule): (line: string)
    ensures line == AllSubjectsLine(rule) <==> TypePatterns(rule) == [] || "*" in TypePatterns(rule)
    ensures line != AllSubjectsLine(rule) ==> EndsWith(line, FormatResourceIds(TypePatterns(rule), false) + "\n")
  {
    var types := TypePatterns(rule);
    if types != [] && "*" !in types then
      var names := FormatResourceIds(types, false);
      ListedIsNotAll(rule, names);
      LabelledLine(SubjectColour(rule), SubjectCaption(rule), names)
    else AllSubjectsLine(rule)
  }

  lemma ListedIsNotAll(rule: Rule, names: string)
    ensures LabelledLine(SubjectColour(rule), SubjectCaption(rule), names) != AllSubjectsLine(rule)
  {
    var line := LabelledLine(SubjectColour(rule), SubjectCaption(rule), names);
    var all := AllSubjectsLine(rule);
    if rule.PlantGrowthRule? {
      assert line[2..9] == "Crops: ";
      assert line[2] == 'C' && all[2] == 'A';
    } else {
      assert line[2..11] == "Animals: ";
      assert line[3] == 'n' && all[3] == 'l';
    }
  }

  /** A coloured label, then the names on the rest of the line. */
  function LabelledLine(code: string, caption: string, names: string): (line: string)
    ensures |code| + |caption| <= |line| && line[|code|..|code| + |caption|] == caption
    ensures EndsWith(line, names + "\n")
  {
    var line := code + caption + RESET + names + "\n";
    assert line == (code + caption + RESET) + (names + "\n");
    line
  }

  /** The verdict as printed: a colour code, then ALLOWED or BLOCKED. */
  function VerdictText(allow: bool): (v: string)
    ensures |v| == 9 && v[2..] == (if allow then "ALLOWED" else "BLOCKED")
  {
    if allow then GREEN + "ALLOWED" else RED + "BLOCKED"
  }

  /** Everything after the heading: subject, verdict, conditions. */
  function RuleBody(host: Host, rule: Rule): string {
    SubjectLine(rule) + VerdictText(rule.base.allow) + (RESET + " when:\n" + FormatConditions(host, rule.base))
  }

  /** `formatPlantRule` / `formatAnimalRule`: the heading "Rule n", then the body. */
  function FormatRule(host: Host, rule: Rule, n: int): (text: string)
    ensures |text| > 0 && text[0] == '\U{A7}'
  {
    Heading(n) + ("\n" + RuleBody(host, rule))
  }

  /** The verdict word that starts `at` characters into a rule's text, past its colour code. */
  function VerdictAt(text: string, at: nat): Option<bool> {
    if at + 9 <= |text| && text[at + 2..at + 9] == "ALLOWED" then Some(true)
    else if at + 9 <= |text| && text[at + 2..at + 9] == "BLOCKED" then Some(false)
    else None
  }

  /** Where the verdict starts: after the heading line and the subject line. */
  function VerdictOffset(rule: Rule, n: int): nat {
    |Heading(n)| + 1 + |SubjectLine(rule)|
  }

  /**
   * The verdict is printed faithfully: ALLOWED for an allowing rule,
   * BLOCKED for a denying one, so two rules that differ only in `allow` are
   * never described alike.
   */
  lemma VerdictRoundTrip(host: Host, rule: Rule, n: int)
    ensures VerdictAt(FormatRule(host, rule, n), VerdictOffset(rule, n)) == Some(rule.base.allow)
    ensures FormatRule(host, rule, n) != FormatRule(host, rule.(base := rule.base.(allow := !rule.base.allow)), n)
  {
    var flipped := rule.(base := rule.base.(allow := !rule.base.allow));
    assert TypePatterns(flipped) == TypePatterns(rule);
    assert VerdictOffset(flipped, n) == VerdictOffset(rule, n);
    VerdictPrinted(host, rule, n);
    VerdictPrinted(host, flipped, n);
    var a, b := FormatRule(host, rule, n), FormatRule(host, flipped, n);
    assert VerdictAt(a, VerdictOffset(rule, n)) != VerdictAt(b, VerdictOffset(rule, n));
  }

  lemma VerdictPrinted(host: Host, rule: Rule, n: int)
    ensures VerdictAt(FormatRule(host, rule, n), VerdictOffset(rule, n)) == Some(rule.base.allow)
  {
    var v := VerdictText(rule.base.allow);
    SliceAfter(Heading(n), SubjectLine(rule), v,
               RESET + " when:\n" + FormatConditions(host, rule.base));
  }

  /** The heading line that opens rule `n`'s paragraph. */
  function Heading(n: int): (h: string)
    ensures StartsWith(h, UNDERLINE + "Rule ")
  {
    UNDERLINE + "Rule " + IntToString(n) + RESET
  }

  /**
   * A paragraph in order: the heading, then on the next line the subject
   * line, and at the end the rule's conditions.
   */
  lemma ParagraphLayout(host: Host, rule: Rule, n: int)
    ensures var text := FormatRule(host, rule, n);
      var at := |Heading(n)| + 1;
      && StartsWith(text, Heading(n) + "\n")
      && at + |SubjectLine(rule)| <= |text| && text[at..at + |SubjectLine(rule)|] == SubjectLine(rule)
      && EndsWith(text, FormatConditions(host, rule.base))
  {
    Pieces(Heading(n), SubjectLine(rule), VerdictText(rule.base.allow),
           RESET + " when:\n", FormatConditions(host, rule.base));
  }

  /** Where each piece of `h + "\n" + s + v + w + c` sits. */
  lemma Pieces(h: string, s: string, v: string, w: string, c: string)
    ensures var text := h + ("\n" + (s + v + (w + c))); var at := |h| + 1;
      && StartsWith(text, h + "\n")
      && at + |s| <= |text| && text[at..at + |s|] == s
      && EndsWith(text, c)
  {
    var text := h + ("\n" + (s + v + (w + c)));
    assert text == (h + "\n") + s + (v + w) + c;
    assert text[|h| + 1..|h| + 1 + |s|] == s;
  }

  /** The nine characters after `h`, a newline and `s` are `v`'s. */
  lemma SliceAfter(h: string, s: string, v: string, t: string)
    requires |v| == 9
    ensures var text := h + ("\n" + (s + v + t)); var at := |h| + 1 + |s|;
      at + 9 <= |text| && text[at + 2..at + 9] == v[2..]
  {
    var text := h + ("\n" + (s + v + t));
    var at := |h| + 1 + |s|;
    assert text == (h + "\n" + s) + v + t;
    assert text[at..at + 9] == v;
  }

  /** The number printed in a rule's heading, read back from the text. */
  function RuleNumberOf(text: string): int {
    if |text| < 7 then 0
    else
      var rest := text[7..];
      var end := Matcher.IndexOfChar(rest, '\U{A7}');
      if end < 0 then 0 else ParseInt(rest[..end])
  }

  lemma ReadHeading(digits: string, tail: string)
    requires Numeral(digits)
    ensures RuleNumberOf(UNDERLINE + "Rule " + digits + RESET + tail) == ParseInt(digits)
  {
    var text := UNDERLINE + "Rule " + digits + RESET + tail;
    var rest := digits + RESET + tail;
    assert text[7..] == rest;
    assert rest[..|digits|] == digits;
    assert rest[|digits|] == '\U{A7}';
    assert '\U{A7}' !in digits;
    assert Matcher.IndexOfChar(rest, '\U{A7}') == |digits|;
  }

  /** The heading carries the rule's number faithfully. */
  lemma RuleNumberRoundTrip(host: Host, rule: Rule, n: int)
    ensures RuleNumberOf(FormatRule(host, rule, n)) == n
  {
    IntToStringIsNumeral(n);
    IntToStringRoundTrip(n);
    ReadHeading(IntToString(n), "\n" + RuleBody(host, rule));
  }

  // ---------------------------------------------------------------------------
  // Numbering: only enabled rules are listed, numbered from 1

  /**
   * The rules the loop numbers: the enabled ones; a single rule is kept iff
   * it is enabled. `EnabledRulesCounts` gives the multiplicities and
   * `EnabledRulesAppend` the order.
   */
  function EnabledRules(rules: seq<Rule>): (r: seq<Rule>)
    ensures |r| <= |rules|
    ensures forall x :: x in r <==> x in rules && x.base.enabled
    ensures |rules| == 1 ==> r == (if rules[0].base.enabled then rules else [])
  {
    if |rules| == 0 then []
    else if rules[0].base.enabled then [rules[0]] + EnabledRules(rules[1..])
    else EnabledRules(rules[1..])
  }

  /** Each enabled rule is kept as often as it occurs, and no disabled rule is kept. */
  lemma {:induction false} EnabledRulesCounts(rules: seq<Rule>)
    ensures KeepsEnabledCounts(rules, EnabledRules(rules))
  {
    if |rules| > 0 {
      EnabledRulesCounts(rules[1..]);
      assert rules == [rules[0]] + rules[1..];
    }
  }

  /** `kept` holds each enabled rule of `rules` as often as `rules` does, and no disabled rule. */
  ghost predicate KeepsEnabledCounts(rules: seq<Rule>, kept: seq<Rule>) {
    forall x :: multiset(kept)[x] == if x.base.enabled then multiset(rules)[x] else 0
  }

  lemma {:induction false} EnabledRulesAppend(a: seq<Rule>, b: seq<Rule>)
    ensures EnabledRules(a + b) == EnabledRules(a) + EnabledRules(b)
  {
    if |a| > 0 {
      assert (a + b)[1..] == a[1..] + b;
      EnabledRulesAppend(a[1..], b);
    } else {
      assert a + b == b;
    }
  }

  /**
   * The loop of `formatPlantGrowthRules` / `formatAnimalBreedingRules`: a
   * disabled rule is skipped, an enabled one is formatted under the next
   * number. `format` stands for the formatter of one rule.
   */
  function Numbered(rules: seq<Rule>, first: int, format: (Rule, int) -> string): (texts: seq<string>)
    ensures |texts| == |EnabledRules(rules)|
    ensures forall i :: 0 <= i < |texts| ==> texts[i] == format(EnabledRules(rules)[i], first + i)
  {
    if |rules| == 0 then []
    else if !rules[0].base.enabled then
      assert EnabledRules(rules) == EnabledRules(rules[1..]);
      Numbered(rules[1..], first, format)
    else
      var rest := Numbered(rules[1..], first + 1, format);
      var enabled := EnabledRules(rules);
      assert enabled == [rules[0]] + EnabledRules(rules[1..]);
      assert forall i :: 1 <= i < |enabled| ==> enabled[i] == EnabledRules(rules[1..])[i - 1];
      [format(rules[0], first)] + rest
  }

  /** The paragraphs of the rules, numbered `first`, `first + 1`, … over the enabled rules only. */
  function RuleTexts(host: Host, rules: seq<Rule>, first: int): (texts: seq<string>)
    ensures |texts| == |EnabledRules(rules)|
    ensures forall i :: 0 <= i < |texts| ==> texts[i] == FormatRule(host, EnabledRules(rules)[i], first + i)
  {
    Numbered(rules, first, (rule, n) => FormatRule(host, rule, n))
  }

  /** The numbered paragraphs depend on nothing but the enabled rules. */
  lemma NumberedSeesEnabledOnly(a: seq<Rule>, b: seq<Rule>, first: int, format: (Rule, int) -> string)
    requires EnabledRules(a) == EnabledRules(b)
    ensures Numbered(a, first, format) == Numbered(b, first, format)
  {
    var x, y := Numbered(a, first, format), Numbered(b, first, format);
    assert |x| == |y|;
    assert forall i :: 0 <= i < |x| ==> x[i] == y[i];
  }

  /** A disabled rule leaves the almanac's paragraphs, numbers included, exactly as they were. */
  lemma DisabledRuleIsInvisible(host: Host, before: seq<Rule>, disabled: Rule, after: seq<Rule>)
    requires !disabled.base.enabled
    ensures RuleTexts(host, before + [disabled] + after, 1) == RuleTexts(host, before + after, 1)
  {
    EnabledRulesAppend(before + [disabled], after);
    EnabledRulesAppend(before, [disabled]);
    EnabledRulesAppend(before, after);
    assert EnabledRules([disabled]) == [];
    NumberedSeesEnabledOnly(before + [disabled] + after, before + after, 1, (rule, n) => FormatRule(host, rule, n));
  }

  // ---------------------------------------------------------------------------
  // Pages

  /** Each paragraph followed by a newline, in order. */
  function Lines(texts: seq<string>): string {
    if |texts| == 0 then "" else Lines(texts[..|texts| - 1]) + texts[|texts| - 1] + "\n"
  }

  /** The pages one after another. */
  function Concat(pages: seq<string>): string {
    if |pages| == 0 then "" else Concat(pages[..|pages| - 1]) + pages[|pages| - 1]
  }

  /** The text a page starts with before its paragraphs: the heading, on the first page only. */
  function Lead(header: string, k: nat): string {
    if k == 0 then header else ""
  }

  /** Page `k` when the pages break before the paragraphs listed in `breaks`. */
  function PageAt(header: string, texts: seq<string>, breaks: seq<nat>, k: nat): string
    requires k + 1 < |breaks| && breaks[k] <= breaks[k + 1] <= |texts|
  {
    Lead(header, k) + Lines(texts[breaks[k]..breaks[k + 1]])
  }

  /** The length of page `k` at the moment paragraph `j` is considered for it. */
  function LengthBefore(header: string, texts: seq<string>, breaks: seq<nat>, k: nat, j: nat): nat
    requires k < |breaks| && breaks[k] <= j <= |texts|
  {
    |Lead(header, k)| + |Lines(texts[breaks[k]..j])|
  }

  /**
   * `pages` hold the first `n` paragraphs: page `k` is its lead followed by
   * paragraphs `breaks[k]` up to (not including) `breaks[k + 1]`, and every
   * page after the first holds at least one paragraph.
   */
  predicate Layout(header: string, texts: seq<string>, n: nat, pages: seq<string>, breaks: seq<nat>) {
    && n <= |texts|
    && |breaks| == |pages| + 1
    && breaks[0] == 0
    && breaks[|pages|] == n
    && Ordered(breaks)
    && PagesAt(header, texts, pages, breaks)
  }

  /** The breaks never go back, and after the first they strictly advance. */
  predicate Ordered(breaks: seq<nat>) {
    && (forall k1, k2 :: 0 <= k1 <= k2 < |breaks| ==> breaks[k1] <= breaks[k2])
    && (forall k1, k2 :: 1 <= k1 < k2 < |breaks| ==> breaks[k1] < breaks[k2])
  }

  /** Every page is the one its breaks describe. */
  predicate PagesAt(header: string, texts: seq<string>, pages: seq<string>, breaks: seq<nat>)
    requires |breaks| == |pages| + 1 && Ordered(breaks) && breaks[|pages|] <= |texts|
  {
    forall k :: 0 <= k < |pages| ==> pages[k] == PageAt(header, texts, breaks, k)
  }

  lemma OrderedPrefix(breaks: seq<nat>, j: nat)
    requires Ordered(breaks) && j <= |breaks|
    ensures Ordered(breaks[..j])
  {
  }

  lemma OrderedSnoc(breaks: seq<nat>, x: nat)
    requires Ordered(breaks) && |breaks| >= 1 && breaks[|breaks| - 1] < x
    ensures Ordered(breaks + [x])
  {
    var b := breaks + [x];
    assert forall k :: 0 <= k < |breaks| ==> b[k] == breaks[k] && breaks[k] <= breaks[|breaks| - 1];
  }

  /**
   * Every paragraph that joined a page already holding text did so because
   * the page's length plus the paragraph's length was at most the limit.
   */
  predicate Fits(header: string, texts: seq<string>, pages: seq<string>, breaks: seq<nat>)
    requires |breaks| == |pages| + 1
  {
    forall k, j :: 0 <= k < |pages| && breaks[k] <= j < breaks[k + 1] && j < |texts| && (k == 0 || breaks[k] < j) ==>
      LengthBefore(header, texts, breaks, k, j) + |texts[j]| <= MAX_PAGE_LENGTH
  }

  /** Every page but the last was closed because the next paragraph would have taken it past the limit. */
  predicate Flushes(texts: seq<string>, pages: seq<string>, breaks: seq<nat>)
    requires |breaks| == |pages| + 1
  {
    forall k :: 0 <= k < |pages| - 1 ==> Overflows(texts, pages, breaks, k)
  }

  /** Paragraph `breaks[k + 1]` exists and would have taken page `k` past the limit. */
  predicate Overflows(texts: seq<string>, pages: seq<string>, breaks: seq<nat>, k: nat)
    requires |breaks| == |pages| + 1 && k < |pages|
  {
    breaks[k + 1] < |texts| && |pages[k]| + |texts[breaks[k + 1]]| > MAX_PAGE_LENGTH
  }

  /** The greedy packing of the first `n` paragraphs. */
  predicate Greedy(header: string, texts: seq<string>, n: nat, pages: seq<string>, breaks: seq<nat>) {
    Layout(header, texts, n, pages, breaks) && Fits(header, texts, pages, breaks) && Flushes(texts, pages, breaks)
  }

  lemma LinesSnoc(texts: seq<string>, a: nat, j: nat)
    requires a <= j < |texts|
    ensures Lines(texts[a..j + 1]) == Lines(texts[a..j]) + texts[j] + "\n"
  {
    assert texts[a..j + 1][..j - a] == texts[a..j];
  }

  /** A page depends only on its own two breaks. */
  lemma PageAtSameBreaks(header: string, texts: seq<string>, b1: seq<nat>, b2: seq<nat>, k: nat)
    requires k + 1 < |b1| && b1[k] <= b1[k + 1] <= |texts|
    requires k + 1 < |b2| && b2[k] == b1[k] && b2[k + 1] == b1[k + 1]
    ensures PageAt(header, texts, b1, k) == PageAt(header, texts, b2, k)
  {
  }

  lemma LayoutAfterFlush(header: string, texts: seq<string>, n: nat, pages: seq<string>, breaks: seq<nat>)
    requires Layout(header, texts, n, pages, breaks) && |pages| >= 1 && n < |texts|
    ensures Layout(header, texts, n + 1, pages + [texts[n] + "\n"], breaks + [n + 1])
  {
    var m := |pages|;
    var p := pages + [texts[n] + "\n"];
    var b := breaks + [n + 1];
    OrderedSnoc(breaks, n + 1);
    forall k | 0 <= k < m
      ensures p[k] == PageAt(header, texts, b, k)
    {
      assert p[k] == pages[k] == PageAt(header, texts, breaks, k);
      PageAtSameBreaks(header, texts, breaks, b, k);
    }
    assert p[m] == PageAt(header, texts, b, m) by {
      LinesSnoc(texts, n, n);
      assert texts[n..n] == [];
    }
    assert PagesAt(header, texts, p, b);
  }

  lemma FitsAfterFlush(header: string, texts: seq<string>, n: nat, pages: seq<string>, breaks: seq<nat>)
    requires |breaks| == |pages| + 1 && |pages| >= 1 && breaks[|pages|] == n && n < |texts|
    requires Fits(header, texts, pages, breaks)
    ensures Fits(header, texts, pages + [texts[n] + "\n"], breaks + [n + 1])
  {
    var m := |pages|;
    var p := pages + [texts[n] + "\n"];
    var b := breaks + [n + 1];
    forall k, j | 0 <= k < |p| && b[k] <= j < b[k + 1] && j < |texts| && (k == 0 || b[k] < j)
      ensures LengthBefore(header, texts, b, k, j) + |texts[j]| <= MAX_PAGE_LENGTH
    {
      assert k < m;
      assert b[k] == breaks[k] && b[k + 1] == breaks[k + 1];
      assert LengthBefore(header, texts, b, k, j) == LengthBefore(header, texts, breaks, k, j);
    }
  }

  lemma FlushesAfterFlush(texts: seq<string>, n: nat, pages: seq<string>, breaks: seq<nat>)
    requires |breaks| == |pages| + 1 && |pages| >= 1 && breaks[|pages|] == n && n < |texts|
    requires Flushes(texts, pages, breaks)
    requires |pages[|pages| - 1]| + |texts[n]| > MAX_PAGE_LENGTH
    ensures Flushes(texts, pages + [texts[n] + "\n"], breaks + [n + 1])
  {
    var p := pages + [texts[n] + "\n"];
    var b := breaks + [n + 1];
    forall k | 0 <= k < |p| - 1
      ensures Overflows(texts, p, b, k)
    {
      assert p[k] == pages[k] && b[k + 1] == breaks[k + 1];
      if k < |pages| - 1 {
        assert Overflows(texts, pages, breaks, k);
      }
    }
  }

  /** Closing the current page and opening a new one with paragraph `n`. */
  lemma FlushStep(header: string, texts: seq<string>, n: nat, pages: seq<string>, breaks: seq<nat>)
    requires Greedy(header, texts, n, pages, breaks) && |pages| >= 1 && n < |texts|
    requires |pages[|pages| - 1]| + |texts[n]| > MAX_PAGE_LENGTH
    ensures Greedy(header, texts, n + 1, pages + [texts[n] + "\n"], breaks + [n + 1])
  {
    LayoutAfterFlush(header, texts, n, pages, breaks);
    FitsAfterFlush(header, texts, n, pages, breaks);
    FlushesAfterFlush(texts, n, pages, breaks);
  }

  lemma LayoutAfterFit(header: string, texts: seq<string>, n: nat, pages: seq<string>, breaks: seq<nat>)
    requires Layout(header, texts, n, pages, breaks) && |pages| >= 1 && n < |texts|
    ensures Layout(header, texts, n + 1, pages[..|pages| - 1] + [pages[|pages| - 1] + texts[n] + "\n"], breaks[..|pages|] + [n + 1])
  {
    var m := |pages| - 1;
    var p := pages[..m] + [pages[m] + texts[n] + "\n"];
    var b := breaks[..m + 1] + [n + 1];
    assert breaks[m] <= breaks[m + 1] == n;
    OrderedPrefix(breaks, m + 1);
    OrderedSnoc(breaks[..m + 1], n + 1);
    forall k | 0 <= k < m
      ensures p[k] == PageAt(header, texts, b, k)
    {
      assert p[k] == pages[k] == PageAt(header, texts, breaks, k);
      PageAtSameBreaks(header, texts, breaks, b, k);
    }
    FitLastPage(header, texts, n, pages, breaks);
    assert PagesAt(header, texts, p, b);
    assert |p| == m + 1 && |b| == m + 2 && b[0] == 0 && b[m + 1] == n + 1;
  }

  /** The page paragraph `n` joins is the page its new breaks describe. */
  lemma FitLastPage(header: string, texts: seq<string>, n: nat, pages: seq<string>, breaks: seq<nat>)
    requires Layout(header, texts, n, pages, breaks) && |pages| >= 1 && n < |texts|
    ensures var m := |pages| - 1;
      breaks[m] <= n && pages[m] + texts[n] + "\n" == PageAt(header, texts, breaks[..m + 1] + [n + 1], m)
  {
    var m := |pages| - 1;
    assert breaks[m] <= breaks[m + 1] == n;
    LinesSnoc(texts, breaks[m], n);
    assert pages[m] == PageAt(header, texts, breaks, m);
  }

  lemma FitsAfterFit(header: string, texts: seq<string>, n: nat, pages: seq<string>, breaks: seq<nat>)
    requires |breaks| == |pages| + 1 && |pages| >= 1 && breaks[|pages|] == n && n < |texts|
    requires breaks[|pages| - 1] <= n && (|pages| == 1 || breaks[|pages| - 1] < n)
    requires Fits(header, texts, pages, breaks)
    requires |pages[|pages| - 1]| == LengthBefore(header, texts, breaks, |pages| - 1, n)
    requires |pages[|pages| - 1]| + |texts[n]| <= MAX_PAGE_LENGTH
    ensures Fits(header, texts, pages[..|pages| - 1] + [pages[|pages| - 1] + texts[n] + "\n"], breaks[..|pages|] + [n + 1])
  {
    var m := |pages| - 1;
    var p := pages[..m] + [pages[m] + texts[n] + "\n"];
    var b := breaks[..m + 1] + [n + 1];
    forall k, j | 0 <= k < |p| && b[k] <= j < b[k + 1] && j < |texts| && (k == 0 || b[k] < j)
      ensures LengthBefore(header, texts, b, k, j) + |texts[j]| <= MAX_PAGE_LENGTH
    {
      assert b[k] == breaks[k];
      assert LengthBefore(header, texts, b, k, j) == LengthBefore(header, texts, breaks, k, j);
      if k < m {
        assert b[k + 1] == breaks[k + 1];
      }
    }
  }

  lemma FlushesAfterFit(texts: seq<string>, n: nat, pages: seq<string>, breaks: seq<nat>)
    requires |breaks| == |pages| + 1 && |pages| >= 1 && n < |texts|
    requires Flushes(texts, pages, breaks)
    ensures Flushes(texts, pages[..|pages| - 1] + [pages[|pages| - 1] + texts[n] + "\n"], breaks[..|pages|] + [n + 1])
  {
    var m := |pages| - 1;
    var p := pages[..m] + [pages[m] + texts[n] + "\n"];
    var b := breaks[..m + 1] + [n + 1];
    forall k | 0 <= k < |p| - 1
      ensures Overflows(texts, p, b, k)
    {
      assert p[k] == pages[k] && b[k + 1] == breaks[k + 1];
      assert Overflows(texts, pages, breaks, k);
    }
  }

  /** Appending paragraph `n` to the current page. */
  lemma FitStep(header: string, texts: seq<string>, n: nat, pages: seq<string>, breaks: seq<nat>)
    requires Greedy(header, texts, n, pages, breaks) && |pages| >= 1 && n < |texts|
    requires |pages[|pages| - 1]| + |texts[n]| <= MAX_PAGE_LENGTH
    ensures Greedy(header, texts, n + 1, pages[..|pages| - 1] + [pages[|pages| - 1] + texts[n] + "\n"], breaks[..|pages|] + [n + 1])
  {
    var m := |pages| - 1;
    assert pages[m] == PageAt(header, texts, breaks, m);
    assert breaks[m] <= n && (m == 0 || breaks[m] < n);
    LayoutAfterFit(header, texts, n, pages, breaks);
    FitsAfterFit(header, texts, n, pages, breaks);
    FlushesAfterFit(texts, n, pages, breaks);
  }

  /**
   * The packing loop of `formatPlantGrowthRules` / `formatAnimalBreedingRules`:
   * the current page starts as the heading; a paragraph that would take it
   * past the limit first closes it; each paragraph is followed by "\n"; the
   * last page is kept when it is not empty. The limit test does not count
   * that "\n".
   */
  method Paginate(header: string, texts: seq<string>) returns (pages: seq<string>, ghost breaks: seq<nat>)
    requires header != ""
    ensures |pages| >= 1
    ensures Greedy(header, texts, |texts|, pages, breaks)
    ensures Concat(pages) == header + Lines(texts)
  {
    pages := [];
    breaks := [0];
    var current := header;
    ghost var layout := [current];
    ghost var cuts := [0, 0];
    assert Lines(texts[0..0]) == "";
    for i := 0 to |texts|
      invariant layout == pages + [current] && cuts == breaks + [i]
      invariant |current| > 0
      invariant Greedy(header, texts, i, layout, cuts)
    {
      if |current| + |texts[i]| > MAX_PAGE_LENGTH {
        FlushStep(header, texts, i, layout, cuts);
        pages := pages + [current];
        breaks := breaks + [i];
        current := texts[i] + "\n";
        layout := layout + [current];
        cuts := cuts + [i + 1];
      } else {
        FitStep(header, texts, i, layout, cuts);
        assert layout[..|layout| - 1] == pages && layout[|layout| - 1] == current && cuts[..|layout|] == breaks;
        layout := layout[..|layout| - 1] + [layout[|layout| - 1] + texts[i] + "\n"];
        cuts := cuts[..|layout|] + [i + 1];
        current := current + texts[i] + "\n";
      }
    }
    if |current| > 0 {
      pages := pages + [current];
      breaks := breaks + [|texts|];
    }
    GreedyContent(header, texts, pages, breaks);
  }

  /** A finished packing holds the heading and then every paragraph. */
  lemma GreedyContent(header: string, texts: seq<string>, pages: seq<string>, breaks: seq<nat>)
    requires Greedy(header, texts, |texts|, pages, breaks) && |pages| >= 1
    ensures Concat(pages) == header + Lines(texts)
  {
    LayoutContent(header, texts, |texts|, pages, breaks);
    assert texts[..|texts|] == texts;
  }

  lemma {:induction false} LinesAppend(x: seq<string>, y: seq<string>)
    ensures Lines(x + y) == Lines(x) + Lines(y)
    decreases |y|
  {
    if |y| == 0 {
      assert x + y == x;
    } else {
      var init := y[..|y| - 1];
      assert (x + y)[..|x + y| - 1] == x + init;
      LinesAppend(x, init);
    }
  }

  /** The first `m` pages of a layout are a layout of the paragraphs they hold. */
  lemma LayoutPrefix(header: string, texts: seq<string>, n: nat, pages: seq<string>, breaks: seq<nat>, m: nat)
    requires Layout(header, texts, n, pages, breaks) && m <= |pages|
    ensures Layout(header, texts, breaks[m], pages[..m], breaks[..m + 1])
  {
    var b := breaks[..m + 1];
    OrderedPrefix(breaks, m + 1);
    forall k | 0 <= k < m
      ensures pages[..m][k] == PageAt(header, texts, b, k)
    {
      assert pages[k] == PageAt(header, texts, breaks, k);
      PageAtSameBreaks(header, texts, breaks, b, k);
    }
    assert PagesAt(header, texts, pages[..m], b);
  }

  /** Read one after another, the pages give the heading followed by every paragraph laid out. */
  lemma {:induction false} LayoutContent(header: string, texts: seq<string>, n: nat, pages: seq<string>, breaks: seq<nat>)
    requires Layout(header, texts, n, pages, breaks) && |pages| >= 1
    ensures Concat(pages) == header + Lines(texts[..n])
    decreases |pages|
  {
    var m := |pages| - 1;
    assert pages[m] == PageAt(header, texts, breaks, m);
    if m == 0 {
      assert texts[breaks[0]..breaks[1]] == texts[..n];
    } else {
      var a := breaks[m];
      LayoutPrefix(header, texts, n, pages, breaks, m);
      LayoutContent(header, texts, a, pages[..m], breaks[..m + 1]);
      LinesAppend(texts[..a], texts[a..n]);
      assert texts[..a] + texts[a..n] == texts[..n];
    }
  }

  /**
   * What the packing guarantees about page length: a page is at most one
   * character over the limit (the uncounted "\n"), unless it is the heading
   * alone or a single paragraph that is itself too long.
   */
  lemma PageLengthBound(header: string, texts: seq<string>, pages: seq<string>, breaks: seq<nat>, k: nat)
    requires Greedy(header, texts, |texts|, pages, breaks) && k < |pages|
    ensures || |pages[k]| <= MAX_PAGE_LENGTH + 1
            || (k == 0 && pages[k] == header)
            || (k > 0 && pages[k] == texts[breaks[k]] + "\n")
  {
    var a := breaks[k];
    var e := breaks[k + 1];
    assert pages[k] == PageAt(header, texts, breaks, k);
    if a == e {
      assert texts[a..e] == [];
    } else if k > 0 && e == a + 1 {
      LinesSnoc(texts, a, a);
      assert texts[a..a] == [];
    } else {
      var j := e - 1;
      LinesSnoc(texts, a, j);
      assert k == 0 || a < j;
      assert LengthBefore(header, texts, breaks, k, j) + |texts[j]| <= MAX_PAGE_LENGTH;
    }
  }

  /** A run of paragraphs opens with its first paragraph. */
  lemma {:induction false} LinesStartWithFirst(texts: seq<string>)
    requires |texts| > 0
    ensures StartsWith(Lines(texts), texts[0])
    decreases |texts|
  {
    if |texts| > 1 {
      var init := texts[..|texts| - 1];
      LinesStartWithFirst(init);
      assert init[0] == texts[0];
    } else {
      assert texts[..0] == [];
    }
  }

  /** When the heading and every paragraph open with `c`, so does every page. */
  lemma PagesStartWith(header: string, texts: seq<string>, pages: seq<string>, breaks: seq<nat>, c: char)
    requires Greedy(header, texts, |texts|, pages, breaks)
    requires |header| > 0 && header[0] == c
    requires forall i :: 0 <= i < |texts| ==> |texts[i]| > 0 && texts[i][0] == c
    ensures forall k :: 0 <= k < |pages| ==> |pages[k]| > 0 && pages[k][0] == c
  {
    forall k | 0 <= k < |pages|
      ensures |pages[k]| > 0 && pages[k][0] == c
    {
      assert pages[k] == PageAt(header, texts, breaks, k);
      if k > 0 {
        var slice := texts[breaks[k]..breaks[k + 1]];
        LinesStartWithFirst(slice);
        assert slice[0] == texts[breaks[k]];
      }
    }
  }

  // ---------------------------------------------------------------------------
  // The book

  /** `formatPlantGrowthRules` / `formatAnimalBreedingRules`. */
  method SectionPages(host: Host, kind: EventType, rules: seq<Rule>) returns (pages: seq<string>)
    ensures |pages| >= 1 && StartsWith(pages[0], SectionHeader(kind))
    ensures Concat(pages) == SectionHeader(kind) + Lines(RuleTexts(host, rules, 1))
    ensures GreedyPages(SectionHeader(kind), RuleTexts(host, rules, 1), pages)
    ensures forall k :: 0 <= k < |pages| ==> Styled(pages[k])
  {
    var header := SectionHeader(kind);
    var texts := RuleTexts(host, rules, 1);
    ghost var breaks;
    pages, breaks := Paginate(header, texts);
    PagesStartWith(header, texts, pages, breaks, '\U{A7}');
    assert pages[0] == PageAt(header, texts, breaks, 0);
  }

  /** The pages are the greedy packing of all the paragraphs under `header`, for some page breaks. */
  ghost predicate GreedyPages(header: string, texts: seq<string>, pages: seq<string>) {
    exists breaks :: Greedy(header, texts, |texts|, pages, breaks)
  }

  /** A page that opens with a formatting code. */
  predicate Styled(page: string) {
    |page| > 0 && page[0] == '\U{A7}'
  }

  lemma TitleIsStyledNoRulesIsNot()
    ensures Styled(TitlePage()) && !Styled(NoRulesPage())
  {
    assert TitlePage()[0] == '\U{A7}';
    assert NoRulesPage()[0] == 'N';
  }

  /**
   * `generateAlmanacBook`'s page list: the title page, the pages of each
   * non-empty category, and the "no rules" page when nothing else was added.
   */
  method AlmanacPages(host: Host, cfg: Config) returns (pages: seq<string>)
    ensures |pages| >= 2 && pages[0] == TitlePage()
    ensures NoRulesPage() in pages <==> cfg.plantGrowthRules == [] && cfg.animalBreedingRules == []
    ensures cfg.plantGrowthRules == [] && cfg.animalBreedingRules == [] ==> pages == [TitlePage(), NoRulesPage()]
    ensures cfg.plantGrowthRules != [] ==> StartsWith(pages[1], SectionHeader(PlantGrowth))
    ensures cfg.plantGrowthRules == [] && cfg.animalBreedingRules != [] ==> StartsWith(pages[1], SectionHeader(AnimalBreeding))
    ensures cfg.plantGrowthRules != [] || cfg.animalBreedingRules != [] ==>
      exists split :: SplitsAt(host, cfg, pages, split)
  {
    var plant := CategoryPages(host, PlantGrowth, cfg.plantGrowthRules);
    var animal := CategoryPages(host, AnimalBreeding, cfg.animalBreedingRules);
    StyledJoin(plant, animal);
    TitleIsStyledNoRulesIsNot();
    pages := WithTitle(TitlePage(), NoRulesPage(), plant + animal);
    if plant + animal != [] {
      SplitWitness(host, cfg, plant, animal, pages);
    }
  }

  /**
   * The pages a category contributes: none exactly when it has no rules;
   * otherwise its section's greedy packing, holding its header and its
   * numbered paragraphs; every page styled.
   */
  ghost predicate CategoryShape(host: Host, kind: EventType, rules: seq<Rule>, pages: seq<string>) {
    && (pages == [] <==> rules == [])
    && (rules != [] ==>
          && GreedyPages(SectionHeader(kind), RuleTexts(host, rules, 1), pages)
          && Concat(pages) == SectionHeader(kind) + Lines(RuleTexts(host, rules, 1)))
    && (forall k :: 0 <= k < |pages| ==> Styled(pages[k]))
  }

  /** After the title, pages `1..split` are the plant category's and the rest the animal category's. */
  ghost predicate SplitsAt(host: Host, cfg: Config, pages: seq<string>, split: int) {
    && 1 <= split <= |pages|
    && CategoryShape(host, PlantGrowth, cfg.plantGrowthRules, pages[1..split])
    && CategoryShape(host, AnimalBreeding, cfg.animalBreedingRules, pages[split..])
  }

  lemma SplitWitness(host: Host, cfg: Config, plant: seq<string>, animal: seq<string>, pages: seq<string>)
    requires CategoryShape(host, PlantGrowth, cfg.plantGrowthRules, plant)
    requires CategoryShape(host, AnimalBreeding, cfg.animalBreedingRules, animal)
    requires pages == [TitlePage()] + (plant + animal)
    ensures SplitsAt(host, cfg, pages, 1 + |plant|)
  {
    assert pages[1..1 + |plant|] == plant;
    assert pages[1 + |plant|..] == animal;
  }

  /** Two runs of styled pages, one after the other. */
  lemma StyledJoin(a: seq<string>, b: seq<string>)
    requires forall k :: 0 <= k < |a| ==> Styled(a[k])
    requires forall k :: 0 <= k < |b| ==> Styled(b[k])
    ensures forall k :: 0 <= k < |a + b| ==> Styled((a + b)[k])
    ensures a + b == [] <==> a == [] && b == []
    ensures a != [] ==> (a + b)[0] == a[0]
    ensures a == [] && b != [] ==> (a + b)[0] == b[0]
  {
    assert forall k :: 0 <= k < |a + b| ==> (a + b)[k] == if k < |a| then a[k] else b[k - |a|];
  }

  /**
   * The title page followed by the rule pages, or by the no-rules page when
   * there are none; styled rule pages can never be mistaken for an unstyled
   * no-rules page.
   */
  function WithTitle(title: string, noRules: string, rulePages: seq<string>): (pages: seq<string>)
    requires Styled(title) && !Styled(noRules)
    requires forall k :: 0 <= k < |rulePages| ==> Styled(rulePages[k])
    ensures |pages| >= 2 && pages[0] == title
    ensures noRules in pages <==> rulePages == []
    ensures rulePages == [] ==> pages == [title, noRules]
    ensures rulePages != [] ==> pages == [title] + rulePages && pages[1] == rulePages[0]
  {
    if rulePages == [] then [title, noRules]
    else
      UnstyledPageIsAbsent([title] + rulePages, noRules);
      [title] + rulePages
  }

  /** The pages a category contributes: none for an empty rule list, its section otherwise. */
  method CategoryPages(host: Host, kind: EventType, rules: seq<Rule>) returns (pages: seq<string>)
    ensures pages == [] <==> rules == []
    ensures pages != [] ==> StartsWith(pages[0], SectionHeader(kind))
    ensures forall k :: 0 <= k < |pages| ==> Styled(pages[k])
    ensures CategoryShape(host, kind, rules, pages)
  {
    pages := [];
    if rules != [] {
      pages := SectionPages(host, kind, rules);
    }
  }

  lemma UnstyledPageIsAbsent(pages: seq<string>, page: string)
    requires forall k :: 0 <= k < |pages| ==> Styled(pages[k])
    requires !Styled(page)
    ensures page !in pages
  {
  }
}

=== FILE: cache.dfy ===
/**
 * `RuleCache`: a bounded least-recently-used map from a canonical event key
 * to a verdict. The Java class is a `LinkedHashMap` in access order whose
 * eldest entry is dropped once the size exceeds the bound; here it is the
 * same thing spelled out, an association list ordered from least to most
 * recently accessed.
 */
module Cache {
  import opened Wrappers
  import opened Events

  const DEFAULT_CACHE_SIZE: nat := 1000

  /** `CacheKey`: two keys are equal iff all five components are. */
  datatype CacheKey = CacheKey(
    eventType: EventType,
    dimension: string,
    position: BlockPos,
    biomeId: string,
    entityType: string)

  type Entry = (CacheKey, bool)

  /** Entries in access order: `entries[0]` is the least recently accessed. */
  datatype Lru = Lru(maxSize: nat, entries: seq<Entry>)

  predicate DistinctKeys(e: seq<Entry>) {
    forall i, j :: 0 <= i < j < |e| ==> e[i].0 != e[j].0
  }

  /** The representation invariant: no key twice, never more than `maxSize` entries. */
  predicate Valid(c: Lru) {
    DistinctKeys(c.entries) && |c.entries| <= c.maxSize
  }

  /** The map the entries denote. */
  function AsMap(e: seq<Entry>): map<CacheKey, bool>
    decreases |e|
  {
    if |e| == 0 then map[] else AsMap(e[..|e| - 1])[e[|e| - 1].0 := e[|e| - 1].1]
  }

  /** The verdict stored for `k`, without touching the access order. */
  function Lookup(c: Lru, k: CacheKey): Option<bool> {
    var m := AsMap(c.entries);
    if k in m then Some(m[k]) else None
  }

  /** Position of `k` in the access order, if present. */
  function IndexOf(e: seq<Entry>, k: CacheKey): (r: Option<nat>)
    ensures r.Some? ==> r.value < |e| && e[r.value].0 == k
    ensures r.None? ==> forall i :: 0 <= i < |e| ==> e[i].0 != k
  {
    if |e| == 0 then None
    else if e[|e| - 1].0 == k then Some(|e| - 1)
    else IndexOf(e[..|e| - 1], k)
  }

  function RemoveAt(e: seq<Entry>, i: nat): seq<Entry>
    requires i < |e|
  {
    e[..i] + e[i + 1..]
  }

  /** The entries other than `k`'s, in their access order. */
  function Without(e: seq<Entry>, k: CacheKey): seq<Entry> {
    if |e| == 0 then [] else (if e[0].0 == k then [] else [e[0]]) + Without(e[1..], k)
  }

  // ---------------------------------------------------------------------------
  // Facts about the map view

  lemma {:induction false} AsMapKeys(e: seq<Entry>)
    ensures forall k :: k in AsMap(e) <==> exists i :: 0 <= i < |e| && e[i].0 == k
    decreases |e|
  {
    if |e| > 0 {
      AsMapKeys(e[..|e| - 1]);
      forall k | exists i :: 0 <= i < |e| && e[i].0 == k
        ensures k in AsMap(e)
      {
        var i :| 0 <= i < |e| && e[i].0 == k;
        if i < |e| - 1 { assert e[..|e| - 1][i] == e[i]; }
      }
    }
  }

  lemma AsMapSnoc(s: seq<Entry>, x: Entry)
    ensures AsMap(s + [x]) == AsMap(s)[x.0 := x.1]
  {
    assert (s + [x])[..|s|] == s;
  }

  lemma {:induction false} AsMapAppend(a: seq<Entry>, b: seq<Entry>)
    ensures AsMap(a + b) == AsMap(a) + AsMap(b)
    decreases |b|
  {
    if |b| == 0 {
      assert a + b == a;
    } else {
      assert (a + b)[..|a + b| - 1] == a + b[..|b| - 1];
      AsMapAppend(a, b[..|b| - 1]);
    }
  }

  /** A key that no entry of `post` carries keeps the value `x` gives it. */
  lemma AsMapSplice(pre: seq<Entry>, x: Entry, post: seq<Entry>)
    requires forall j :: 0 <= j < |post| ==> post[j].0 != x.0
    ensures AsMap(pre + [x] + post) == AsMap(pre + post)[x.0 := x.1]
  {
    AsMapAppend(pre + [x], post);
    AsMapAppend(pre, post);
    AsMapSnoc(pre, x);
    AsMapKeys(post);
  }

  /** With distinct keys, the map holds each entry's own value. */
  lemma AsMapValue(e: seq<Entry>, i: nat)
    requires DistinctKeys(e) && i < |e|
    ensures e[i].0 in AsMap(e) && AsMap(e)[e[i].0] == e[i].1
  {
    var pre, post := e[..i], e[i + 1..];
    assert e == pre + [e[i]] + post;
    DistinctSplit(pre, e[i], post);
    AsMapSplice(pre, e[i], post);
  }

  /** Splitting a duplicate-free list around one of its entries. */
  lemma DistinctSplit(pre: seq<Entry>, x: Entry, post: seq<Entry>)
    requires DistinctKeys(pre + [x] + post)
    ensures forall j :: 0 <= j < |pre| ==> pre[j].0 != x.0
    ensures forall j :: 0 <= j < |post| ==> post[j].0 != x.0
    ensures DistinctKeys(pre + post)
  {
    var w := pre + [x] + post;
    forall j | 0 <= j < |pre| ensures pre[j].0 != x.0 { assert w[j] == pre[j] && w[|pre|] == x; }
    forall j | 0 <= j < |post| ensures post[j].0 != x.0 { assert w[|pre| + 1 + j] == post[j] && w[|pre|] == x; }
    var r := pre + post;
    forall a, b | 0 <= a < b < |r| ensures r[a].0 != r[b].0 {
      if a < |pre| { assert r[a] == w[a]; } else { assert r[a] == w[a + 1]; }
      if b < |pre| { assert r[b] == w[b]; } else { assert r[b] == w[b + 1]; }
    }
  }

  lemma DistinctSnoc(s: seq<Entry>, x: Entry)
    requires DistinctKeys(s)
    requires forall j :: 0 <= j < |s| ==> s[j].0 != x.0
    ensures DistinctKeys(s + [x])
  {
  }

  lemma {:induction false} WithoutAppend(a: seq<Entry>, b: seq<Entry>, k: CacheKey)
    ensures Without(a + b, k) == Without(a, k) + Without(b, k)
    decreases |a|
  {
    if |a| > 0 {
      assert (a + b)[1..] == a[1..] + b;
      WithoutAppend(a[1..], b, k);
    } else {
      assert a + b == b;
    }
  }

  lemma {:induction false} WithoutAbsent(e: seq<Entry>, k: CacheKey)
    requires forall i :: 0 <= i < |e| ==> e[i].0 != k
    ensures Without(e, k) == e
    decreases |e|
  {
    if |e| > 0 {
      WithoutAbsent(e[1..], k);
      assert [e[0]] + e[1..] == e;
    }
  }

  /** Dropping a key carried by one entry only removes just that entry. */
  lemma WithoutSingle(pre: seq<Entry>, x: Entry, post: seq<Entry>)
    requires forall j :: 0 <= j < |pre| ==> pre[j].0 != x.0
    requires forall j :: 0 <= j < |post| ==> post[j].0 != x.0
    ensures Without(pre + [x] + post, x.0) == pre + post
  {
    WithoutAbsent(pre, x.0);
    WithoutAbsent(post, x.0);
    assert Without([x], x.0) == [];
    WithoutAppend(pre, [x], x.0);
    assert Without(pre + [x], x.0) == pre;
    WithoutAppend(pre + [x], post, x.0);
  }

  /** In a duplicate-free list, dropping the entry at `i` is dropping its key. */
  lemma RemoveAtIsWithout(e: seq<Entry>, i: nat)
    requires DistinctKeys(e) && i < |e|
    ensures RemoveAt(e, i) == Without(e, e[i].0)
  {
    var pre, post := e[..i], e[i + 1..];
    forall j | 0 <= j < |pre| ensures pre[j].0 != e[i].0 { assert pre[j] == e[j]; }
    forall j | 0 <= j < |post| ensures post[j].0 != e[i].0 { assert post[j] == e[i + 1 + j]; }
    assert e == pre + [e[i]] + post;
    WithoutSingle(pre, e[i], post);
  }

  /** Taking the entry at `i` out and putting `x` with the same key at the end. */
  lemma Requeue(e: seq<Entry>, i: nat, x: Entry)
    requires DistinctKeys(e) && i < |e| && x.0 == e[i].0
    ensures AsMap(RemoveAt(e, i) + [x]) == AsMap(e)[x.0 := x.1]
    ensures DistinctKeys(RemoveAt(e, i) + [x])
    ensures Without(RemoveAt(e, i) + [x], x.0) == Without(e, x.0)
  {
    RequeueMap(e, i, x);
    RequeueDistinct(e, i, x);
    RemoveAtIsWithout(e, i);
    var r := RemoveAt(e, i);
    WithoutAppend(r, [x], x.0);
    assert Without([x], x.0) == [];
    WithoutAbsent(r, x.0);
  }

  lemma RequeueMap(e: seq<Entry>, i: nat, x: Entry)
    requires DistinctKeys(e) && i < |e| && x.0 == e[i].0
    ensures AsMap(RemoveAt(e, i) + [x]) == AsMap(e)[x.0 := x.1]
  {
    var pre, post := e[..i], e[i + 1..];
    assert e == pre + [e[i]] + post;
    assert RemoveAt(e, i) == pre + post;
    DistinctSplit(pre, e[i], post);
    AsMapSplice(pre, e[i], post);
    AsMapSnoc(pre + post, x);
    var m := AsMap(pre + post);
    assert AsMap(e) == m[x.0 := e[i].1];
    assert m[x.0 := e[i].1][x.0 := x.1] == m[x.0 := x.1];
  }

  lemma RequeueDistinct(e: seq<Entry>, i: nat, x: Entry)
    requires DistinctKeys(e) && i < |e| && x.0 == e[i].0
    ensures forall j :: 0 <= j < |RemoveAt(e, i)| ==> RemoveAt(e, i)[j].0 != x.0
    ensures DistinctKeys(RemoveAt(e, i) + [x])
  {
    var pre, post := e[..i], e[i + 1..];
    var r := RemoveAt(e, i);
    assert e == pre + [e[i]] + post;
    DistinctSplit(pre, e[i], post);
    forall j | 0 <= j < |r| ensures r[j].0 != x.0 {
      if j < |pre| { assert r[j] == pre[j]; } else { assert r[j] == post[j - |pre|]; }
    }
    DistinctSnoc(r, x);
  }

  // ---------------------------------------------------------------------------
  // The cache operations

  /** `new RuleCache(maxSize)`; the map constructor rejects a negative size. */
  function NewRuleCache(maxSize: nat): (c: Lru)
    ensures Valid(c) && c.maxSize == maxSize && |c.entries| == 0
  {
    Lru(maxSize, [])
  }

  /** `new RuleCache()`. */
  function DefaultRuleCache(): (c: Lru)
    ensures Valid(c) && c.maxSize == 1000 && |c.entries| == 0
  {
    NewRuleCache(DEFAULT_CACHE_SIZE)
  }

  datatype GetResult = GetResult(value: Option<bool>, cache: Lru)

  /**
   * `LinkedHashMap.get` in access order: a hit returns the stored verdict
   * and makes the entry the most recently accessed; a miss changes nothing.
   */
  function LruGet(c: Lru, k: CacheKey): (r: GetResult)
    requires Valid(c)
    ensures r.value == Lookup(c, k)
    ensures Valid(r.cache) && r.cache.maxSize == c.maxSize
    ensures AsMap(r.cache.entries) == AsMap(c.entries)
    ensures r.value.None? ==> r.cache == c
    ensures r.value.Some? ==> r.cache.entries[|r.cache.entries| - 1].0 == k
    ensures Without(r.cache.entries, k) == Without(c.entries, k)
  {
    match IndexOf(c.entries, k)
    case Some(i) =>
      Requeue(c.entries, i, c.entries[i]);
      AsMapValue(c.entries, i);
      GetResult(Some(c.entries[i].1), Lru(c.maxSize, RemoveAt(c.entries, i) + [c.entries[i]]))
    case None =>
      AsMapKeys(c.entries);
      GetResult(None, c)
  }

  /**
   * `LinkedHashMap.put` in access order followed by `removeEldestEntry`:
   * an existing key gets the new value and becomes most recent; a new key
   * is appended, and when that makes the size exceed `maxSize` the least
   * recently accessed entry is dropped.
   */
  function LruPut(c: Lru, k: CacheKey, v: bool): (r: Lru)
    requires Valid(c)
    ensures Valid(r) && r.maxSize == c.maxSize
    ensures c.maxSize >= 1 ==> Lookup(r, k) == Some(v) && r.entries[|r.entries| - 1] == (k, v)
    ensures Lookup(c, k).Some? || |c.entries| < c.maxSize ==> AsMap(r.entries) == AsMap(c.entries)[k := v]
    ensures Lookup(c, k).Some? ==> r.entries == Without(c.entries, k) + [(k, v)]
    ensures Lookup(c, k).None? && |c.entries| < c.maxSize ==> r.entries == c.entries + [(k, v)]
    ensures Lookup(c, k).None? && |c.entries| == c.maxSize ==> r.entries == (c.entries + [(k, v)])[1..]
  {
    match IndexOf(c.entries, k)
    case Some(i) =>
      PutHit(c, i, k, v);
      Lru(c.maxSize, RemoveAt(c.entries, i) + [(k, v)])
    case None =>
      if |c.entries| < c.maxSize then
        PutRoom(c, k, v);
        Lru(c.maxSize, c.entries + [(k, v)])
      else
        PutFull(c, k, v);
        Lru(c.maxSize, (c.entries + [(k, v)])[1..])
  }

  /** The hit branch of `LruPut`: the entry at `i` is requeued with the new value. */
  lemma PutHit(c: Lru, i: nat, k: CacheKey, v: bool)
    requires Valid(c) && i < |c.entries| && c.entries[i].0 == k
    ensures Lookup(c, k).Some?
    ensures var e := RemoveAt(c.entries, i) + [(k, v)];
      && DistinctKeys(e) && |e| == |c.entries| && e[|e| - 1] == (k, v)
      && AsMap(e) == AsMap(c.entries)[k := v]
      && k in AsMap(e) && AsMap(e)[k] == v
      && e == Without(c.entries, k) + [(k, v)]
  {
    AsMapKeys(c.entries);
    Requeue(c.entries, i, (k, v));
    RemoveAtIsWithout(c.entries, i);
  }

  /** A miss with room: the entry is appended. */
  lemma PutRoom(c: Lru, k: CacheKey, v: bool)
    requires Valid(c) && |c.entries| < c.maxSize
    requires forall i :: 0 <= i < |c.entries| ==> c.entries[i].0 != k
    ensures Lookup(c, k).None?
    ensures var e := c.entries + [(k, v)];
      && DistinctKeys(e) && |e| <= c.maxSize
      && AsMap(e) == AsMap(c.entries)[k := v]
  {
    AsMapKeys(c.entries);
    DistinctSnoc(c.entries, (k, v));
    AsMapSnoc(c.entries, (k, v));
  }

  /** A miss on a full cache: the entry is appended and the eldest dropped. */
  lemma PutFull(c: Lru, k: CacheKey, v: bool)
    requires Valid(c) && |c.entries| == c.maxSize
    requires forall i :: 0 <= i < |c.entries| ==> c.entries[i].0 != k
    ensures Lookup(c, k).None?
    ensures var e := (c.entries + [(k, v)])[1..];
      && DistinctKeys(e) && |e| == c.maxSize
      && (c.maxSize >= 1 ==> k in AsMap(e) && AsMap(e)[k] == v && e[|e| - 1] == (k, v))
  {
    AsMapKeys(c.entries);
    var grown := c.entries + [(k, v)];
    DistinctSnoc(c.entries, (k, v));
    var e := grown[1..];
    assert DistinctKeys(e) by {
      forall a, b | 0 <= a < b < |e| ensures e[a].0 != e[b].0 { assert e[a] == grown[a + 1] && e[b] == grown[b + 1]; }
    }
    if c.maxSize >= 1 {
      assert e == c.entries[1..] + [(k, v)];
      AsMapSnoc(c.entries[1..], (k, v));
    }
  }

  /** `clear()`. */
  function Clear(c: Lru): (r: Lru)
    ensures Valid(r) && Size(r) == 0 && r.maxSize == c.maxSize
    ensures forall k :: Lookup(r, k).None?
  {
    Lru(c.maxSize, [])
  }

  /** `size()`. */
  function Size(c: Lru): (n: nat)
    requires Valid(c)
    ensures n == |AsMap(c.entries).Keys| && n <= c.maxSize
  {
    DistinctSize(c.entries);
    |c.entries|
  }

  lemma {:induction false} DistinctSize(e: seq<Entry>)
    requires DistinctKeys(e)
    ensures |AsMap(e).Keys| == |e|
    decreases |e|
  {
    if |e| > 0 {
      var init := e[..|e| - 1];
      DistinctSize(init);
      AsMapKeys(init);
      assert e[|e| - 1].0 !in AsMap(init) by {
        forall i | 0 <= i < |init| ensures init[i].0 != e[|e| - 1].0 { assert init[i] == e[i]; }
      }
      assert AsMap(e).Keys == AsMap(init).Keys + {e[|e| - 1].0};
    }
  }

  /** `getMaxSize()`. */
  function GetMaxSize(c: Lru): nat {
    c.maxSize
  }

  // ---------------------------------------------------------------------------
  // LRU properties

  /** A `put` never leaves the cache above its bound. */
  lemma PutRespectsBound(c: Lru, k: CacheKey, v: bool)
    requires Valid(c)
    ensures Size(LruPut(c, k, v)) <= c.maxSize
  {
  }

  /** With room for at least one entry, `put(k, v)` then `get(k)` yields `v`. */
  lemma PutThenGet(c: Lru, k: CacheKey, v: bool)
    requires Valid(c) && c.maxSize >= 1
    ensures LruGet(LruPut(c, k, v), k).value == Some(v)
  {
  }

  /**
   * Inserting a new key into a full cache drops exactly the least recently
   * accessed entry and keeps every other one.
   */
  lemma EvictsLeastRecentlyAccessed(c: Lru, k: CacheKey, v: bool)
    requires Valid(c) && c.maxSize >= 1 && |c.entries| == c.maxSize && Lookup(c, k).None?
    ensures var r := LruPut(c, k, v);
      && Size(r) == Size(c)
      && Lookup(r, c.entries[0].0).None?
      && (forall i :: 1 <= i < |c.entries| ==> Lookup(r, c.entries[i].0) == Some(c.entries[i].1))
      && Lookup(r, k) == Some(v)
  {
    var r := LruPut(c, k, v);
    assert r.entries == c.entries[1..] + [(k, v)];
    AsMapKeys(r.entries);
    forall i | 0 <= i < |r.entries| ensures r.entries[i].0 != c.entries[0].0 {
      if i < |r.entries| - 1 { assert r.entries[i] == c.entries[i + 1]; }
      else { AsMapKeys(c.entries); }
    }
    forall i | 1 <= i < |c.entries|
      ensures Lookup(r, c.entries[i].0) == Some(c.entries[i].1)
    {
      assert r.entries[i - 1] == c.entries[i];
      AsMapValue(r.entries, i - 1);
    }
  }

  /** A `get` on a present key makes it the last candidate for eviction. */
  lemma GetProtectsFromEviction(c: Lru, k: CacheKey, k2: CacheKey, v: bool)
    requires Valid(c) && c.maxSize >= 2 && |c.entries| == c.maxSize
    requires Lookup(c, k).Some? && Lookup(c, k2).None?
    ensures Lookup(LruPut(LruGet(c, k).cache, k2, v), k) == Lookup(c, k)
  {
    var g := LruGet(c, k).cache;
    var r := LruPut(g, k2, v);
    assert Lookup(g, k2).None?;
    assert r.entries == g.entries[1..] + [(k2, v)];
    var n := |g.entries|;
    assert g.entries[n - 1].0 == k;
    assert r.entries[n - 2] == g.entries[n - 1];
    AsMapValue(r.entries, n - 2);
    AsMapValue(g.entries, n - 1);
  }

  // ---------------------------------------------------------------------------
  // Keys derived from event contexts

  /** The key of a context; `None` when the biome's registry id is unavailable. */
  function KeyOf(ctx: EventContext): (k: Option<CacheKey>)
    ensures ctx.biome.registryKey.None? <==> k.None?
    ensures k.Some? ==>
      && k.value.eventType == ctx.eventType && k.value.dimension == Dimension(ctx)
      && k.value.position == ctx.position && k.value.entityType == ctx.entityType
      && k.value.biomeId == ctx.biome.registryKey.value
  {
    match ctx.biome.registryKey
    case None => None
    case Some(id) => Some(CacheKey(ctx.eventType, Dimension(ctx), ctx.position, id, ctx.entityType))
  }

  /** Contexts share a key iff they agree on event type, dimension, position, biome id and subject. */
  lemma SameKeyIffSameComponents(a: EventContext, b: EventContext)
    requires a.biome.registryKey.Some? && b.biome.registryKey.Some?
    ensures KeyOf(a) == KeyOf(b) <==>
      && a.eventType == b.eventType && Dimension(a) == Dimension(b) && a.position == b.position
      && a.biome.registryKey == b.biome.registryKey && a.entityType == b.entityType
  {
  }

  /** `RuleCache.get(context)`: absent for a null context or an unavailable biome id. */
  function Get(c: Lru, ctx: Option<EventContext>): (r: GetResult)
    requires Valid(c)
    ensures ctx.None? || ctx.value.biome.registryKey.None? ==> r == GetResult(None, c)
    ensures ctx.Some? && KeyOf(ctx.value).Some? ==> r == LruGet(c, KeyOf(ctx.value).value)
    ensures Valid(r.cache) && r.cache.maxSize == c.maxSize && AsMap(r.cache.entries) == AsMap(c.entries)
  {
    if ctx.None? then GetResult(None, c)
    else match KeyOf(ctx.value)
      case None => GetResult(None, c)
      case Some(k) => LruGet(c, k)
  }

  /** `RuleCache.put(context, result)`: ignored for a null context or an unavailable biome id. */
  function Put(c: Lru, ctx: Option<EventContext>, v: bool): (r: Lru)
    requires Valid(c)
    ensures ctx.None? || ctx.value.biome.registryKey.None? ==> r == c
    ensures ctx.Some? && KeyOf(ctx.value).Some? ==> r == LruPut(c, KeyOf(ctx.value).value, v)
    ensures Valid(r) && r.maxSize == c.maxSize
  {
    if ctx.None? then c
    else match KeyOf(ctx.value)
      case None => c
      case Some(k) => LruPut(c, k, v)
  }

  /**
   * The bound is fixed when the cache is built: no get, put or clear
   * changes what `getMaxSize()` reports, and the size never exceeds it.
   */
  lemma MaxSizeIsFixed(c: Lru, ctx: Option<EventContext>, v: bool)
    requires Valid(c)
    ensures GetMaxSize(Get(c, ctx).cache) == GetMaxSize(c)
    ensures GetMaxSize(Put(c, ctx, v)) == GetMaxSize(c)
    ensures GetMaxSize(Clear(c)) == GetMaxSize(c)
    ensures Size(c) <= GetMaxSize(c)
  {
  }
}

=== FILE: decision.dfy ===
/**
 * `EventDecisionManager`: the decision procedure for one event, the
 * process-wide verdict cache in front of it, and the performance counters.
 * The static state (cache and counters) is threaded through explicitly as
 * a `Manager` value; the configuration is read from a `Config` value. The
 * nanosecond clock is replaced by the elapsed time of the evaluation,
 * passed in by the caller.
 */
module Decision {
  import opened Wrappers
  import opened Rules
  import opened Events
  import opened Matcher
  import opened Settings
  import opened Cache
  import opened Ranking
  import Text

  datatype Stats = Stats(
    totalEvaluations: nat,
    totalEvaluationTimeNanos: nat,
    cacheHits: nat,
    cacheMisses: nat)

  const ZeroStats := Stats(0, 0, 0, 0)

  /** The manager's static state. */
  datatype Manager = Manager(cache: Lru, stats: Stats)

  predicate ManagerValid(m: Manager) {
    Valid(m.cache)
  }

  /** The state at class initialisation: a default-sized empty cache, zero counters. */
  function NewManager(): (m: Manager)
    ensures ManagerValid(m) && Size(m.cache) == 0 && m.cache.maxSize == DEFAULT_CACHE_SIZE
    ensures m.stats == ZeroStats
  {
    Manager(DefaultRuleCache(), ZeroStats)
  }

  // ---------------------------------------------------------------------------
  // Rule selection

  /** `getRulesForEventType`: the configured list for the event's category. */
  function RulesForEventType(cfg: Config, t: EventType): (rules: seq<Rule>)
    ensures t == PlantGrowth ==> rules == cfg.plantGrowthRules
    ensures t == AnimalBreeding ==> rules == cfg.animalBreedingRules
  {
    match t
    case PlantGrowth => cfg.plantGrowthRules
    case AnimalBreeding => cfg.animalBreedingRules
  }

  /** Whether the global toggle for the event's category is on. */
  predicate ControlEnabled(t: Toggles, e: EventType) {
    match e
    case PlantGrowth => t.enablePlantGrowthControl
    case AnimalBreeding => t.enableAnimalBreedingControl
  }

  /**
   * `entityTypeMatches`: the rule is of the event's own category and its
   * type patterns accept the subject; a rule of the other category never applies.
   */
  function EntityTypeMatches(rule: Rule, ctx: EventContext): (r: bool)
    ensures r <==> ((rule.PlantGrowthRule? <==> ctx.eventType.PlantGrowth?)
                    && MatchesEntityType(ctx.entityType, TypePatterns(rule)))
  {
    if ctx.eventType == PlantGrowth && rule.PlantGrowthRule? then
      MatchesEntityType(ctx.entityType, TypePatterns(rule))
    else if ctx.eventType == AnimalBreeding && rule.AnimalBreedingRule? then
      MatchesEntityType(ctx.entityType, TypePatterns(rule))
    else
      false
  }

  /**
   * `ruleMatches`: dimension, then biome and temperature when biome control
   * is on, then coordinates when coordinate control is on, then subject type.
   */
  function RuleMatches(rule: Rule, ctx: EventContext, t: Toggles): (r: bool)
    ensures r ==> EntityTypeMatches(rule, ctx)
    ensures r <==>
      && MatchesDimension(Dimension(ctx), Dimensions(rule.base), DimensionsBlacklist(rule.base))
      && (t.enableBiomeControl ==> MatchesBiome(ctx.biome, Biomes(rule.base)))
      && (t.enableBiomeControl ==> InRealRange(ctx.biome.baseTemperature, rule.base.temperature))
      && (t.enableCoordinateControl ==>
            InIntRange(ctx.position.x, rule.base.x) && InIntRange(ctx.position.y, rule.base.y)
            && InIntRange(ctx.position.z, rule.base.z))
      && EntityTypeMatches(rule, ctx)
  {
    var b := rule.base;
    if !MatchesDimension(Dimension(ctx), Dimensions(b), DimensionsBlacklist(b)) then false
    else if t.enableBiomeControl && !MatchesBiome(ctx.biome, Biomes(b)) then false
    else if t.enableBiomeControl && !MatchesTemperature(ctx.biome.baseTemperature, b.temperature) then false
    else if t.enableCoordinateControl && !MatchesCoordinates(ctx.position, b.x, b.y, b.z) then false
    else EntityTypeMatches(rule, ctx)
  }

  /** An enabled rule whose subject patterns accept the event (location aside). */
  predicate Applies(rule: Rule, ctx: EventContext) {
    rule.base.enabled && EntityTypeMatches(rule, ctx)
  }

  /** An enabled rule all of whose criteria hold. */
  predicate FullyMatches(rule: Rule, ctx: EventContext, t: Toggles) {
    rule.base.enabled && RuleMatches(rule, ctx, t)
  }

  function AppliesTo(ctx: EventContext): Rule -> bool {
    x => Applies(x, ctx)
  }

  function FullyMatchesIn(ctx: EventContext, t: Toggles): Rule -> bool {
    x => FullyMatches(x, ctx, t)
  }

  /** `entityApplicableRules`, in list order. */
  function ApplicableRules(rules: seq<Rule>, ctx: EventContext): (r: seq<Rule>)
    ensures forall x :: x in r <==> x in rules && Applies(x, ctx)
  {
    Filter(rules, AppliesTo(ctx))
  }

  /** `matchingRules`, in list order; every full match is also applicable. */
  function MatchingRules(rules: seq<Rule>, ctx: EventContext, t: Toggles): (r: seq<Rule>)
    ensures forall x :: x in r <==> x in rules && FullyMatches(x, ctx, t)
    ensures forall x :: x in r ==> x in ApplicableRules(rules, ctx)
  {
    Filter(rules, FullyMatchesIn(ctx, t))
  }

  // ---------------------------------------------------------------------------
  // Fallback when nothing matches fully

  /** Some applicable rule carries a non-empty dimension whitelist. */
  function AnyWhitelist(applicable: seq<Rule>): (r: bool)
    ensures r <==> exists i :: 0 <= i < |applicable| && |Dimensions(applicable[i].base)| > 0
  {
    if |applicable| == 0 then false
    else if |Dimensions(applicable[0].base)| > 0 then true
    else
      var rest := AnyWhitelist(applicable[1..]);
      assert forall i :: 0 < i < |applicable| ==> applicable[i] == applicable[1..][i - 1];
      rest
  }

  /** Some applicable rule blacklists the current dimension. */
  function AnyBlacklists(applicable: seq<Rule>, dimensionId: string): (r: bool)
    ensures r <==> exists i :: 0 <= i < |applicable| && dimensionId in DimensionsBlacklist(applicable[i].base)
  {
    if |applicable| == 0 then false
    else if |DimensionsBlacklist(applicable[0].base)| > 0 && dimensionId in DimensionsBlacklist(applicable[0].base) then true
    else
      var rest := AnyBlacklists(applicable[1..], dimensionId);
      assert forall i :: 0 < i < |applicable| ==> applicable[i] == applicable[1..][i - 1];
      rest
  }

  /**
   * The verdict when no rule matches fully: deny if any applicable rule has a
   * dimension whitelist (whatever it lists), else deny if any applicable rule
   * blacklists the current dimension, else allow.
   */
  function FallbackVerdict(applicable: seq<Rule>, dimensionId: string): (allowed: bool)
    ensures !allowed <==>
      || (exists i :: 0 <= i < |applicable| && |Dimensions(applicable[i].base)| > 0)
      || (exists i :: 0 <= i < |applicable| && dimensionId in DimensionsBlacklist(applicable[i].base))
    ensures |applicable| == 0 ==> allowed
  {
    if AnyWhitelist(applicable) then false
    else if |applicable| > 0 && AnyBlacklists(applicable, dimensionId) then false
    else true
  }

  // ---------------------------------------------------------------------------
  // The decision

  /** Why an evaluation ended where it did. */
  datatype Outcome =
    | ControlOff                 // the category's toggle is off: allow, not cached
    | NoRules                    // no rules for the category: allow, not cached
    | Fallback(allowed: bool)    // no rule matches fully: whitelist/blacklist fallback, cached
    | Winner(rule: Rule)         // the most specific fully matching rule decides, cached

  function Allowed(o: Outcome): bool {
    match o
    case ControlOff => true
    case NoRules => true
    case Fallback(a) => a
    case Winner(r) => r.base.allow
  }

  /** Outcomes that `canEventOccur` writes to the cache. */
  predicate Stored(o: Outcome) {
    o.Fallback? || o.Winner?
  }

  /**
   * Rule `rules[i]` is the one `canEventOccur` follows: it matches fully, no
   * fully matching rule is more specific, and every fully matching rule
   * listed before it is strictly less specific.
   */
  predicate IsWinner(rules: seq<Rule>, ctx: EventContext, t: Toggles, i: int) {
    && 0 <= i < |rules|
    && FullyMatches(rules[i], ctx, t)
    && (forall j :: 0 <= j < |rules| && FullyMatches(rules[j], ctx, t) ==> Specificity(rules[j]) <= Specificity(rules[i]))
    && (forall j :: 0 <= j < i && FullyMatches(rules[j], ctx, t) ==> Specificity(rules[j]) < Specificity(rules[i]))
  }

  /**
   * The decision for a context that missed the cache: the category toggle,
   * then the empty rule list, then the most specific full match, else the
   * fallback over the applicable rules.
   */
  function Decide(cfg: Config, ctx: EventContext): (o: Outcome)
    ensures !ControlEnabled(cfg.toggles, ctx.eventType) <==> o == ControlOff
    ensures ControlEnabled(cfg.toggles, ctx.eventType) ==>
      (o == NoRules <==> |RulesForEventType(cfg, ctx.eventType)| == 0)
    ensures o.Fallback? ==>
      var rules := RulesForEventType(cfg, ctx.eventType);
      && (forall i :: 0 <= i < |rules| ==> !FullyMatches(rules[i], ctx, cfg.toggles))
      && o.allowed == FallbackVerdict(ApplicableRules(rules, ctx), Dimension(ctx))
    ensures o.Winner? <==>
      ControlEnabled(cfg.toggles, ctx.eventType)
      && exists i :: 0 <= i < |RulesForEventType(cfg, ctx.eventType)|
                     && FullyMatches(RulesForEventType(cfg, ctx.eventType)[i], ctx, cfg.toggles)
    ensures o.Winner? ==>
      exists i :: IsWinner(RulesForEventType(cfg, ctx.eventType), ctx, cfg.toggles, i)
                  && o.rule == RulesForEventType(cfg, ctx.eventType)[i]
  {
    if !ControlEnabled(cfg.toggles, ctx.eventType) then ControlOff
    else
      var rules := RulesForEventType(cfg, ctx.eventType);
      if |rules| == 0 then NoRules
      else
        var matching := MatchingRules(rules, ctx, cfg.toggles);
        if |matching| == 0 then
          NoFullMatch(rules, ctx, cfg.toggles);
          Fallback(FallbackVerdict(ApplicableRules(rules, ctx), Dimension(ctx)))
        else
          WinnerOfMatches(rules, ctx, cfg.toggles);
          Winner(SortDescending(matching, Specificity)[0])
  }

  /** An empty `matchingRules` means no rule of the category matches fully. */
  lemma NoFullMatch(rules: seq<Rule>, ctx: EventContext, t: Toggles)
    requires |MatchingRules(rules, ctx, t)| == 0
    ensures forall i :: 0 <= i < |rules| ==> !FullyMatches(rules[i], ctx, t)
  {
    forall i | 0 <= i < |rules| ensures !FullyMatches(rules[i], ctx, t) {
      assert rules[i] in rules;
    }
  }

  /** The head of the sorted full matches is the rule `IsWinner` singles out. */
  lemma WinnerOfMatches(rules: seq<Rule>, ctx: EventContext, t: Toggles)
    requires |MatchingRules(rules, ctx, t)| > 0
    ensures exists i :: IsWinner(rules, ctx, t, i) && SortDescending(MatchingRules(rules, ctx, t), Specificity)[0] == rules[i]
  {
    var matching := MatchingRules(rules, ctx, t);
    SortHeadIsFirstMaximum(matching, Specificity);
    FilterFirstMaximum(rules, FullyMatchesIn(ctx, t), Specificity);
    MaximumAmongIsFirstMaximum(rules, FullyMatchesIn(ctx, t), Specificity);
    var i := MaximumAmong(rules, FullyMatchesIn(ctx, t), Specificity);
    assert IsWinner(rules, ctx, t, i);
  }

  /** What `canEventOccur` returns together with the manager's new state. */
  datatype Evaluation = Evaluation(allowed: bool, manager: Manager)

  /** The verdict currently cached for `ctx`, if any. */
  function CachedVerdict(m: Manager, ctx: EventContext): Option<bool> {
    match KeyOf(ctx)
    case None => None
    case Some(k) => Lookup(m.cache, k)
  }

  /**
   * `canEventOccur(context)`. Every call counts as an evaluation; a null
   * context is allowed without touching the cache; a cached verdict is
   * returned before the toggles or rules are consulted; otherwise the miss
   * is counted, `Decide` runs, and fallback and rule verdicts are cached.
   * Only a verdict decided by a rule adds `elapsed` to the total time.
   */
  function CanEventOccur(cfg: Config, m: Manager, ctx: Option<EventContext>, elapsed: nat): (r: Evaluation)
    requires ManagerValid(m)
    ensures ManagerValid(r.manager) && r.manager.cache.maxSize == m.cache.maxSize
    ensures r.manager.stats.totalEvaluations == m.stats.totalEvaluations + 1
    ensures ctx.None? ==>
      && r.allowed && r.manager.cache == m.cache
      && r.manager.stats == m.stats.(totalEvaluations := m.stats.totalEvaluations + 1)
    ensures ctx.Some? && CachedVerdict(m, ctx.value).Some? ==>
      && r.allowed == CachedVerdict(m, ctx.value).value
      && AsMap(r.manager.cache.entries) == AsMap(m.cache.entries)
      && r.manager.cache == Get(m.cache, ctx).cache
      && r.manager.stats == m.stats.(totalEvaluations := m.stats.totalEvaluations + 1,
                                     cacheHits := m.stats.cacheHits + 1)
    ensures ctx.Some? && CachedVerdict(m, ctx.value).None? ==>
      var o := Decide(cfg, ctx.value);
      && r.allowed == Allowed(o)
      && r.manager.stats.cacheMisses == m.stats.cacheMisses + 1
      && r.manager.stats.cacheHits == m.stats.cacheHits
      && r.manager.stats.totalEvaluationTimeNanos
         == m.stats.totalEvaluationTimeNanos + (if o.Winner? then elapsed else 0)
      && (!Stored(o) || KeyOf(ctx.value).None? ==> r.manager.cache == m.cache)
      && (Stored(o) ==> r.manager.cache == Put(m.cache, ctx, r.allowed))
      && (Stored(o) && KeyOf(ctx.value).Some? && m.cache.maxSize >= 1 ==>
            CachedVerdict(r.manager, ctx.value) == Some(r.allowed))
  {
    var counted := m.stats.(totalEvaluations := m.stats.totalEvaluations + 1);
    if ctx.None? then Evaluation(true, Manager(m.cache, counted))
    else
      var c := ctx.value;
      var got := Get(m.cache, ctx);
      if got.value.Some? then
        Evaluation(got.value.value, Manager(got.cache, counted.(cacheHits := counted.cacheHits + 1)))
      else
        var missed := counted.(cacheMisses := counted.cacheMisses + 1);
        match Decide(cfg, c)
        case ControlOff => Evaluation(true, Manager(got.cache, missed))
        case NoRules => Evaluation(true, Manager(got.cache, missed))
        case Fallback(a) => Evaluation(a, Manager(Put(got.cache, ctx, a), missed))
        case Winner(rule) =>
          var timed := missed.(totalEvaluationTimeNanos := missed.totalEvaluationTimeNanos + elapsed);
          Evaluation(rule.base.allow, Manager(Put(got.cache, ctx, rule.base.allow), timed))
  }

  /** `canPlantGrow`: a plant-growth context at the position, then `canEventOccur`. */
  function CanPlantGrow(cfg: Config, m: Manager, level: Level, pos: BlockPos, cropType: string, elapsed: nat): (r: Evaluation)
    requires ManagerValid(m)
    ensures r == CanEventOccur(cfg, m, Some(ForPlantGrowth(level, pos, cropType)), elapsed)
    ensures CachedVerdict(m, ForPlantGrowth(level, pos, cropType)).None? ==>
      r.allowed == Allowed(Decide(cfg, ForPlantGrowth(level, pos, cropType)))
  {
    CanEventOccur(cfg, m, Some(ForPlantGrowth(level, pos, cropType)), elapsed)
  }

  /** `canAnimalBreed`: an animal-breeding context at the position, then `canEventOccur`. */
  function CanAnimalBreed(cfg: Config, m: Manager, level: Level, pos: BlockPos, animalType: string, elapsed: nat): (r: Evaluation)
    requires ManagerValid(m)
    ensures r == CanEventOccur(cfg, m, Some(ForAnimalBreeding(level, pos, animalType)), elapsed)
    ensures CachedVerdict(m, ForAnimalBreeding(level, pos, animalType)).None? ==>
      r.allowed == Allowed(Decide(cfg, ForAnimalBreeding(level, pos, animalType)))
  {
    CanEventOccur(cfg, m, Some(ForAnimalBreeding(level, pos, animalType)), elapsed)
  }

  /** `canEventOccur(eventType, level, pos, entityType)`: the factory for the type, then `canEventOccur`. */
  function CanEventOccurFor(cfg: Config, m: Manager, t: EventType, level: Level, pos: BlockPos, id: string, elapsed: nat): (r: Evaluation)
    requires ManagerValid(m)
    ensures t == PlantGrowth ==> r == CanPlantGrow(cfg, m, level, pos, id, elapsed)
    ensures t == AnimalBreeding ==> r == CanAnimalBreed(cfg, m, level, pos, id, elapsed)
  {
    match t
    case PlantGrowth => CanEventOccur(cfg, m, Some(ForPlantGrowth(level, pos, id)), elapsed)
    case AnimalBreeding => CanEventOccur(cfg, m, Some(ForAnimalBreeding(level, pos, id)), elapsed)
  }

  /** `clearCache`: empties the cache, counters untouched. */
  function ClearCache(m: Manager): (r: Manager)
    ensures ManagerValid(r) && Size(r.cache) == 0 && r.cache.maxSize == m.cache.maxSize
    ensures r.stats == m.stats
  {
    Manager(Clear(m.cache), m.stats)
  }

  /** `getCacheSize`. */
  function GetCacheSize(m: Manager): (n: nat)
    requires ManagerValid(m)
    ensures n == |AsMap(m.cache.entries).Keys|
    ensures n <= m.cache.maxSize
  {
    Size(m.cache)
  }

  /** `resetPerformanceStats`: all four counters to zero, cache untouched. */
  function ResetPerformanceStats(m: Manager): (r: Manager)
    ensures r.stats == ZeroStats && r.cache == m.cache
  {
    Manager(m.cache, ZeroStats)
  }

  // ---------------------------------------------------------------------------
  // Properties of the decision

  /** A cached verdict is returned whatever the configuration now says. */
  lemma CacheHitIgnoresConfiguration(cfg1: Config, cfg2: Config, m: Manager, ctx: EventContext, e1: nat, e2: nat)
    requires ManagerValid(m) && CachedVerdict(m, ctx).Some?
    ensures CanEventOccur(cfg1, m, Some(ctx), e1).allowed == CachedVerdict(m, ctx).value
    ensures CanEventOccur(cfg2, m, Some(ctx), e2).allowed == CachedVerdict(m, ctx).value
  {
  }

  /**
   * Asking twice in a row gives the same answer; when the first answer was
   * cached (and the cache can hold an entry) the second is a cache hit.
   */
  lemma {:induction false} RepeatedQueryIsStable(cfg: Config, m: Manager, ctx: EventContext, e1: nat, e2: nat)
    requires ManagerValid(m)
    ensures var r1 := CanEventOccur(cfg, m, Some(ctx), e1);
      var r2 := CanEventOccur(cfg, r1.manager, Some(ctx), e2);
      && r2.allowed == r1.allowed
      && (m.cache.maxSize >= 1 && KeyOf(ctx).Some? && Stored(Decide(cfg, ctx)) ==>
            r2.manager.stats.cacheHits == r1.manager.stats.cacheHits + 1)
  {
    var r1 := CanEventOccur(cfg, m, Some(ctx), e1);
    if CachedVerdict(m, ctx).Some? {
      var k := KeyOf(ctx).value;
      assert Lookup(r1.manager.cache, k) == Lookup(m.cache, k);
      assert CachedVerdict(r1.manager, ctx) == CachedVerdict(m, ctx);
    } else if KeyOf(ctx).Some? && Stored(Decide(cfg, ctx)) && m.cache.maxSize >= 1 {
      assert CachedVerdict(r1.manager, ctx) == Some(r1.allowed);
    } else if KeyOf(ctx).Some? && Stored(Decide(cfg, ctx)) {
      assert |r1.manager.cache.entries| <= 0;
      assert CachedVerdict(r1.manager, ctx).None?;
    } else {
      assert r1.manager.cache == m.cache;
    }
  }

  /** After `clearCache` the verdict is decided afresh from the configuration. */
  lemma ClearCacheForcesFreshDecision(cfg: Config, m: Manager, ctx: EventContext, e: nat)
    requires ManagerValid(m)
    ensures CanEventOccur(cfg, ClearCache(m), Some(ctx), e).allowed == Allowed(Decide(cfg, ctx))
  {
    assert CachedVerdict(ClearCache(m), ctx).None?;
  }

  /** Hits and misses together never exceed the evaluations counted. */
  predicate StatsConsistent(s: Stats) {
    s.cacheHits + s.cacheMisses <= s.totalEvaluations
  }

  /** Every evaluation counts itself and at most one of a hit or a miss. */
  lemma CanEventOccurKeepsStatsConsistent(cfg: Config, m: Manager, ctx: Option<EventContext>, e: nat)
    requires ManagerValid(m) && StatsConsistent(m.stats)
    ensures StatsConsistent(CanEventOccur(cfg, m, ctx, e).manager.stats)
    ensures ResetPerformanceStats(m).stats.totalEvaluations == 0 && StatsConsistent(ResetPerformanceStats(m).stats)
  {
  }

  /** A rule of the other category never applies, whatever its patterns. */
  lemma OtherCategoryNeverApplies(rule: Rule, ctx: EventContext, t: Toggles)
    requires rule.PlantGrowthRule? <==> ctx.eventType == AnimalBreeding
    ensures !Applies(rule, ctx) && !FullyMatches(rule, ctx, t)
  {
  }

  /** With the category's control on and only disabled rules, the fallback allows. */
  lemma {:induction false} OnlyDisabledRulesAllow(cfg: Config, ctx: EventContext)
    requires ControlEnabled(cfg.toggles, ctx.eventType)
    requires |RulesForEventType(cfg, ctx.eventType)| > 0
    requires forall i :: 0 <= i < |RulesForEventType(cfg, ctx.eventType)| ==> !RulesForEventType(cfg, ctx.eventType)[i].base.enabled
    ensures Decide(cfg, ctx) == Fallback(true)
  {
    var rules := RulesForEventType(cfg, ctx.eventType);
    FilterNone(rules, AppliesTo(ctx));
    FilterNone(rules, FullyMatchesIn(ctx, cfg.toggles));
  }

  /**
   * The whitelist fallback denies even in a listed dimension: a plant rule
   * for the overworld restricted to deserts, and wheat in overworld plains.
   * The dimension is on the whitelist, the rule still fails on its biome,
   * and the event is denied rather than allowed.
   */
  lemma WhitelistFallbackDeniesListedDimension(level: Level, pos: BlockPos, tags: string -> bool)
    requires level.dimension == "minecraft:overworld"
    ensures var rule := PlantGrowthRule(
                NewBaseRule().(dimensions := Some(["minecraft:overworld"]), biomes := Some(["minecraft:desert"])),
                Some([]));
      var cfg := OnLoad(InitialConfig(), DefaultToggles()).(plantGrowthRules := [rule]);
      var ctx := EventContext(level, pos, BiomeHolder(Some("minecraft:plains"), 0.8, tags), "minecraft:wheat", PlantGrowth);
      && Dimension(ctx) in Dimensions(rule.base)
      && Decide(cfg, ctx) == Fallback(false)
  {
    var rule := PlantGrowthRule(
      NewBaseRule().(dimensions := Some(["minecraft:overworld"]), biomes := Some(["minecraft:desert"])),
      Some([]));
    var cfg := OnLoad(InitialConfig(), DefaultToggles()).(plantGrowthRules := [rule]);
    var ctx := EventContext(level, pos, BiomeHolder(Some("minecraft:plains"), 0.8, tags), "minecraft:wheat", PlantGrowth);
    assert !Text.StartsWith("minecraft:desert", "#") by { assert "minecraft:desert"[..1] == "m"; }
    assert !Text.EndsWith("minecraft:desert", ":*") by { assert "minecraft:desert"[14..] == "rt"; }
    assert !MatchesBiome(ctx.biome, Biomes(rule.base));
    assert Applies(rule, ctx);
    assert [rule][0] == rule;
    assert ApplicableRules([rule], ctx) == [rule];
  }
}

=== FILE: events.dfy ===
/**
 * The event being decided (`EventType`, `EventContext`) and the host-world
 * values it carries. Registry lookup, tag membership and biome temperature
 * belong to the game; they appear here as fields supplied by the host.
 */
module Events {
  import opened Wrappers
  import opened Numbers

  datatype EventType = PlantGrowth | AnimalBreeding

  datatype BlockPos = BlockPos(x: int32, y: int32, z: int32)

  /**
   * A biome as the host exposes it: its registry id (`None` when the
   * registry lookup fails or yields null), its base temperature, and its
   * membership in tags named by canonical `namespace:path` ids.
   */
  datatype BiomeHolder = BiomeHolder(registryKey: Option<string>, baseTemperature: real, inTag: string -> bool)

  /** A world: its dimension id and the biome at each position. */
  datatype Level = Level(dimension: string, biomeAt: BlockPos -> BiomeHolder)

  /** `EventContext`: level, position, biome, subject (crop or animal) id and event type. */
  datatype EventContext = EventContext(
    level: Level,
    position: BlockPos,
    biome: BiomeHolder,
    entityType: string,
    eventType: EventType)

  /** `getDimension()`: the dimension of the context's level. */
  function Dimension(ctx: EventContext): string {
    ctx.level.dimension
  }

  /** `forPlantGrowth`: the biome is looked up at the event's own position. */
  function ForPlantGrowth(level: Level, position: BlockPos, cropType: string): (ctx: EventContext)
    ensures ctx.eventType == PlantGrowth
    ensures ctx.biome == level.biomeAt(position)
    ensures ctx.level == level && ctx.position == position && ctx.entityType == cropType
    ensures Dimension(ctx) == level.dimension
  {
    EventContext(level, position, level.biomeAt(position), cropType, PlantGrowth)
  }

  /** `forAnimalBreeding`: the biome is looked up at the event's own position. */
  function ForAnimalBreeding(level: Level, position: BlockPos, animalType: string): (ctx: EventContext)
    ensures ctx.eventType == AnimalBreeding
    ensures ctx.biome == level.biomeAt(position)
    ensures ctx.level == level && ctx.position == position && ctx.entityType == animalType
    ensures Dimension(ctx) == level.dimension
  {
    EventContext(level, position, level.biomeAt(position), animalType, AnimalBreeding)
  }

  /** The two factories differ in the event type alone. */
  lemma FactoriesDifferOnlyInEventType(level: Level, position: BlockPos, id: string)
    ensures ForPlantGrowth(level, position, id) == ForAnimalBreeding(level, position, id).(eventType := PlantGrowth)
    ensures ForPlantGrowth(level, position, id) != ForAnimalBreeding(level, position, id)
  {
  }
}

=== FILE: loader.dfy ===
/**
 * `ConfigLoader`: turning the parsed rules file into the two rule lists.
 * The TOML text and the file system are not modelled; the loader starts
 * from the document the TOML library produced. A rule table is a map from
 * key to value; reading a key with the wrong type raises in the source
 * (a failed cast), which here is the `Mistyped` field result.
 */
module Loader {
  import opened Wrappers
  import opened Numbers
  import opened Rules
  import opened Settings
  import opened Events
  import opened Decision
  import Cache

  /** The values a TOML table can hold, as far as the loader reads them. */
  datatype Value =
    | BoolValue(b: bool)
    | IntegerValue(i: int64)   // TOML integers arrive as `Integer` or `Long`
    | FloatValue(d: real)      // TOML floats arrive as `Double`
    | StringValue(s: string)
    | StringListValue(items: seq<string>)
    | OtherValue               // dates, nested tables, ...

  type Table = map<string, Value>

  /** What a typed `config.get(key)` yields. */
  datatype Field<T> = Missing | Present(value: T) | Mistyped

  datatype Kind = BoolKind | NumberKind | StringKind | ListKind

  function KindOf(v: Value): Option<Kind> {
    match v
    case BoolValue(_) => Some(BoolKind)
    case IntegerValue(_) => Some(NumberKind)
    case FloatValue(_) => Some(NumberKind)
    case StringValue(_) => Some(StringKind)
    case StringListValue(_) => Some(ListKind)
    case OtherValue => None
  }

  /** `key` is absent or holds a value of the expected kind. */
  predicate WellTypedKey(t: Table, key: string, kind: Kind) {
    key !in t || KindOf(t[key]) == Some(kind)
  }

  /** Every key `parseBaseRuleConfig` reads is absent or of the type it is cast to. */
  predicate BaseKeysWellTyped(t: Table) {
    && WellTypedKey(t, "enabled", BoolKind) && WellTypedKey(t, "allow", BoolKind)
    && WellTypedKey(t, "biomes", ListKind)
    && WellTypedKey(t, "temperature_min", NumberKind) && WellTypedKey(t, "temperature_max", NumberKind)
    && WellTypedKey(t, "x_min", NumberKind) && WellTypedKey(t, "x_max", NumberKind)
    && WellTypedKey(t, "y_min", NumberKind) && WellTypedKey(t, "y_max", NumberKind)
    && WellTypedKey(t, "z_min", NumberKind) && WellTypedKey(t, "z_max", NumberKind)
    && WellTypedKey(t, "dimension", StringKind) && WellTypedKey(t, "dimensions", ListKind)
    && WellTypedKey(t, "dimensions_blacklist", ListKind)
  }

  datatype Number = LongNumber(l: int64) | DoubleNumber(d: real)

  function BoolAt(t: Table, key: string): (f: Field<bool>)
    ensures f.Mistyped? <==> !WellTypedKey(t, key, BoolKind)
    ensures f.Missing? <==> key !in t
  {
    if key !in t then Missing
    else match t[key]
      case BoolValue(b) => Present(b)
      case _ => Mistyped
  }

  function NumberAt(t: Table, key: string): (f: Field<Number>)
    ensures f.Mistyped? <==> !WellTypedKey(t, key, NumberKind)
    ensures f.Missing? <==> key !in t
  {
    if key !in t then Missing
    else match t[key]
      case IntegerValue(i) => Present(LongNumber(i))
      case FloatValue(d) => Present(DoubleNumber(d))
      case _ => Mistyped
  }

  function StringAt(t: Table, key: string): (f: Field<string>)
    ensures f.Mistyped? <==> !WellTypedKey(t, key, StringKind)
    ensures f.Missing? <==> key !in t
  {
    if key !in t then Missing
    else match t[key]
      case StringValue(s) => Present(s)
      case _ => Mistyped
  }

  function ListAt(t: Table, key: string): (f: Field<seq<string>>)
    ensures f.Mistyped? <==> !WellTypedKey(t, key, ListKind)
    ensures f.Missing? <==> key !in t
  {
    if key !in t then Missing
    else match t[key]
      case StringListValue(l) => Present(l)
      case _ => Mistyped
  }

  /** `Number.floatValue()`, without the rounding to single precision. */
  function AsTemperature(n: Number): real {
    match n
    case LongNumber(l) => l as real
    case DoubleNumber(d) => d
  }

  /** `Number.intValue()`: a `Long` wraps to 32 bits, a `Double` truncates and saturates. */
  function AsCoordinate(n: Number): (v: int32)
    ensures n.LongNumber? && INT32_MIN <= n.l <= INT32_MAX ==> v == n.l
  {
    match n
    case LongNumber(l) => WrapToInt32(l)
    case DoubleNumber(d) => TruncToInt32(d)
  }

  function RealBound(f: Field<Number>, current: Option<real>): Option<real> {
    if f.Present? then Some(AsTemperature(f.value)) else current
  }

  function IntBound(f: Field<Number>, current: Option<int32>): Option<int32> {
    if f.Present? then Some(AsCoordinate(f.value)) else current
  }

  /** The fourteen typed reads `parseBaseRuleConfig` performs. */
  datatype BaseFields = BaseFields(
    enabled: Field<bool>, allow: Field<bool>, biomes: Field<seq<string>>,
    temperatureMin: Field<Number>, temperatureMax: Field<Number>,
    xMin: Field<Number>, xMax: Field<Number>,
    yMin: Field<Number>, yMax: Field<Number>,
    zMin: Field<Number>, zMax: Field<Number>,
    dimension: Field<string>, dimensions: Field<seq<string>>, dimensionsBlacklist: Field<seq<string>>)
  {
    predicate AnyMistyped() {
      || enabled.Mistyped? || allow.Mistyped? || biomes.Mistyped?
      || temperatureMin.Mistyped? || temperatureMax.Mistyped?
      || xMin.Mistyped? || xMax.Mistyped? || yMin.Mistyped? || yMax.Mistyped?
      || zMin.Mistyped? || zMax.Mistyped?
      || dimension.Mistyped? || dimensions.Mistyped? || dimensionsBlacklist.Mistyped?
    }
  }

  function ReadBase(t: Table): (f: BaseFields)
    ensures f.AnyMistyped() <==> !BaseKeysWellTyped(t)
  {
    BaseFields(
      BoolAt(t, "enabled"), BoolAt(t, "allow"), ListAt(t, "biomes"),
      NumberAt(t, "temperature_min"), NumberAt(t, "temperature_max"),
      NumberAt(t, "x_min"), NumberAt(t, "x_max"),
      NumberAt(t, "y_min"), NumberAt(t, "y_max"),
      NumberAt(t, "z_min"), NumberAt(t, "z_max"),
      StringAt(t, "dimension"), ListAt(t, "dimensions"), ListAt(t, "dimensions_blacklist"))
  }

  /**
   * Applies the reads to a fresh rule in the source's order: each present
   * value through its setter (`dimension` before `dimensions`), each absent
   * one leaving the constructor's default.
   */
  function BuildBase(f: BaseFields): BaseRule {
    var d := NewBaseRule();
    var b0 := d.(
      enabled := if f.enabled.Present? then f.enabled.value else true,
      allow := if f.allow.Present? then f.allow.value else true,
      biomes := if f.biomes.Present? then Some(f.biomes.value) else d.biomes,
      temperature := RealRange(RealBound(f.temperatureMin, d.temperature.min), RealBound(f.temperatureMax, d.temperature.max)),
      x := IntRange(IntBound(f.xMin, d.x.min), IntBound(f.xMax, d.x.max)),
      y := IntRange(IntBound(f.yMin, d.y.min), IntBound(f.yMax, d.y.max)),
      z := IntRange(IntBound(f.zMin, d.z.min), IntBound(f.zMax, d.z.max)));
    var b1 := if f.dimension.Present? then SetDimension(b0, Some(f.dimension.value)) else b0;
    var b2 := if f.dimensions.Present? then SetDimensions(b1, Some(f.dimensions.value)) else b1;
    if f.dimensionsBlacklist.Present? then b2.(dimensionsBlacklist := Some(f.dimensionsBlacklist.value)) else b2
  }

  /**
   * `parseBaseRuleConfig` on a fresh rule; a key of the wrong type makes the
   * whole rule fail to parse.
   */
  function ParseBase(t: Table): (r: Option<BaseRule>)
    ensures r.None? <==> !BaseKeysWellTyped(t)
    ensures r.Some? ==> FlagRead(t, "enabled", r.value.enabled) && FlagRead(t, "allow", r.value.allow)
    ensures r.Some? ==> ListRead(t, "biomes", r.value.biomes) && ListRead(t, "dimensions_blacklist", r.value.dimensionsBlacklist)
    ensures r.Some? ==>
      RealBoundRead(t, "temperature_min", r.value.temperature.min) && RealBoundRead(t, "temperature_max", r.value.temperature.max)
    ensures r.Some? ==>
      && IntBoundRead(t, "x_min", r.value.x.min) && IntBoundRead(t, "x_max", r.value.x.max)
      && IntBoundRead(t, "y_min", r.value.y.min) && IntBoundRead(t, "y_max", r.value.y.max)
      && IntBoundRead(t, "z_min", r.value.z.min) && IntBoundRead(t, "z_max", r.value.z.max)
    ensures r.Some? ==> DimensionsRead(t, r.value)
  {
    var f := ReadBase(t);
    if f.AnyMistyped() then None
    else
      FlagsAndListsRead(t);
      BoundsRead(t);
      DimensionKeysRead(t);
      Some(BuildBase(f))
  }

  lemma FlagsAndListsRead(t: Table)
    requires BaseKeysWellTyped(t)
    ensures var b := BuildBase(ReadBase(t));
      && FlagRead(t, "enabled", b.enabled) && FlagRead(t, "allow", b.allow)
      && ListRead(t, "biomes", b.biomes) && ListRead(t, "dimensions_blacklist", b.dimensionsBlacklist)
  {
  }

  lemma BoundsRead(t: Table)
    requires BaseKeysWellTyped(t)
    ensures var b := BuildBase(ReadBase(t));
      && RealBoundRead(t, "temperature_min", b.temperature.min) && RealBoundRead(t, "temperature_max", b.temperature.max)
      && IntBoundRead(t, "x_min", b.x.min) && IntBoundRead(t, "x_max", b.x.max)
      && IntBoundRead(t, "y_min", b.y.min) && IntBoundRead(t, "y_max", b.y.max)
      && IntBoundRead(t, "z_min", b.z.min) && IntBoundRead(t, "z_max", b.z.max)
  {
    var f := ReadBase(t);
    var b := BuildBase(f);
    assert b.temperature == RealRange(RealBound(f.temperatureMin, None), RealBound(f.temperatureMax, None));
    assert b.x == IntRange(IntBound(f.xMin, None), IntBound(f.xMax, None));
    assert b.y == IntRange(IntBound(f.yMin, None), IntBound(f.yMax, None));
    assert b.z == IntRange(IntBound(f.zMin, None), IntBound(f.zMax, None));
    BoundRead(t, "temperature_min"); BoundRead(t, "temperature_max");
    BoundRead(t, "x_min"); BoundRead(t, "x_max");
    BoundRead(t, "y_min"); BoundRead(t, "y_max");
    BoundRead(t, "z_min"); BoundRead(t, "z_max");
  }

  /** One number key read into an optional bound. */
  lemma BoundRead(t: Table, key: string)
    requires WellTypedKey(t, key, NumberKind)
    ensures RealBoundRead(t, key, RealBound(NumberAt(t, key), None))
    ensures IntBoundRead(t, key, IntBound(NumberAt(t, key), None))
  {
  }

  lemma DimensionKeysRead(t: Table)
    requires BaseKeysWellTyped(t)
    ensures DimensionsRead(t, BuildBase(ReadBase(t)))
  {
  }

  /** A boolean flag: the table's value when present, `true` when absent. */
  predicate FlagRead(t: Table, key: string, flag: bool) {
    (key in t ==> t[key] == BoolValue(flag)) && (key !in t ==> flag)
  }

  /** A list key: a present list is stored as given, an absent one leaves the empty default. */
  predicate ListRead(t: Table, key: string, l: NullableList) {
    (key in t ==> l.Some? && t[key] == StringListValue(l.value)) && (key !in t ==> l == Some([]))
  }

  /** A temperature key: a present number becomes the bound, an absent one leaves it unset. */
  predicate RealBoundRead(t: Table, key: string, bound: Option<real>) {
    match NumberAt(t, key)
    case Present(n) => bound == Some(AsTemperature(n))
    case Missing => bound.None?
    case Mistyped => false
  }

  /** A coordinate key: a present number becomes the bound through `intValue()`, an absent one leaves it unset. */
  predicate IntBoundRead(t: Table, key: string, bound: Option<int32>) {
    match NumberAt(t, key)
    case Present(n) => bound == Some(AsCoordinate(n))
    case Missing => bound.None?
    case Mistyped => false
  }

  /**
   * The two dimension keys: `dimensions` wins over the deprecated
   * `dimension` and clears it; `dimension` alone goes through `setDimension`
   * (a one-entry whitelist, or none for ""); neither leaves the defaults.
   */
  predicate DimensionsRead(t: Table, b: BaseRule) {
    && ("dimensions" in t ==>
          b.dimensions.Some? && t["dimensions"] == StringListValue(b.dimensions.value) && b.dimension.None?)
    && ("dimensions" !in t && "dimension" in t ==>
          && b.dimension.Some? && t["dimension"] == StringValue(b.dimension.value)
          && Dimensions(b) == (if b.dimension.value == "" then [] else [b.dimension.value]))
    && ("dimensions" !in t && "dimension" !in t ==> b.dimensions == Some([]) && b.dimension.None?)
  }

  /** The key naming the subject patterns of each kind of rule. */
  function TypesKey(kind: EventType): string {
    match kind
    case PlantGrowth => "crop_types"
    case AnimalBreeding => "animal_types"
  }

  /**
   * `parsePlantGrowthRule` / `parseAnimalBreedingRule`: the base fields, then
   * the subject patterns; any failed cast yields no rule (`null`).
   */
  function ParseRule(kind: EventType, t: Table): (r: Option<Rule>)
    ensures r.Some? ==> (r.value.PlantGrowthRule? <==> kind == PlantGrowth)
    ensures r.Some? <==> ParseBase(t).Some? && WellTypedKey(t, TypesKey(kind), ListKind)
    ensures r.Some? ==> r.value.base == ParseBase(t).value
    ensures r.Some? && TypesKey(kind) !in t ==> TypePatterns(r.value) == []
    ensures r.Some? && TypesKey(kind) in t ==> t[TypesKey(kind)] == StringListValue(TypePatterns(r.value))
  {
    var base := ParseBase(t);
    var types := ListAt(t, TypesKey(kind));
    if base.None? || types.Mistyped? then None
    else
      var patterns := if types.Present? then Some(types.value) else Some([]);
      match kind
      case PlantGrowth => Some(PlantGrowthRule(base.value, patterns))
      case AnimalBreeding => Some(AnimalBreedingRule(base.value, patterns))
  }

  // ---------------------------------------------------------------------------
  // Sections and files

  /** An element of a `rules` array: a table, or anything else (which fails its cast). */
  datatype Entry = TableEntry(table: Table) | OtherEntry

  /** `plant_growth.rules` / `animal_breeding.rules`: absent, not an array, or an array. */
  datatype Section = Absent | Malformed | Entries(entries: seq<Entry>)

  /** The rules accepted so far, the rules rejected by validation, and whether the section threw. */
  datatype SectionResult = SectionResult(accepted: seq<Rule>, invalid: nat, aborted: bool)

  /** A rule of the section's kind that passed `validate()`. */
  predicate Admissible(kind: EventType, r: Rule) {
    (r.PlantGrowthRule? <==> kind == PlantGrowth) && ValidateRule(r)
  }

  /**
   * The loop over one rules array: unparsable rules are skipped silently,
   * invalid ones are counted, valid ones are kept in order; a non-table
   * element throws, ending this section and the whole parse.
   */
  function LoadEntries(kind: EventType, entries: seq<Entry>): (res: SectionResult)
    ensures forall i :: 0 <= i < |res.accepted| ==> Admissible(kind, res.accepted[i])
    ensures res.aborted <==> exists i :: 0 <= i < |entries| && entries[i].OtherEntry?
    ensures |res.accepted| + res.invalid <= |entries|
  {
    if |entries| == 0 then SectionResult([], 0, false)
    else match entries[0]
      case OtherEntry => SectionResult([], 0, true)
      case TableEntry(t) =>
        var rest := LoadEntries(kind, entries[1..]);
        assert forall i :: 0 < i < |entries| ==> entries[i] == entries[1..][i - 1];
        match ParseRule(kind, t)
        case None => rest
        case Some(r) =>
          if ValidateRule(r) then rest.(accepted := [r] + rest.accepted)
          else rest.(invalid := rest.invalid + 1)
  }

  /**
   * One section of the file: an absent key loads nothing, a value that is
   * not an array throws, and an array is read by the loop.
   */
  function LoadSection(kind: EventType, s: Section): (res: SectionResult)
    ensures forall i :: 0 <= i < |res.accepted| ==> Admissible(kind, res.accepted[i])
    ensures s.Absent? ==> res == SectionResult([], 0, false)
    ensures s.Malformed? ==> res == SectionResult([], 0, true)
    ensures res.accepted == SectionKept(kind, s)
    ensures res.aborted <==> Throws(s)
    ensures res.invalid > 0 <==> SectionRejects(kind, s)
  {
    match s
    case Absent => SectionResult([], 0, false)
    case Malformed => SectionResult([], 0, true)
    case Entries(es) =>
      LoadEntriesKeepsCleanRules(kind, es);
      InvalidCountMeansRejection(kind, es);
      LoadEntries(kind, es)
  }

  /** Reference definition of the rules a section keeps. */
  function SectionKept(kind: EventType, s: Section): seq<Rule> {
    if s.Entries? then Kept(kind, s.entries) else []
  }

  /** Reading the section throws: it is not an array, or it holds a non-table element. */
  predicate Throws(s: Section) {
    s.Malformed? || (s.Entries? && exists i :: 0 <= i < |s.entries| && s.entries[i].OtherEntry?)
  }

  /** Some rule the loop reaches in the section parses and fails `validate()`. */
  ghost predicate SectionRejects(kind: EventType, s: Section) {
    s.Entries? && exists i :: RejectedAt(kind, s.entries, i)
  }

  /** The parsed file: the TOML library either fails to load it or yields the two sections. */
  datatype RulesFile = Unparsable | Document(plant: Section, animal: Section)

  /** What `loadConfiguration` finds: creating the missing default file failed, or a file to parse. */
  datatype LoadInput = WriteFailed | Read(file: RulesFile)

  /** The mod's state the loader touches. */
  datatype ModState = ModState(config: Config, manager: Manager, invalidRuleCount: nat)

  /** Every active rule is valid and sits in the list of its own kind. */
  predicate RulesAdmissible(c: Config) {
    && (forall i :: 0 <= i < |c.plantGrowthRules| ==> Admissible(PlantGrowth, c.plantGrowthRules[i]))
    && (forall i :: 0 <= i < |c.animalBreedingRules| ==> Admissible(AnimalBreeding, c.animalBreedingRules[i]))
  }

  /**
   * `parseConfiguration`: the plant section, then the animal section; an
   * exception in the plant section skips the animal one; either way both
   * lists are replaced by what was accepted.
   */
  function ParseConfiguration(c: Config, file: RulesFile): (r: (Config, nat))
    ensures RulesAdmissible(r.0) && r.0.toggles == c.toggles
    ensures file.Unparsable? ==> r.0.plantGrowthRules == [] && r.0.animalBreedingRules == [] && r.1 == 0
    ensures file.Document? ==> r.0.plantGrowthRules == SectionKept(PlantGrowth, file.plant)
    ensures file.Document? ==>
      r.0.animalBreedingRules == (if Throws(file.plant) then [] else SectionKept(AnimalBreeding, file.animal))
    ensures file.Document? ==>
      (r.1 > 0 <==> SectionRejects(PlantGrowth, file.plant)
                    || (!Throws(file.plant) && SectionRejects(AnimalBreeding, file.animal)))
  {
    match file
    case Unparsable => (SetAnimalBreedingRules(SetPlantGrowthRules(c, Some([])), Some([])), 0)
    case Document(plant, animal) =>
      var p := LoadSection(PlantGrowth, plant);
      var a := if p.aborted then SectionResult([], 0, false) else LoadSection(AnimalBreeding, animal);
      (SetAnimalBreedingRules(SetPlantGrowthRules(c, Some(p.accepted)), Some(a.accepted)), p.invalid + a.invalid)
  }

  /**
   * `loadConfiguration`: resets the invalid-rule count, then parses; when
   * the default file cannot be written the rule lists stay as they were.
   */
  function LoadConfiguration(s: ModState, input: LoadInput): (r: ModState)
    ensures r.manager == s.manager && r.config.toggles == s.config.toggles
    ensures input.WriteFailed? ==> r == s.(invalidRuleCount := 0)
    ensures input.Read? ==> RulesAdmissible(r.config)
    ensures input.Read? ==> (r.config, r.invalidRuleCount) == ParseConfiguration(s.config, input.file)
    ensures RulesAdmissible(s.config) ==> RulesAdmissible(r.config)
  {
    match input
    case WriteFailed => s.(invalidRuleCount := 0)
    case Read(file) =>
      var (c, invalid) := ParseConfiguration(s.config, file);
      ModState(c, s.manager, invalid)
  }

  /** `reloadConfiguration`: empty both lists, clear the verdict cache, load afresh. */
  function ReloadConfiguration(s: ModState, input: LoadInput): (r: ModState)
    requires ManagerValid(s.manager)
    ensures ManagerValid(r.manager) && Cache.Size(r.manager.cache) == 0
    ensures r.manager.stats == s.manager.stats
    ensures RulesAdmissible(r.config)
    ensures input.WriteFailed? ==> r.config.plantGrowthRules == [] && r.config.animalBreedingRules == []
    ensures input.Read? ==> (r.config, r.invalidRuleCount) == ParseConfiguration(s.config, input.file)
  {
    var emptied := SetAnimalBreedingRules(SetPlantGrowthRules(s.config, Some([])), Some([]));
    LoadConfiguration(ModState(emptied, ClearCache(s.manager), s.invalidRuleCount), input)
  }

  /** `getInvalidRuleCount`. */
  function GetInvalidRuleCount(s: ModState): nat {
    s.invalidRuleCount
  }

  /** `hasInvalidRules`. */
  function HasInvalidRules(s: ModState): (r: bool)
    ensures r <==> GetInvalidRuleCount(s) != 0
  {
    s.invalidRuleCount > 0
  }

  // ---------------------------------------------------------------------------
  // Properties of loading

  /**
   * After loading a file, the plant list is exactly the plant rules the loop
   * kept, in file order; the animal list is the animal rules kept when the
   * plant section was read through, and empty when it threw.
   */
  lemma LoadInstallsKeptRules(s: ModState, plant: seq<Entry>, animal: seq<Entry>)
    ensures var r := LoadConfiguration(s, Read(Document(Entries(plant), Entries(animal))));
      && r.config.plantGrowthRules == Kept(PlantGrowth, plant)
      && ((forall i :: 0 <= i < |plant| ==> plant[i].TableEntry?) ==> r.config.animalBreedingRules == Kept(AnimalBreeding, animal))
      && ((exists i :: 0 <= i < |plant| && plant[i].OtherEntry?) ==> r.config.animalBreedingRules == [])
  {
  }

  /** A rule table with no keys yields exactly the constructor's defaults. */
  lemma EmptyTableGivesDefaults()
    ensures ParseBase(map[]) == Some(NewBaseRule())
    ensures ParseRule(PlantGrowth, map[]) == Some(NewPlantGrowthRule())
    ensures ParseRule(AnimalBreeding, map[]) == Some(NewAnimalBreedingRule())
  {
  }

  /** The value written under `key` for a rule's base fields; `None` leaves the key out. */
  function FieldValue(b: BaseRule, key: string): Option<Value> {
    if key == "enabled" then Some(BoolValue(b.enabled))
    else if key == "allow" then Some(BoolValue(b.allow))
    else if key == "biomes" then ListValue(b.biomes)
    else if key == "temperature_min" then RealValue(b.temperature.min)
    else if key == "temperature_max" then RealValue(b.temperature.max)
    else if key == "x_min" then IntValue(b.x.min)
    else if key == "x_max" then IntValue(b.x.max)
    else if key == "y_min" then IntValue(b.y.min)
    else if key == "y_max" then IntValue(b.y.max)
    else if key == "z_min" then IntValue(b.z.min)
    else if key == "z_max" then IntValue(b.z.max)
    else if key == "dimensions" then ListValue(b.dimensions)
    else if key == "dimensions_blacklist" then ListValue(b.dimensionsBlacklist)
    else None
  }

  function RealValue(r: Option<real>): Option<Value> {
    if r.Some? then Some(FloatValue(r.value)) else None
  }

  function IntValue(r: Option<int32>): Option<Value> {
    if r.Some? then Some(IntegerValue(r.value)) else None
  }

  function ListValue(l: NullableList): Option<Value> {
    if l.Some? then Some(StringListValue(l.value)) else None
  }

  const EncodedKeys: set<string> := {
    "enabled", "allow", "biomes", "temperature_min", "temperature_max", "x_min", "x_max",
    "y_min", "y_max", "z_min", "z_max", "dimensions", "dimensions_blacklist"}

  /** Writes the base fields of a rule as a rules-file table, each bound only when set. */
  function EncodeBase(b: BaseRule): Table {
    map key | key in EncodedKeys && FieldValue(b, key).Some? :: FieldValue(b, key).value
  }

  /** The reads `parseBaseRuleConfig` performs on a written rule. */
  function ExpectedReads(b: BaseRule): BaseFields {
    BaseFields(
      Present(b.enabled), Present(b.allow),
      if b.biomes.Some? then Present(b.biomes.value) else Missing,
      if b.temperature.min.Some? then Present(DoubleNumber(b.temperature.min.value)) else Missing,
      if b.temperature.max.Some? then Present(DoubleNumber(b.temperature.max.value)) else Missing,
      CoordinateAt(b, "x_min"), CoordinateAt(b, "x_max"),
      CoordinateAt(b, "y_min"), CoordinateAt(b, "y_max"),
      CoordinateAt(b, "z_min"), CoordinateAt(b, "z_max"),
      Missing,
      if b.dimensions.Some? then Present(b.dimensions.value) else Missing,
      if b.dimensionsBlacklist.Some? then Present(b.dimensionsBlacklist.value) else Missing)
  }

  /**
   * Parsing reads back every field written: a rule whose lists are all set
   * and whose deprecated `dimension` is unset survives a write and a parse.
   */
  lemma ParseEncodeRoundTrip(b: BaseRule)
    requires b.biomes.Some? && b.dimensions.Some? && b.dimensionsBlacklist.Some? && b.dimension.None?
    ensures ParseBase(EncodeBase(b)) == Some(b)
  {
    EncodeLookups(b);
    var f := ExpectedReads(b);
    assert ReadBase(EncodeBase(b)) == f;
    assert !f.AnyMistyped();
    BuildExpectedReads(b);
  }

  lemma BuildExpectedReads(b: BaseRule)
    requires b.biomes.Some? && b.dimensions.Some? && b.dimensionsBlacklist.Some? && b.dimension.None?
    ensures BuildBase(ExpectedReads(b)) == b
  {
    var r := BuildBase(ExpectedReads(b));
    assert r.x == b.x && r.y == b.y && r.z == b.z;
  }

  /** Where each field of the rule lands in the written table. */
  lemma EncodeLookups(b: BaseRule)
    ensures var t := EncodeBase(b);
      && BoolAt(t, "enabled") == Present(b.enabled) && BoolAt(t, "allow") == Present(b.allow)
      && ListAt(t, "biomes") == (if b.biomes.Some? then Present(b.biomes.value) else Missing)
      && NumberAt(t, "temperature_min") == (if b.temperature.min.Some? then Present(DoubleNumber(b.temperature.min.value)) else Missing)
      && NumberAt(t, "temperature_max") == (if b.temperature.max.Some? then Present(DoubleNumber(b.temperature.max.value)) else Missing)
      && StringAt(t, "dimension") == Missing
      && ListAt(t, "dimensions") == (if b.dimensions.Some? then Present(b.dimensions.value) else Missing)
      && ListAt(t, "dimensions_blacklist") == (if b.dimensionsBlacklist.Some? then Present(b.dimensionsBlacklist.value) else Missing)
    ensures forall key | key in {"x_min", "x_max", "y_min", "y_max", "z_min", "z_max"} ::
      NumberAt(EncodeBase(b), key) == CoordinateAt(b, key)
  {
    forall key | key in {"x_min", "x_max", "y_min", "y_max", "z_min", "z_max"}
      ensures NumberAt(EncodeBase(b), key) == CoordinateAt(b, key)
    {
      EncodeCoordinate(b, key);
    }
  }

  /** The bound stored under a coordinate key, as the number the parser reads. */
  function CoordinateAt(b: BaseRule, key: string): Field<Number> {
    var bound := FieldValue(b, key);
    if bound.Some? && bound.value.IntegerValue? then Present(LongNumber(bound.value.i)) else Missing
  }

  lemma EncodeCoordinate(b: BaseRule, key: string)
    requires key in {"x_min", "x_max", "y_min", "y_max", "z_min", "z_max"}
    ensures NumberAt(EncodeBase(b), key) == CoordinateAt(b, key)
  {
    assert key in EncodedKeys;
  }

  /**
   * A non-table element ends the section: the rules accepted before it are
   * kept, and nothing after it is read.
   */
  lemma {:induction false} AbortKeepsEarlierRules(kind: EventType, pre: seq<Entry>, post: seq<Entry>)
    requires forall i :: 0 <= i < |pre| ==> pre[i].TableEntry?
    ensures LoadEntries(kind, pre + [OtherEntry] + post) == LoadEntries(kind, pre).(aborted := true)
  {
    if |pre| == 0 {
      assert pre + [OtherEntry] + post == [OtherEntry] + post;
    } else {
      assert (pre + [OtherEntry] + post)[1..] == pre[1..] + [OtherEntry] + post;
      AbortKeepsEarlierRules(kind, pre[1..], post);
    }
  }

  /** A table that parses into a rule that `validate()` accepts. */
  predicate LoadsCleanly(kind: EventType, e: Entry) {
    e.TableEntry? && ParseRule(kind, e.table).Some? && ValidateRule(ParseRule(kind, e.table).value)
  }

  /** The rule such a table yields. */
  function CleanRule(kind: EventType, e: Entry): Rule
    requires LoadsCleanly(kind, e)
  {
    ParseRule(kind, e.table).value
  }

  lemma LoadCleanStep(kind: EventType, entries: seq<Entry>)
    requires |entries| > 0 && LoadsCleanly(kind, entries[0])
    ensures LoadEntries(kind, entries).accepted
         == [CleanRule(kind, entries[0])] + LoadEntries(kind, entries[1..]).accepted
    ensures LoadEntries(kind, entries).invalid == LoadEntries(kind, entries[1..]).invalid
    ensures LoadEntries(kind, entries).aborted == LoadEntries(kind, entries[1..]).aborted
  {
  }

  lemma LoadUncleanStep(kind: EventType, entries: seq<Entry>)
    requires |entries| > 0 && entries[0].TableEntry? && !LoadsCleanly(kind, entries[0])
    ensures LoadEntries(kind, entries).accepted == LoadEntries(kind, entries[1..]).accepted
  {
  }

  /** A section of parsable, valid tables is loaded whole and in order. */
  lemma {:induction false} ValidEntriesLoadInOrder(kind: EventType, entries: seq<Entry>)
    requires forall i :: 0 <= i < |entries| ==> LoadsCleanly(kind, entries[i])
    ensures !LoadEntries(kind, entries).aborted && LoadEntries(kind, entries).invalid == 0
    ensures |LoadEntries(kind, entries).accepted| == |entries|
    ensures forall i :: 0 <= i < |entries| ==>
      LoadEntries(kind, entries).accepted[i] == CleanRule(kind, entries[i])
  {
    if |entries| > 0 {
      var tail := entries[1..];
      assert forall i :: 0 <= i < |tail| ==> tail[i] == entries[i + 1];
      ValidEntriesLoadInOrder(kind, tail);
      LoadCleanStep(kind, entries);
      var accepted := LoadEntries(kind, entries).accepted;
      forall i | 0 < i < |entries| ensures accepted[i] == CleanRule(kind, entries[i]) {
        assert entries[i] == tail[i - 1];
      }
    }
  }

  /** How far the loop gets: the position of the first non-table element, or the end. */
  function Reached(entries: seq<Entry>): (n: nat)
    ensures n <= |entries|
    ensures forall j :: 0 <= j < n ==> entries[j].TableEntry?
    ensures n < |entries| ==> entries[n].OtherEntry?
  {
    if |entries| == 0 || entries[0].OtherEntry? then 0
    else
      var n := Reached(entries[1..]);
      assert forall j :: 0 < j <= n ==> entries[j] == entries[1..][j - 1];
      1 + n
  }

  /** The rules of the tables that parse and pass `validate()`, in order. */
  function CleanRules(kind: EventType, entries: seq<Entry>): seq<Rule> {
    if |entries| == 0 then []
    else (if LoadsCleanly(kind, entries[0]) then [CleanRule(kind, entries[0])] else [])
         + CleanRules(kind, entries[1..])
  }

  /** Reference definition of a section's result: the clean rules among the elements reached. */
  function Kept(kind: EventType, entries: seq<Entry>): seq<Rule> {
    CleanRules(kind, entries[..Reached(entries)])
  }

  /**
   * The loop keeps exactly the tables that parse and validate, in file
   * order, up to the first non-table element, whatever mixture of valid,
   * invalid and mistyped rules the section holds.
   */
  lemma {:induction false} LoadEntriesKeepsCleanRules(kind: EventType, entries: seq<Entry>)
    ensures LoadEntries(kind, entries).accepted == Kept(kind, entries)
    decreases |entries|
  {
    if |entries| > 0 && entries[0].TableEntry? {
      LoadEntriesKeepsCleanRules(kind, entries[1..]);
      LoadStep(kind, entries);
      KeptStep(kind, entries);
    } else {
      assert Reached(entries) == 0;
    }
  }

  /** What the loop adds for a leading table: its rule when it loads cleanly, nothing otherwise. */
  lemma LoadStep(kind: EventType, entries: seq<Entry>)
    requires |entries| > 0 && entries[0].TableEntry?
    ensures LoadEntries(kind, entries).accepted
         == CleanRules(kind, [entries[0]]) + LoadEntries(kind, entries[1..]).accepted
  {
    if LoadsCleanly(kind, entries[0]) { LoadCleanStep(kind, entries); } else { LoadUncleanStep(kind, entries); }
  }

  /** The reference definition takes the same step. */
  lemma KeptStep(kind: EventType, entries: seq<Entry>)
    requires |entries| > 0 && entries[0].TableEntry?
    ensures Kept(kind, entries) == CleanRules(kind, [entries[0]]) + Kept(kind, entries[1..])
  {
    var tail := entries[1..];
    var reached := entries[..Reached(entries)];
    assert reached == [entries[0]] + tail[..Reached(tail)];
    assert reached[1..] == tail[..Reached(tail)];
  }

  /** The rule at `i` was reached, parsed, and then rejected by `validate()`. */
  predicate RejectedAt(kind: EventType, entries: seq<Entry>, i: int) {
    && 0 <= i < |entries|
    && (forall j :: 0 <= j < i ==> entries[j].TableEntry?)
    && entries[i].TableEntry?
    && ParseRule(kind, entries[i].table).Some?
    && !ValidateRule(ParseRule(kind, entries[i].table).value)
  }

  /** How the first table of a section moves the invalid count. */
  lemma InvalidStep(kind: EventType, entries: seq<Entry>)
    requires |entries| > 0 && entries[0].TableEntry?
    ensures LoadEntries(kind, entries).invalid
         == LoadEntries(kind, entries[1..]).invalid + (if RejectedAt(kind, entries, 0) then 1 else 0)
  {
  }

  /** The section counts an invalid rule iff one was reached and failed validation. */
  lemma {:induction false} InvalidCountMeansRejection(kind: EventType, entries: seq<Entry>)
    ensures LoadEntries(kind, entries).invalid > 0 <==> exists i :: RejectedAt(kind, entries, i)
  {
    if exists i :: RejectedAt(kind, entries, i) {
      var i :| RejectedAt(kind, entries, i);
      RejectionIsCounted(kind, entries, i);
    }
    if LoadEntries(kind, entries).invalid > 0 {
      var i := CountedRejection(kind, entries);
    }
  }

  /** A table that reached validation and failed it is counted. */
  lemma {:induction false} RejectionIsCounted(kind: EventType, entries: seq<Entry>, i: int)
    requires RejectedAt(kind, entries, i)
    ensures LoadEntries(kind, entries).invalid > 0
    decreases i
  {
    InvalidStep(kind, entries);
    if i > 0 {
      assert RejectedAt(kind, entries[1..], i - 1);
      RejectionIsCounted(kind, entries[1..], i - 1);
    }
  }

  /** A positive count points at the table that was rejected. */
  lemma {:induction false} CountedRejection(kind: EventType, entries: seq<Entry>) returns (i: int)
    requires LoadEntries(kind, entries).invalid > 0
    ensures RejectedAt(kind, entries, i)
    decreases |entries|
  {
    assert entries[0].TableEntry?;
    InvalidStep(kind, entries);
    if RejectedAt(kind, entries, 0) {
      i := 0;
    } else {
      var j := CountedRejection(kind, entries[1..]);
      forall k | 0 < k < |entries| ensures entries[k] == entries[1..][k - 1] { }
      i := j + 1;
      assert RejectedAt(kind, entries, i);
    }
  }

  /** A rule with a key of the wrong type is dropped without being counted as invalid. */
  lemma MistypedRuleIsSkippedSilently(kind: EventType, t: Table)
    requires !BaseKeysWellTyped(t)
    ensures LoadEntries(kind, [TableEntry(t)]) == SectionResult([], 0, false)
  {
    assert [TableEntry(t)][1..] == [];
  }

  /**
   * After a load, `getInvalidRuleCount()` is positive exactly when some rule
   * the parse reached was rejected by `validate()`: in the plant section, or
   * in the animal section when the plant section did not throw.
   */
  lemma InvalidRuleCountAfterLoad(s: ModState, plant: seq<Entry>, animal: seq<Entry>)
    ensures var r := LoadConfiguration(s, Read(Document(Entries(plant), Entries(animal))));
      GetInvalidRuleCount(r) > 0 <==>
        || (exists i :: RejectedAt(PlantGrowth, plant, i))
        || ((forall i :: 0 <= i < |plant| ==> plant[i].TableEntry?) && exists i :: RejectedAt(AnimalBreeding, animal, i))
  {
    InvalidCountMeansRejection(PlantGrowth, plant);
    InvalidCountMeansRejection(AnimalBreeding, animal);
  }

  /** After a reload every verdict is decided from the new configuration, none from the old cache. */
  lemma ReloadDecidesAfresh(s: ModState, input: LoadInput, ctx: EventContext, e: nat)
    requires ManagerValid(s.manager)
    ensures var r := ReloadConfiguration(s, input);
      CanEventOccur(r.config, r.manager, Some(ctx), e).allowed == Allowed(Decide(r.config, ctx))
  {
    var r := ReloadConfiguration(s, input);
    assert r.manager == ClearCache(s.manager);
    ClearCacheForcesFreshDecision(r.config, s.manager, ctx, e);
  }

  /**
   * A reload whose default file cannot be written leaves no rules at all,
   * so every event is allowed until the next successful load.
   */
  lemma ReloadAfterFailedWriteAllowsAll(s: ModState, ctx: EventContext, e: nat)
    requires ManagerValid(s.manager)
    ensures var r := ReloadConfiguration(s, WriteFailed);
      CanEventOccur(r.config, r.manager, Some(ctx), e).allowed
  {
    var r := ReloadConfiguration(s, WriteFailed);
    ReloadDecidesAfresh(s, WriteFailed, ctx, e);
    assert |RulesForEventType(r.config, ctx.eventType)| == 0;
  }
}

=== FILE: matcher.dfy ===
/**
 * `RuleMatcher`: one predicate per rule criterion. Each is vacuously true
 * when its criterion is absent.
 */
module Matcher {
  import opened Wrappers
  import opened Numbers
  import opened Text
  import opened Rules
  import opened Events

  // ---------------------------------------------------------------------------
  // Identifier syntax used to read `#tag` patterns

  predicate NamespaceChar(c: char) {
    c == '_' || c == '-' || ('a' <= c <= 'z') || ('0' <= c <= '9') || c == '.'
  }

  predicate PathChar(c: char) {
    NamespaceChar(c) || c == '/'
  }

  function IndexOfChar(s: string, c: char): (i: int)
    ensures -1 <= i < |s|
    ensures i == -1 <==> c !in s
    ensures 0 <= i ==> s[i] == c && c !in s[..i]
  {
    if |s| == 0 then -1
    else if s[0] == c then 0
    else
      var j := IndexOfChar(s[1..], c);
      assert j >= 0 ==> s[1..][..j] == s[1..j + 1];
      if j < 0 then -1 else j + 1
  }

  /**
   * `ResourceLocation.tryParse` as the game defines it: the text before the
   * first ':' is the namespace ("minecraft" when there is none or it is
   * empty), the rest is the path; the result is the canonical
   * `namespace:path`, or `None` when either part has a character outside
   * its allowed set.
   */
  function ParseLocation(s: string): (r: Option<string>)
    ensures r.Some? ==> ':' in r.value
    ensures ':' !in s && (forall i :: 0 <= i < |s| ==> PathChar(s[i])) ==> r == Some("minecraft" + ":" + s)
    ensures (exists i :: 0 <= i < |s| && !PathChar(s[i]) && s[i] != ':') ==> r.None?
    ensures var i := IndexOfChar(s, ':'); i >= 1 ==>
      (r.Some? <==> (forall k :: 0 <= k < i ==> NamespaceChar(s[k])) && (forall k :: i < k < |s| ==> PathChar(s[k])))
    ensures IndexOfChar(s, ':') >= 1 && r.Some? ==> r.value == s
    ensures IndexOfChar(s, ':') == 0 ==>
      (r.Some? <==> forall k :: 0 < k < |s| ==> PathChar(s[k])) && (r.Some? ==> r.value == "minecraft" + s)
  {
    var i := IndexOfChar(s, ':');
    var ns := if i >= 1 then s[..i] else "minecraft";
    var path := if i >= 0 then s[i + 1..] else s;
    if (forall k :: 0 <= k < |ns| ==> NamespaceChar(ns[k])) && (forall k :: 0 <= k < |path| ==> PathChar(path[k]))
    then Some(ns + ":" + path)
    else
      None
  }

  // ---------------------------------------------------------------------------
  // Patterns shared by biome and subject-type matching

  /** A non-tag pattern against an id: `"*"`, a `"ns:*"` namespace wildcard, or an exact id. */
  predicate PatternAccepts(pattern: string, id: string) {
    if pattern == "*" then true
    else if EndsWith(pattern, ":*") then StartsWith(id, pattern[..|pattern| - 2] + ":")
    else pattern == id
  }

  lemma GlobalWildcardAcceptsAll(id: string)
    ensures PatternAccepts("*", id)
  {
  }

  /** `"ns:*"` accepts exactly the ids that start with `"ns:"`. */
  lemma NamespaceWildcardAccepts(ns: string, id: string)
    ensures PatternAccepts(ns + ":*", id) <==> StartsWith(id, ns + ":")
  {
    var p := ns + ":*";
    assert EndsWith(p, ":*") by { assert p[|p| - 2..] == ":*"; }
    assert p[..|p| - 2] == ns;
  }

  /** Any other pattern accepts only an identical id. */
  lemma PlainPatternIsExact(p: string, id: string)
    requires p != "*" && !EndsWith(p, ":*")
    ensures PatternAccepts(p, id) <==> p == id
  {
  }

  /** The pattern loop of `matchesEntityType`: empty patterns are skipped. */
  function AnyTypePattern(id: string, patterns: seq<string>): (r: bool)
    ensures r <==> exists i :: 0 <= i < |patterns| && patterns[i] != "" && PatternAccepts(patterns[i], id)
  {
    if |patterns| == 0 then false
    else if patterns[0] == "" then AnyTypePattern(id, patterns[1..])
    else if PatternAccepts(patterns[0], id) then true
    else AnyTypePattern(id, patterns[1..])
  }

  /** `matchesEntityType`: an empty pattern list matches every subject. */
  function MatchesEntityType(typeId: string, patterns: seq<string>): (r: bool)
    ensures |patterns| == 0 ==> r
    ensures |patterns| > 0 ==> (r <==> exists i :: 0 <= i < |patterns| && patterns[i] != "" && PatternAccepts(patterns[i], typeId))
  {
    if |patterns| == 0 then true else AnyTypePattern(typeId, patterns)
  }

  /** A non-empty list of nothing but empty patterns matches no subject. */
  lemma OnlyEmptyPatternsMatchNothing(typeId: string, patterns: seq<string>)
    requires |patterns| > 0 && forall i :: 0 <= i < |patterns| ==> patterns[i] == ""
    ensures !MatchesEntityType(typeId, patterns)
  {
  }

  // ---------------------------------------------------------------------------
  // Biomes

  /** One biome pattern: a `#tag` pattern is decided by tag membership alone. */
  predicate BiomePatternAccepts(biome: BiomeHolder, pattern: string, biomeId: string) {
    if StartsWith(pattern, "#") then
      var tag := ParseLocation(pattern[1..]);
      tag.Some? && biome.inTag(tag.value)
    else PatternAccepts(pattern, biomeId)
  }

  function AnyBiomePattern(biome: BiomeHolder, biomeId: string, patterns: seq<string>): (r: bool)
    ensures r <==> exists i :: 0 <= i < |patterns| && patterns[i] != "" && BiomePatternAccepts(biome, patterns[i], biomeId)
  {
    if |patterns| == 0 then false
    else if patterns[0] == "" then AnyBiomePattern(biome, biomeId, patterns[1..])
    else if StartsWith(patterns[0], "#") then
      var tag := ParseLocation(patterns[0][1..]);
      if tag.Some? && biome.inTag(tag.value) then true
      else AnyBiomePattern(biome, biomeId, patterns[1..])
    else if patterns[0] == "*" then true
    else if EndsWith(patterns[0], ":*") then
      if StartsWith(biomeId, patterns[0][..|patterns[0]| - 2] + ":") then true
      else AnyBiomePattern(biome, biomeId, patterns[1..])
    else if patterns[0] == biomeId then true
    else AnyBiomePattern(biome, biomeId, patterns[1..])
  }

  /**
   * `matchesBiome`: an empty list matches every biome; otherwise the biome's
   * registry id must be available and some non-empty pattern must accept it.
   */
  function MatchesBiome(biome: BiomeHolder, biomeIds: seq<string>): (r: bool)
    ensures |biomeIds| == 0 ==> r
    ensures |biomeIds| > 0 && biome.registryKey.None? ==> !r
    ensures |biomeIds| > 0 && biome.registryKey.Some? ==>
      (r <==> exists i :: 0 <= i < |biomeIds| && biomeIds[i] != "" && BiomePatternAccepts(biome, biomeIds[i], biome.registryKey.value))
  {
    if |biomeIds| == 0 then true
    else match biome.registryKey
      case None => false
      case Some(id) => AnyBiomePattern(biome, id, biomeIds)
  }

  /**
   * A `#` pattern succeeds only through the tag predicate: its verdict does
   * not depend on the biome id, and a malformed tag never matches.
   */
  lemma TagPatternOnlyThroughTag(biome: BiomeHolder, tag: string, id1: string, id2: string)
    ensures BiomePatternAccepts(biome, "#" + tag, id1) <==>
      (ParseLocation(tag).Some? && biome.inTag(ParseLocation(tag).value))
    ensures BiomePatternAccepts(biome, "#" + tag, id1) == BiomePatternAccepts(biome, "#" + tag, id2)
  {
    var p := "#" + tag;
    assert StartsWith(p, "#") by { assert p[..1] == "#"; }
    assert p[1..] == tag;
  }

  // ---------------------------------------------------------------------------
  // Ranges and dimensions

  /** Inclusive check against optional bounds. */
  predicate InRealRange(v: real, r: RealRange) {
    (r.min.None? || r.min.value <= v) && (r.max.None? || v <= r.max.value)
  }

  predicate InIntRange(v: int, r: IntRange) {
    (r.min.None? || r.min.value <= v) && (r.max.None? || v <= r.max.value)
  }

  /** `matchesTemperature`. */
  function MatchesTemperature(biomeTemp: real, range: RealRange): (r: bool)
    ensures r <==> InRealRange(biomeTemp, range)
  {
    if range.min.None? && range.max.None? then true
    else if range.min.Some? && biomeTemp < range.min.value then false
    else if range.max.Some? && biomeTemp > range.max.value then false
    else true
  }

  /** `matchesCoordinates`: each axis independently. */
  function MatchesCoordinates(pos: BlockPos, x: IntRange, y: IntRange, z: IntRange): (r: bool)
    ensures r <==> InIntRange(pos.x, x) && InIntRange(pos.y, y) && InIntRange(pos.z, z)
  {
    if x.min.Some? && pos.x < x.min.value then false
    else if x.max.Some? && pos.x > x.max.value then false
    else if y.min.Some? && pos.y < y.min.value then false
    else if y.max.Some? && pos.y > y.max.value then false
    else if z.min.Some? && pos.z < z.min.value then false
    else if z.max.Some? && pos.z > z.max.value then false
    else true
  }

  /** A range that passes validation admits some value: its lower bound, else its upper, else anything. */
  function Witness(r: IntRange): int32 {
    if r.min.Some? then r.min.value else if r.max.Some? then r.max.value else 0
  }

  /** Every rule that validates can be met by some position. */
  lemma ValidCoordinatesAreSatisfiable(b: BaseRule)
    requires Validate(b)
    ensures MatchesCoordinates(BlockPos(Witness(b.x), Witness(b.y), Witness(b.z)), b.x, b.y, b.z)
  {
  }

  /** `matchesDimension`: a non-empty whitelist decides, else a non-empty blacklist, else any dimension. */
  function MatchesDimension(dimensionId: string, dimensions: seq<string>, blacklist: seq<string>): (r: bool)
    ensures |dimensions| > 0 ==> (r <==> dimensionId in dimensions)
    ensures |dimensions| == 0 && |blacklist| > 0 ==> (r <==> dimensionId !in blacklist)
    ensures |dimensions| == 0 && |blacklist| == 0 ==> r
  {
    if |dimensions| > 0 then dimensionId in dimensions
    else if |blacklist| > 0 then dimensionId !in blacklist
    else true
  }

  /**
   * For a rule that validates, the whitelist's precedence never matters:
   * the dimension check is "in the whitelist if any, and not in the blacklist".
   */
  lemma ValidRuleDimensionCheck(b: BaseRule, dimensionId: string)
    requires Validate(b)
    ensures MatchesDimension(dimensionId, Dimensions(b), DimensionsBlacklist(b)) <==>
      (dimensionId in Dimensions(b) || |Dimensions(b)| == 0) && dimensionId !in DimensionsBlacklist(b)
  {
  }

  /** Deprecated single-id `matchesDimension`: null or empty matches everything. */
  function MatchesDimensionId(dimensionId: string, expected: Option<string>): (r: bool)
    ensures expected.None? || expected.value == "" ==> r
    ensures expected.Some? && expected.value != "" ==> (r <==> dimensionId == expected.value)
  {
    if expected.None? || expected.value == "" then true else dimensionId == expected.value
  }

  /** The deprecated check agrees with the list check on the whitelist `setDimension` builds. */
  lemma DeprecatedDimensionAgrees(b: BaseRule, d: Option<string>, dimensionId: string)
    ensures MatchesDimensionId(dimensionId, d) ==
      MatchesDimension(dimensionId, Dimensions(SetDimension(b, d)), [])
  {
  }
}

=== FILE: numbers.dfy ===
/**
 * Java's fixed-width integers and the two narrowing conversions the
 * configuration loader relies on (`Number.intValue()` on a `Long` and on a
 * `Double`).
 */
module Numbers {

  const INT32_MIN: int := -0x8000_0000
  const INT32_MAX: int := 0x7fff_ffff

  type int32 = x: int | -0x8000_0000 <= x < 0x8000_0000
  type int64 = x: int | -0x8000_0000_0000_0000 <= x < 0x8000_0000_0000_0000

  /** `Long.intValue()`: keep the low 32 bits, read as two's complement. */
  function WrapToInt32(v: int64): (r: int32)
    ensures (r - v) % 0x1_0000_0000 == 0
    ensures INT32_MIN <= v <= INT32_MAX ==> r == v
  {
    var m := v % 0x1_0000_0000;
    if m < 0x8000_0000 then m else m - 0x1_0000_0000
  }

  /** `Double.intValue()`: round toward zero, saturating at the int bounds. */
  function TruncToInt32(d: real): (r: int32)
    ensures 0.0 <= d ==> 0 <= r && r as real <= d
    ensures d <= 0.0 ==> r <= 0 && d <= r as real
    ensures INT32_MIN as real < d < INT32_MAX as real ==> -1.0 < d - r as real < 1.0
    ensures d >= INT32_MAX as real ==> r == INT32_MAX
    ensures d <= INT32_MIN as real ==> r == INT32_MIN
  {
    if d >= INT32_MAX as real then INT32_MAX
    else if d <= INT32_MIN as real then INT32_MIN
    else if d >= 0.0 then d.Floor
    else -((-d).Floor)
  }
}

=== FILE: ranking.dfy ===
/**
 * Choosing among fully matching rules: `matchingRules.sort(comparingInt(
 * getSpecificity).reversed())` followed by `get(0)`. Java's list sort is
 * stable, so among elements with equal keys the one listed first wins. The
 * module is generic in the element type and the key; the decision manager
 * instantiates it with rules and their specificity.
 */
module Ranking {

  /** The key never increases along `s`. */
  predicate NonIncreasing<T>(s: seq<T>, key: T -> int) {
    forall i, j :: 0 <= i < j < |s| ==> key(s[i]) >= key(s[j])
  }

  /**
   * Places `x` in front of the first element whose key is not larger,
   * which keeps `x` ahead of the equal-keyed elements it preceded.
   */
  function Insert<T>(x: T, s: seq<T>, key: T -> int): (r: seq<T>)
    ensures |r| == |s| + 1
    ensures multiset(r) == multiset(s) + multiset{x}
    ensures |s| == 0 || key(s[0]) <= key(x) ==> r[0] == x
    ensures |s| > 0 && key(s[0]) > key(x) ==> r[0] == s[0]
  {
    if |s| == 0 || key(s[0]) <= key(x) then [x] + s
    else
      assert s == [s[0]] + s[1..];
      [s[0]] + Insert(x, s[1..], key)
  }

  /** Every element of `s` has key at most `bound`. */
  predicate AtMost<T>(s: seq<T>, key: T -> int, bound: int) {
    forall j :: 0 <= j < |s| ==> key(s[j]) <= bound
  }

  lemma {:induction false} InsertAtMost<T>(x: T, s: seq<T>, key: T -> int, bound: int)
    requires AtMost(s, key, bound) && key(x) <= bound
    ensures AtMost(Insert(x, s, key), key, bound)
  {
    if |s| > 0 && key(s[0]) > key(x) {
      InsertAtMost(x, s[1..], key, bound);
      var r := Insert(x, s, key);
      forall j | 0 < j < |r| ensures r[j] == Insert(x, s[1..], key)[j - 1] { }
    }
  }

  lemma {:induction false} InsertKeepsOrder<T>(x: T, s: seq<T>, key: T -> int)
    requires NonIncreasing(s, key)
    ensures NonIncreasing(Insert(x, s, key), key)
  {
    if |s| > 0 && key(s[0]) > key(x) {
      var tail := Insert(x, s[1..], key);
      InsertKeepsOrder(x, s[1..], key);
      InsertAtMost(x, s[1..], key, key(s[0]));
      var r := [s[0]] + tail;
      forall a, b | 0 <= a < b < |r| ensures key(r[a]) >= key(r[b]) {
        assert r[b] == tail[b - 1];
        if a > 0 { assert r[a] == tail[a - 1]; }
      }
    }
  }

  /** The reversed-comparator stable sort, as an insertion sort from the back. */
  function SortDescending<T>(s: seq<T>, key: T -> int): (r: seq<T>)
    ensures |r| == |s|
    ensures multiset(r) == multiset(s)
    ensures NonIncreasing(r, key)
  {
    if |s| == 0 then []
    else
      assert s == [s[0]] + s[1..];
      var sorted := SortDescending(s[1..], key);
      InsertKeepsOrder(s[0], sorted, key);
      Insert(s[0], sorted, key)
  }

  /** Reference definition: the position of the first element whose key is maximal. */
  function FirstMaximum<T>(s: seq<T>, key: T -> int): (i: nat)
    requires |s| > 0
    ensures i < |s|
  {
    if |s| == 1 then 0
    else
      var rest := 1 + FirstMaximum(s[1..], key);
      if key(s[0]) >= key(s[rest]) then 0 else rest
  }

  /** Position `i` holds a maximal key and every earlier key is strictly smaller. */
  predicate IsFirstMaximum<T>(s: seq<T>, key: T -> int, i: int) {
    && 0 <= i < |s|
    && (forall j :: 0 <= j < |s| ==> key(s[j]) <= key(s[i]))
    && (forall j :: 0 <= j < i ==> key(s[j]) < key(s[i]))
  }

  lemma {:induction false} FirstMaximumIsFirstMaximum<T>(s: seq<T>, key: T -> int)
    requires |s| > 0
    ensures IsFirstMaximum(s, key, FirstMaximum(s, key))
  {
    if |s| > 1 {
      FirstMaximumIsFirstMaximum(s[1..], key);
      var k := FirstMaximum(s[1..], key);
      assert s[1..][k] == s[k + 1];
      forall j | 0 < j < |s| ensures s[j] == s[1..][j - 1] { }
    }
  }

  /** The head of the stable descending sort is the first maximal element. */
  lemma {:induction false} SortHeadIsFirstMaximum<T>(s: seq<T>, key: T -> int)
    requires |s| > 0
    ensures SortDescending(s, key)[0] == s[FirstMaximum(s, key)]
  {
    if |s| > 1 {
      SortHeadIsFirstMaximum(s[1..], key);
      assert s[1..][FirstMaximum(s[1..], key)] == s[1 + FirstMaximum(s[1..], key)];
    }
  }

  /** Ties go to the earlier element: listed first, chosen first. */
  lemma EarlierWinsTie<T>(a: T, b: T, key: T -> int)
    requires key(a) == key(b)
    ensures SortDescending([a, b], key)[0] == a
  {
    SortHeadIsFirstMaximum([a, b], key);
    assert [a, b][1..] == [b];
  }

  /** The elements satisfying `p`, in their original order. */
  function Filter<T(==,!new)>(s: seq<T>, p: T -> bool): (r: seq<T>)
    ensures forall x :: x in r <==> x in s && p(x)
    ensures |r| <= |s|
  {
    if |s| == 0 then [] else (if p(s[0]) then [s[0]] else []) + Filter(s[1..], p)
  }

  /** Nothing satisfies `p`: the filtered list is empty. */
  lemma {:induction false} FilterNone<T(!new)>(s: seq<T>, p: T -> bool)
    requires forall i :: 0 <= i < |s| ==> !p(s[i])
    ensures Filter(s, p) == []
  {
    if |s| > 0 {
      FilterNone(s[1..], p);
    }
  }

  /**
   * Position `i` of `s` satisfies `p` with a maximal key among those that do,
   * and every earlier element satisfying `p` has a strictly smaller key.
   */
  predicate IsFirstMaximumAmong<T>(s: seq<T>, p: T -> bool, key: T -> int, i: int) {
    && 0 <= i < |s|
    && p(s[i])
    && (forall j :: 0 <= j < |s| && p(s[j]) ==> key(s[j]) <= key(s[i]))
    && (forall j :: 0 <= j < i && p(s[j]) ==> key(s[j]) < key(s[i]))
  }

  /** Reference definition on the unfiltered list: the chosen position, or -1 if nothing satisfies `p`. */
  function MaximumAmong<T>(s: seq<T>, p: T -> bool, key: T -> int): (i: int)
    ensures -1 <= i < |s|
  {
    if |s| == 0 then -1
    else
      var rest := MaximumAmong(s[1..], p, key);
      if !p(s[0]) then (if rest < 0 then -1 else rest + 1)
      else if rest < 0 then 0
      else if key(s[0]) >= key(s[rest + 1]) then 0
      else rest + 1
  }

  lemma {:induction false} MaximumAmongIsFirstMaximum<T>(s: seq<T>, p: T -> bool, key: T -> int)
    ensures MaximumAmong(s, p, key) >= 0 ==> IsFirstMaximumAmong(s, p, key, MaximumAmong(s, p, key))
    ensures MaximumAmong(s, p, key) < 0 ==> forall j :: 0 <= j < |s| ==> !p(s[j])
  {
    if |s| > 0 {
      var t := s[1..];
      MaximumAmongIsFirstMaximum(t, p, key);
      var k := MaximumAmong(t, p, key);
      var i := MaximumAmong(s, p, key);
      forall j | 0 < j < |s| ensures s[j] == t[j - 1] { }
      if i >= 0 {
        if k >= 0 {
          assert s[k + 1] == t[k];
        }
        forall j | 0 <= j < |s| && p(s[j]) ensures key(s[j]) <= key(s[i]) {
          if j > 0 { assert s[j] == t[j - 1]; }
        }
        forall j | 0 <= j < i && p(s[j]) ensures key(s[j]) < key(s[i]) {
          if j > 0 { assert s[j] == t[j - 1]; }
        }
      }
    }
  }

  /** The first maximum of the filtered list is the element the reference definition picks. */
  lemma {:induction false} FilterFirstMaximum<T(!new)>(s: seq<T>, p: T -> bool, key: T -> int)
    requires |Filter(s, p)| > 0
    ensures MaximumAmong(s, p, key) >= 0
    ensures s[MaximumAmong(s, p, key)] == Filter(s, p)[FirstMaximum(Filter(s, p), key)]
  {
    var f := Filter(s, p);
    var t := s[1..];
    var rest := Filter(t, p);
    var k := MaximumAmong(t, p, key);
    if !p(s[0]) {
      assert f == rest;
      FilterFirstMaximum(t, p, key);
      assert s[k + 1] == t[k];
    } else if |rest| == 0 {
      assert f == [s[0]];
      MaximumAmongIsFirstMaximum(t, p, key);
    } else {
      assert f == [s[0]] + rest;
      assert f[1..] == rest;
      FilterFirstMaximum(t, p, key);
      assert s[k + 1] == t[k];
    }
  }
}

=== FILE: rules.dfy ===
/**
 * The rule model: `EventRuleConfig` and its two subtypes
 * `PlantGrowthConfig` / `AnimalBreedingConfig`, as one sum type sharing a
 * base record. Nullable Java fields are `Option`s.
 */
module Rules {
  import opened Wrappers
  import opened Numbers
  import Text

  /** A `List<String>` field that may hold null. */
  type NullableList = Option<seq<string>>

  /** The getters' null handling: a null list reads as the empty list. */
  function ListOrEmpty(l: NullableList): (r: seq<string>)
    ensures l.None? ==> r == []
    ensures l.Some? ==> r == l.value
  {
    l.GetOr([])
  }

  /** `list != null && !list.isEmpty()` */
  predicate HasEntries(l: NullableList) {
    |ListOrEmpty(l)| > 0
  }

  /** Inclusive integer bounds on one axis; `None` is an unbounded side. */
  datatype IntRange = IntRange(min: Option<int32>, max: Option<int32>) {
    predicate IsBounded() { min.Some? || max.Some? }
    predicate IsInverted() { min.Some? && max.Some? && min.value > max.value }
  }

  /** Inclusive temperature bounds; `None` is an unbounded side. */
  datatype RealRange = RealRange(min: Option<real>, max: Option<real>) {
    predicate IsBounded() { min.Some? || max.Some? }
    predicate IsInverted() { min.Some? && max.Some? && min.value > max.value }
  }

  const Unbounded: IntRange := IntRange(None, None)
  const AnyTemperature: RealRange := RealRange(None, None)

  /** The fields every rule shares (`EventRuleConfig`). */
  datatype BaseRule = BaseRule(
    enabled: bool,
    allow: bool,
    biomes: NullableList,
    temperature: RealRange,
    x: IntRange,
    y: IntRange,
    z: IntRange,
    dimensions: NullableList,
    dimensionsBlacklist: NullableList,
    dimension: Option<string>   // deprecated single-dimension field
  )

  datatype Rule =
    | PlantGrowthRule(base: BaseRule, cropTypes: NullableList)
    | AnimalBreedingRule(base: BaseRule, animalTypes: NullableList)

  /** The `EventRuleConfig()` constructor. */
  function NewBaseRule(): (b: BaseRule)
    ensures b.enabled && b.allow
    ensures b.biomes == Some([]) && b.dimensions == Some([]) && b.dimensionsBlacklist == Some([])
    ensures !b.temperature.IsBounded() && !b.x.IsBounded() && !b.y.IsBounded() && !b.z.IsBounded()
    ensures b.dimension.None?
  {
    BaseRule(true, true, Some([]), AnyTemperature, Unbounded, Unbounded, Unbounded, Some([]), Some([]), None)
  }

  /** The `PlantGrowthConfig()` constructor. */
  function NewPlantGrowthRule(): (r: Rule)
    ensures r.PlantGrowthRule? && r.base == NewBaseRule() && r.cropTypes == Some([])
  {
    PlantGrowthRule(NewBaseRule(), Some([]))
  }

  /** The `AnimalBreedingConfig()` constructor. */
  function NewAnimalBreedingRule(): (r: Rule)
    ensures r.AnimalBreedingRule? && r.base == NewBaseRule() && r.animalTypes == Some([])
  {
    AnimalBreedingRule(NewBaseRule(), Some([]))
  }

  function Biomes(b: BaseRule): seq<string> { ListOrEmpty(b.biomes) }
  function Dimensions(b: BaseRule): seq<string> { ListOrEmpty(b.dimensions) }
  function DimensionsBlacklist(b: BaseRule): seq<string> { ListOrEmpty(b.dimensionsBlacklist) }

  /** `getCropTypes()` / `getAnimalTypes()`: the subject-type patterns of either kind of rule. */
  function TypePatterns(r: Rule): (patterns: seq<string>)
    ensures r.PlantGrowthRule? ==> patterns == (if r.cropTypes.Some? then r.cropTypes.value else [])
    ensures r.AnimalBreedingRule? ==> patterns == (if r.animalTypes.Some? then r.animalTypes.value else [])
  {
    match r
    case PlantGrowthRule(_, crops) => ListOrEmpty(crops)
    case AnimalBreedingRule(_, animals) => ListOrEmpty(animals)
  }

  /**
   * Deprecated `setDimension`: a non-empty id becomes a one-entry whitelist,
   * null or empty clears the whitelist; the raw value is kept either way.
   */
  function SetDimension(b: BaseRule, d: Option<string>): (r: BaseRule)
    ensures d.Some? && d.value != "" ==> Dimensions(r) == [d.value]
    ensures d.None? || d.value == "" ==> Dimensions(r) == []
    ensures r.dimension == d
    ensures r == b.(dimensions := r.dimensions, dimension := d)
  {
    if d.Some? && d.value != "" then b.(dimensions := Some([d.value]), dimension := d)
    else b.(dimensions := Some([]), dimension := d)
  }

  /** `setDimensions`: replaces the whitelist and clears the deprecated field. */
  function SetDimensions(b: BaseRule, ds: NullableList): (r: BaseRule)
    ensures r.dimensions == ds && r.dimension.None?
    ensures r == b.(dimensions := ds, dimension := None)
  {
    b.(dimensions := ds, dimension := None)
  }

  /** Deprecated `getDimension`: the first whitelist entry, else the raw deprecated field. */
  function GetDimension(b: BaseRule): (r: Option<string>)
    ensures |Dimensions(b)| > 0 ==> r == Some(Dimensions(b)[0])
    ensures |Dimensions(b)| == 0 ==> r == b.dimension
  {
    if b.dimensions.Some? && |b.dimensions.value| > 0 then Some(b.dimensions.value[0]) else b.dimension
  }

  /** Setting a non-empty single dimension reads back through the deprecated getter. */
  lemma SetDimensionRoundTrip(b: BaseRule, d: Option<string>)
    ensures GetDimension(SetDimension(b, d)) == d
  {
  }

  /** `validate()`: range checks, then the whitelist/blacklist exclusion. */
  function Validate(b: BaseRule): (ok: bool)
    ensures ok <==>
      && !b.temperature.IsInverted()
      && !b.x.IsInverted() && !b.y.IsInverted() && !b.z.IsInverted()
      && !(HasEntries(b.dimensions) && HasEntries(b.dimensionsBlacklist))
  {
    if b.temperature.min.Some? && b.temperature.max.Some? && b.temperature.min.value > b.temperature.max.value then false
    else if b.x.min.Some? && b.x.max.Some? && b.x.min.value > b.x.max.value then false
    else if b.y.min.Some? && b.y.max.Some? && b.y.min.value > b.y.max.value then false
    else if b.z.min.Some? && b.z.max.Some? && b.z.min.value > b.z.max.value then false
    else
      var hasDimensions := b.dimensions.Some? && |b.dimensions.value| > 0;
      var hasBlacklist := b.dimensionsBlacklist.Some? && |b.dimensionsBlacklist.value| > 0;
      !(hasDimensions && hasBlacklist)
  }

  /** Subtypes do not override `validate`. */
  function ValidateRule(r: Rule): bool {
    Validate(r.base)
  }

  /** A fresh rule of either kind is valid. */
  lemma NewRulesAreValid()
    ensures ValidateRule(NewPlantGrowthRule()) && ValidateRule(NewAnimalBreedingRule())
  {
  }

  /** Equal bounds describe a one-value inclusive range and are accepted. */
  lemma SingleValueRangesAreValid(b: BaseRule, t: real, v: int32)
    requires !(HasEntries(b.dimensions) && HasEntries(b.dimensionsBlacklist))
    ensures Validate(b.(temperature := RealRange(Some(t), Some(t)),
                        x := IntRange(Some(v), Some(v)),
                        y := IntRange(Some(v), Some(v)),
                        z := IntRange(Some(v), Some(v))))
  {
  }

  /** Whether any pattern is a wildcard (`"*"` or `"ns:*"`). */
  predicate HasWildcard(patterns: seq<string>) {
    exists i :: 0 <= i < |patterns| && (patterns[i] == "*" || Text.EndsWith(patterns[i], ":*"))
  }

  function AxisScore(r: IntRange): int { if r.IsBounded() then 10 else 0 }

  /** Number of axes with at least one bound. */
  function BoundedAxes(b: BaseRule): nat {
    (if b.x.IsBounded() then 1 else 0) + (if b.y.IsBounded() then 1 else 0) + (if b.z.IsBounded() then 1 else 0)
  }

  /** `EventRuleConfig.getSpecificity()`. */
  function BaseSpecificity(b: BaseRule): (score: int)
    ensures 0 <= score <= 40
    ensures 10 * BoundedAxes(b) <= score <= 10 * BoundedAxes(b) + 10
  {
    var coords := AxisScore(b.x) + AxisScore(b.y) + AxisScore(b.z);
    var temperature := if b.temperature.min.Some? || b.temperature.max.Some? then 5 else 0;
    var biomes := if b.biomes.Some? && |b.biomes.value| > 0 then 3 else 0;
    var dims :=
      if b.dimensions.Some? && |b.dimensions.value| > 0 then 2
      else if b.dimensionsBlacklist.Some? && |b.dimensionsBlacklist.value| > 0 then 1
      else 0;
    coords + temperature + biomes + dims
  }

  /**
   * The weight of each criterion, read off by adding it to a rule that lacks
   * it: 10 per coordinate axis, 5 for temperature, 3 for biomes, 2 for a
   * whitelist (replacing nothing) and 1 for a blacklist when no whitelist is set.
   */
  lemma CriterionWeights(b: BaseRule, lo: int32, t: real, id: string)
    ensures !b.x.IsBounded() ==> BaseSpecificity(b.(x := IntRange(Some(lo), None))) == BaseSpecificity(b) + 10
    ensures !b.y.IsBounded() ==> BaseSpecificity(b.(y := IntRange(None, Some(lo)))) == BaseSpecificity(b) + 10
    ensures !b.z.IsBounded() ==> BaseSpecificity(b.(z := IntRange(Some(lo), Some(lo)))) == BaseSpecificity(b) + 10
    ensures !b.temperature.IsBounded() ==> BaseSpecificity(b.(temperature := RealRange(Some(t), None))) == BaseSpecificity(b) + 5
    ensures !HasEntries(b.biomes) ==> BaseSpecificity(b.(biomes := Some([id]))) == BaseSpecificity(b) + 3
    ensures !HasEntries(b.dimensions) && !HasEntries(b.dimensionsBlacklist) ==>
      BaseSpecificity(b.(dimensions := Some([id]))) == BaseSpecificity(b) + 2
    ensures !HasEntries(b.dimensions) && !HasEntries(b.dimensionsBlacklist) ==>
      BaseSpecificity(b.(dimensionsBlacklist := Some([id]))) == BaseSpecificity(b) + 1
    ensures HasEntries(b.dimensions) ==>
      BaseSpecificity(b.(dimensionsBlacklist := Some([id]))) == BaseSpecificity(b)
  {
  }

  /** The subtype bonus: 0 without patterns, 2 for specific ones, 1 with a wildcard. */
  function TypeBonus(patterns: NullableList): (bonus: int)
    ensures 0 <= bonus <= 2
    ensures bonus == 0 <==> !HasEntries(patterns)
    ensures bonus == 1 <==> HasEntries(patterns) && HasWildcard(ListOrEmpty(patterns))
  {
    if patterns.Some? && |patterns.value| > 0 then
      if !HasWildcard(patterns.value) then 2 else 1
    else 0
  }

  /** The overridden `getSpecificity()` of both subtypes. */
  function Specificity(r: Rule): (score: int)
    ensures score == BaseSpecificity(r.base)
      + (if TypePatterns(r) == [] then 0 else if HasWildcard(TypePatterns(r)) then 1 else 2)
    ensures BaseSpecificity(r.base) <= score <= BaseSpecificity(r.base) + 2
    ensures 0 <= score <= 42
  {
    match r
    case PlantGrowthRule(b, crops) => BaseSpecificity(b) + TypeBonus(crops)
    case AnimalBreedingRule(b, animals) => BaseSpecificity(b) + TypeBonus(animals)
  }

  /**
   * Each bounded axis is worth as much as all non-coordinate criteria of the
   * base score together, so a base rule with more bounded axes never scores
   * lower (it may tie).
   */
  lemma MoreBoundedAxesNeverScoreLower(a: BaseRule, b: BaseRule)
    requires BoundedAxes(a) > BoundedAxes(b)
    ensures BaseSpecificity(a) >= BaseSpecificity(b)
  {
  }

  /**
   * `equals()`: same subtype, same base fields except the deprecated
   * `dimension`, same type patterns (a null list differs from an empty one).
   */
  predicate SameRule(a: Rule, b: Rule) {
    && a.PlantGrowthRule? == b.PlantGrowthRule?
    && a.base.(dimension := None) == b.base.(dimension := None)
    && (if a.PlantGrowthRule? then a.cropTypes == b.cropTypes else a.animalTypes == b.animalTypes)
  }

  /** Rules that are `equals` score and validate alike. */
  lemma SameRuleSameBehaviour(a: Rule, b: Rule)
    requires SameRule(a, b)
    ensures Specificity(a) == Specificity(b)
    ensures ValidateRule(a) == ValidateRule(b)
    ensures TypePatterns(a) == TypePatterns(b)
    ensures a.base.allow == b.base.allow && a.base.enabled == b.base.enabled
  {
    assert a.base.(dimension := None).temperature == a.base.temperature;
    assert a.base.(dimension := None).dimensions == a.base.dimensions;
  }

  /**
   * `equals()` compares neither the deprecated `dimension` field nor
   * anything derived from it, but it does tell a null pattern list from an
   * empty one.
   */
  lemma EqualsIgnoresDeprecatedDimension(a: Rule, d: Option<string>)
    ensures SameRule(a, a.(base := a.base.(dimension := d)))
    ensures !SameRule(PlantGrowthRule(a.base, None), PlantGrowthRule(a.base, Some([])))
  {
    assert a.(base := a.base.(dimension := d)).base.(dimension := None) == a.base.(dimension := None);
  }

  /** `equals()` is an equivalence. */
  lemma SameRuleIsEquivalence(a: Rule, b: Rule, c: Rule)
    ensures SameRule(a, a)
    ensures SameRule(a, b) ==> SameRule(b, a)
    ensures SameRule(a, b) && SameRule(b, c) ==> SameRule(a, c)
  {
  }
}

=== FILE: settings.dfy ===
/**
 * `Config`: the global toggles and the two active rule lists. The lists are
 * replaced wholesale by the loader and read by the decision procedure.
 */
module Settings {
  import opened Wrappers
  import opened Rules

  datatype Toggles = Toggles(
    enableBiomeControl: bool,
    enableCoordinateControl: bool,
    enablePlantGrowthControl: bool,
    enableAnimalBreedingControl: bool,
    enableDynmapIntegration: bool,
    enableJadeIntegration: bool,
    debugLogging: bool,
    giveAlmanacOnFirstJoin: bool)

  /**
   * The defaults the toggle specification declares. They reach the static
   * fields only when `onLoad` copies them in.
   */
  function DefaultToggles(): (t: Toggles)
    ensures t.enableBiomeControl && t.enableCoordinateControl
    ensures t.enablePlantGrowthControl && t.enableAnimalBreedingControl
    ensures t.enableDynmapIntegration && t.enableJadeIntegration
    ensures !t.debugLogging && !t.giveAlmanacOnFirstJoin
  {
    Toggles(true, true, true, true, true, true, false, false)
  }

  /** The static fields before `onLoad` has run: Java's `false` for every boolean. */
  function UnloadedToggles(): (t: Toggles)
    ensures !t.enableBiomeControl && !t.enableCoordinateControl
    ensures !t.enablePlantGrowthControl && !t.enableAnimalBreedingControl
    ensures !t.enableDynmapIntegration && !t.enableJadeIntegration
    ensures !t.debugLogging && !t.giveAlmanacOnFirstJoin
  {
    Toggles(false, false, false, false, false, false, false, false)
  }

  datatype Config = Config(toggles: Toggles, plantGrowthRules: seq<Rule>, animalBreedingRules: seq<Rule>)

  /** The class as initialised: unloaded toggles and two empty rule lists. */
  function InitialConfig(): (c: Config)
    ensures c.toggles == UnloadedToggles()
    ensures c.plantGrowthRules == [] && c.animalBreedingRules == []
  {
    Config(UnloadedToggles(), [], [])
  }

  /**
   * `onLoad`: copy the eight values of the loaded specification into the
   * static fields. The rule lists are not touched.
   */
  function OnLoad(c: Config, spec: Toggles): (r: Config)
    ensures r.toggles == spec
    ensures r.plantGrowthRules == c.plantGrowthRules && r.animalBreedingRules == c.animalBreedingRules
  {
    c.(toggles := spec)
  }

  /**
   * A configuration file that keeps the declared defaults turns the four
   * rule controls on at the first `onLoad`, and leaves the lists empty.
   */
  lemma FirstLoadInstallsDefaults()
    ensures var c := OnLoad(InitialConfig(), DefaultToggles());
      && !InitialConfig().toggles.enablePlantGrowthControl
      && c.toggles.enableBiomeControl && c.toggles.enableCoordinateControl
      && c.toggles.enablePlantGrowthControl && c.toggles.enableAnimalBreedingControl
      && !c.toggles.debugLogging
      && c.plantGrowthRules == [] && c.animalBreedingRules == []
  {
  }

  /**
   * Loading twice is loading once: the second copy overwrites the first.
   * Loading the toggles and installing a fresh rule list touch different
   * state, so their order does not matter.
   */
  lemma OnLoadOverwrites(c: Config, first: Toggles, second: Toggles, rules: Option<seq<Rule>>)
    ensures OnLoad(OnLoad(c, first), second) == OnLoad(c, second)
    ensures OnLoad(SetPlantGrowthRules(c, rules), first) == SetPlantGrowthRules(OnLoad(c, first), rules)
  {
  }

  /** `setPlantGrowthRules`: clear, then copy every rule of a non-null list. */
  function SetPlantGrowthRules(c: Config, rules: Option<seq<Rule>>): (r: Config)
    ensures r.plantGrowthRules == rules.GetOr([])
    ensures r.animalBreedingRules == c.animalBreedingRules && r.toggles == c.toggles
  {
    var copied := if rules.Some? then rules.value else [];
    c.(plantGrowthRules := copied)
  }

  /** `setAnimalBreedingRules`: clear, then copy every rule of a non-null list. */
  function SetAnimalBreedingRules(c: Config, rules: Option<seq<Rule>>): (r: Config)
    ensures r.animalBreedingRules == rules.GetOr([])
    ensures r.plantGrowthRules == c.plantGrowthRules && r.toggles == c.toggles
  {
    var copied := if rules.Some? then rules.value else [];
    c.(animalBreedingRules := copied)
  }

  /** Setting the two lists in either order gives the same configuration. */
  lemma RuleSettersCommute(c: Config, plant: Option<seq<Rule>>, animal: Option<seq<Rule>>)
    ensures SetAnimalBreedingRules(SetPlantGrowthRules(c, plant), animal)
         == SetPlantGrowthRules(SetAnimalBreedingRules(c, animal), plant)
  {
  }

  /** Well-typed lists: plant rules in the plant list, breeding rules in the breeding list. */
  predicate WellTyped(c: Config) {
    && (forall i :: 0 <= i < |c.plantGrowthRules| ==> c.plantGrowthRules[i].PlantGrowthRule?)
    && (forall i :: 0 <= i < |c.animalBreedingRules| ==> c.animalBreedingRules[i].AnimalBreedingRule?)
  }
}

=== FILE: text.dfy ===
/**
 * The few `java.lang.String` operations the rule engine and the almanac
 * use, restricted to ASCII case mapping.
 */
module Text {

  predicate StartsWith(s: string, prefix: string) {
    |prefix| <= |s| && s[..|prefix|] == prefix
  }

  predicate EndsWith(s: string, suffix: string) {
    |suffix| <= |s| && s[|s| - |suffix|..] == suffix
  }

  /** `String.join(sep, parts)`. */
  function Join(parts: seq<string>, sep: string): string {
    if |parts| == 0 then ""
    else if |parts| == 1 then parts[0]
    else parts[0] + sep + Join(parts[1..], sep)
  }

  /** Every piece of `s` between occurrences of `sep`, empty pieces included. */
  function SplitAll(s: string, sep: char): (parts: seq<string>)
    ensures |parts| >= 1
    ensures forall i :: 0 <= i < |parts| ==> sep !in parts[i]
  {
    if |s| == 0 then [""]
    else
      var rest := SplitAll(s[1..], sep);
      if s[0] == sep then [""] + rest
      else [[s[0]] + rest[0]] + rest[1..]
  }

  /** The trailing empty strings `String.split` discards. */
  function DropTrailingEmpty(parts: seq<string>): (r: seq<string>)
    ensures |r| <= |parts| && r == parts[..|r|]
    ensures |r| > 0 ==> r[|r| - 1] != ""
    ensures forall i :: |r| <= i < |parts| ==> parts[i] == ""
  {
    if |parts| == 0 then []
    else if parts[|parts| - 1] == "" then DropTrailingEmpty(parts[..|parts| - 1])
    else parts
  }

  /**
   * `s.split(regex)` for a regex that is a single literal character: the
   * whole string when the separator does not occur, otherwise every piece
   * with trailing empty pieces removed.
   */
  function JavaSplit(s: string, sep: char): (parts: seq<string>)
    ensures sep !in s ==> parts == [s]
    ensures forall i :: 0 <= i < |parts| ==> sep !in parts[i]
    ensures sep in s && |parts| > 0 ==> parts[|parts| - 1] != ""
    ensures sep in s ==> |parts| <= |SplitAll(s, sep)| && parts == SplitAll(s, sep)[..|parts|]
    ensures sep in s ==> forall i :: |parts| <= i < |SplitAll(s, sep)| ==> SplitAll(s, sep)[i] == ""
  {
    if sep !in s then [s] else DropTrailingEmpty(SplitAll(s, sep))
  }

  /** `s.replace(from, to)` for single characters. */
  function ReplaceChar(s: string, from: char, to: char): (r: string)
    ensures |r| == |s|
    ensures forall i :: 0 <= i < |s| ==> r[i] == (if s[i] == from then to else s[i])
  {
    if |s| == 0 then "" else [if s[0] == from then to else s[0]] + ReplaceChar(s[1..], from, to)
  }

  function UpperAscii(c: char): char {
    if 'a' <= c <= 'z' then (c as int - 32) as char else c
  }

  function LowerAscii(c: char): char {
    if 'A' <= c <= 'Z' then (c as int + 32) as char else c
  }

  function UpperAll(s: string): (r: string)
    ensures |r| == |s| && forall i :: 0 <= i < |s| ==> r[i] == UpperAscii(s[i])
  {
    if |s| == 0 then "" else [UpperAscii(s[0])] + UpperAll(s[1..])
  }

  function LowerAll(s: string): (r: string)
    ensures |r| == |s| && forall i :: 0 <= i < |s| ==> r[i] == LowerAscii(s[i])
  {
    if |s| == 0 then "" else [LowerAscii(s[0])] + LowerAll(s[1..])
  }

  /**
   * The almanac's `capitalize`: empty stays empty, a single character is
   * upper-cased, otherwise the first character is upper-cased and the rest
   * lower-cased.
   */
  function Capitalize(s: string): (r: string)
    ensures |r| == |s|
    ensures |s| > 0 ==> !('a' <= r[0] <= 'z')
    ensures forall i :: 1 <= i < |r| ==> !('A' <= r[i] <= 'Z')
    ensures forall i :: 0 <= i < |s| ==> LowerAscii(r[i]) == LowerAscii(s[i])
  {
    if |s| == 0 then s
    else if |s| == 1 then UpperAll(s)
    else UpperAll(s[..1]) + LowerAll(s[1..])
  }

  lemma CapitalizeIdempotent(s: string)
    ensures Capitalize(Capitalize(s)) == Capitalize(s)
  {
    var c := Capitalize(s);
    var cc := Capitalize(c);
    assert |cc| == |c|;
    forall i | 0 <= i < |c|
      ensures cc[i] == c[i]
    {
      if i == 0 {
        assert cc[0] == UpperAscii(c[0]);
      } else {
        assert cc[i] == LowerAscii(c[i]);
      }
    }
  }

  function DigitChar(d: nat): char
    requires d < 10
  {
    "0123456789"[d]
  }

  function DigitValue(c: char): nat {
    if '0' <= c <= '9' then c as int - '0' as int else 0
  }

  predicate AllDigits(s: string) {
    forall i :: 0 <= i < |s| ==> '0' <= s[i] <= '9'
  }

  /** A word with no capitals after its first letter only has that letter raised. */
  lemma CapitalizeWord(s: string)
    requires |s| > 0 && forall i :: 1 <= i < |s| ==> !('A' <= s[i] <= 'Z')
    ensures Capitalize(s) == [UpperAscii(s[0])] + s[1..]
  {
    if |s| > 1 {
      assert LowerAll(s[1..]) == s[1..];
    }
  }

  /** Decimal digits of `n`, most significant first, without leading zeros. */
  function NatToString(n: nat): (r: string)
    ensures |r| >= 1 && AllDigits(r)
    ensures n > 0 ==> r[0] != '0'
    decreases n
  {
    if n < 10 then [DigitChar(n)] else NatToString(n / 10) + [DigitChar(n % 10)]
  }

  /** The number a string of decimal digits denotes. */
  function ParseNat(s: string): nat
    decreases |s|
  {
    if |s| == 0 then 0 else ParseNat(s[..|s| - 1]) * 10 + DigitValue(s[|s| - 1])
  }

  lemma {:induction false} ParseNatToString(n: nat)
    ensures ParseNat(NatToString(n)) == n
    decreases n
  {
    if n >= 10 {
      var s := NatToString(n);
      assert s[..|s| - 1] == NatToString(n / 10);
      ParseNatToString(n / 10);
    }
  }

  /** `Integer.toString`: decimal, with a leading '-' for negative values. */
  function IntToString(i: int): string {
    if i < 0 then "-" + NatToString(-i) else NatToString(i)
  }

  function ParseInt(s: string): int {
    if |s| > 0 && s[0] == '-' then 0 - ParseNat(s[1..]) else ParseNat(s)
  }

  /** Distinct integers print differently: decimal printing is invertible. */
  lemma IntToStringRoundTrip(i: int)
    ensures ParseInt(IntToString(i)) == i
  {
    if i < 0 {
      var d := NatToString(-i);
      ParseNatToString(-i);
      assert ("-" + d)[0] == '-' && ("-" + d)[1..] == d;
    } else {
      var d := NatToString(i);
      ParseNatToString(i);
      assert '0' <= d[0] <= '9';
    }
  }

  lemma {:induction false} JoinCons(c: char, x: string, tail: seq<string>, sep: string)
    ensures Join([[c] + x] + tail, sep) == [c] + Join([x] + tail, sep)
  {
    if |tail| == 0 {
    } else {
      assert ([[c] + x] + tail)[1..] == tail;
      assert ([x] + tail)[1..] == tail;
    }
  }

  /** Joining the pieces with the separator gives back the original string. */
  lemma {:induction false} JoinSplitAll(s: string, sep: char)
    ensures Join(SplitAll(s, sep), [sep]) == s
    decreases |s|
  {
    if |s| > 0 {
      var rest := SplitAll(s[1..], sep);
      JoinSplitAll(s[1..], sep);
      if s[0] == sep {
        assert ([""] + rest)[1..] == rest;
      } else {
        JoinCons(s[0], rest[0], rest[1..], [sep]);
        assert [rest[0]] + rest[1..] == rest;
      }
      assert s == [s[0]] + s[1..];
    }
  }

  lemma {:induction false} SplitAllNoSep(s: string, sep: char)
    requires sep !in s
    ensures SplitAll(s, sep) == [s]
    decreases |s|
  {
    if |s| > 0 {
      SplitAllNoSep(s[1..], sep);
      assert [s[0]] + s[1..] == s;
    }
  }

  lemma {:induction false} SplitAllAtFirst(a: string, b: string, sep: char)
    requires sep !in a
    ensures SplitAll(a + [sep] + b, sep) == [a] + SplitAll(b, sep)
    decreases |a|
  {
    if |a| == 0 {
      assert a + [sep] + b == [sep] + b;
      assert ([sep] + b)[1..] == b;
    } else {
      SplitAllAtFirst(a[1..], b, sep);
      assert (a + [sep] + b)[1..] == a[1..] + [sep] + b;
      assert [a[0]] + a[1..] == a;
    }
  }

  /** `"ns:path".split(":")` is `[ns, path]` when neither part holds a colon and the path is non-empty. */
  lemma JavaSplitQualified(ns: string, path: string, sep: char)
    requires sep !in ns && sep !in path && path != ""
    ensures JavaSplit(ns + [sep] + path, sep) == [ns, path]
  {
    var s := ns + [sep] + path;
    assert s[|ns|] == sep;
    SplitAllAtFirst(ns, path, sep);
    SplitAllNoSep(path, sep);
    assert SplitAll(s, sep) == [ns, path];
  }
}

=== FILE: wrappers.dfy ===
/** Optional values, standing in for Java's nullable references. */
module Wrappers {

  datatype Option<+T> = None | Some(value: T) {

    /** The value, or `default` when absent (Java's `x != null ? x : default`). */
    function GetOr(default: T): T {
      match this
      case Some(v) => v
      case None => default
    }
  }
}
